=== FILE: README.md ===
# Smart content pipeline — deterministic core in Dafny

This project models the deterministic text-analysis layer of the
multi-agent content pipeline. That layer is the code that runs around the
language-model calls:

- the QA agent's heuristic scorer, compliance checks, recommendations and
  approval gate;
- the SEO agent's keyword, meta-tag, density and header helpers;
- the platform agent's spec table, tweet-thread splitter, LinkedIn template
  and hashtag generator;
- the editor agent's style checks and readability bands;
- the writer agent's platform-spec lookup and prompt templates;
- the utility layer: formatters, validators, the metrics collector and the
  research prompt;
- the pure post-processing of `create_content` in the backend pipeline;
- the demo pipeline's mock model router and its fixed result shapes.

Every language-model or crew call is a parameter: the model receives the
reply text (or the failure) instead of calling anything. Clock readings are
parameters too.

Modules, one per source file, plus three shared ones:

| module | file | models |
|---|---|---|
| `Optional` | optional.dfy | `Option`, `Collect`, `Min`, `Max` |
| `Text` | text.dfy | Python `str` operations: `lower`, `title`, `in`, `count`, `split(sep)`, `split()`, `strip`, `replace`, `str(int)` |
| `Assoc` | assoc.dfy | insertion-ordered dictionaries as association lists |
| `SeoAgent` | seo_agent.dfy | agents/seo_agent.py |
| `PlatformAgent` | platform_agent.dfy | backend/agents/platform_agent.py |
| `EditorAgent` | editor_agent.dfy | agents/editor_agent.py |
| `WriterAgent` | writer_agent.dfy | agents/writer_agent.py |
| `QaAgent` | qa_agent.dfy | agents/qa_agent.py |
| `Helpers` | helpers.dfy | backend/utils/helpers.py |
| `Pipeline` | pipeline.dfy | backend/main.py |
| `Demo` | demo.dfy | demo.py |

Conventions:

- Scores are counted in half points, so 10.0 is 20.
- Every float threshold is cross-multiplied. For example, `count('!') > 0.02 * words` becomes `50 * bangs > words`.
- Python's two splits are two functions:
  - `Words` is `split()`: it splits on whitespace and drops empty pieces.
  - `Split` is `split(sep)`: it keeps empty pieces and returns at least one.
- `Count` counts non-overlapping matches from left to right, as `str.count` does.
- A dictionary is a sequence of key/value pairs in insertion order. `Put` overwrites a key in place and appends a new key at the end.
- Casing, `isalnum` and `title` cover ASCII only. Whitespace is the set Python's `isspace` accepts for ASCII plus the common Unicode spaces.
- A `None` list argument is the empty list, so the `None` defaults of `platforms` and of the keyword list are `[]` defaults. A dictionary key that is absent is `None` in the `SeoData` record.
- A platform version is `Post(text)` or `Thread(tweets)`. Python's `len` counts characters of a post and tweets of a thread.

## Model

| member | source | states |
|---|---|---|
| SeoAgent.GenerateKeywords | agents/seo_agent.py:52-60 | exactly six suggestions, the first the topic itself, every one containing the topic |
| SeoAgent.CreateMetaTitle | agents/seo_agent.py:62-65 | the primary keyword (first keyword, or the topic when there are none) in title case, then the fixed 33-character suffix |
| SeoAgent.MetaTitleBand | agents/seo_agent.py:64-65 | the title is 50-60 characters long exactly when the primary keyword has 17-27 characters |
| SeoAgent.CreateMetaDescription | agents/seo_agent.py:67-70 | at most the first 120 characters of the preview, then the call to action naming the topic; the length is that prefix plus topic plus 62 |
| SeoAgent.Density | agents/seo_agent.py:80 | density times word count equals 100 times the keyword count; 0 when the text has no tokens |
| SeoAgent.AnalyzeKeywordDensity | agents/seo_agent.py:72-86 | one entry per distinct keyword, keys exactly the keywords, each entry the keyword's count and density |
| SeoAgent.DensityKeysOrder | agents/seo_agent.py:72-86 | the entries are in the order in which the keywords are first listed, as a Python dict filled in that order keeps them |
| SeoAgent.KeywordCountCaseInsensitive | agents/seo_agent.py:74-79 | counting ignores case on both sides, and the count is positive exactly when the lower-cased keyword occurs in the lower-cased text |
| SeoAgent.KeywordMatchesInsideWords | agents/seo_agent.py:79 | matching is by substring: "art" is counted inside "Artificial" |
| SeoAgent.ParagraphCount | agents/seo_agent.py:91 | splitting on a blank line gives at least one paragraph |
| SeoAgent.HeadersFor | agents/seo_agent.py:92-107 | the suggestions are a prefix of the fixed five-item plan, of length 0, 1, 2 or 5 at the thresholds >1, >3, >5 |
| SeoAgent.HeadersMonotone | agents/seo_agent.py:88-107 | more paragraphs never give fewer suggestions; the shorter list is a prefix of the longer |
| SeoAgent.HeadersIffBlankLine | agents/seo_agent.py:91-95 | the paragraph count is the number of "\n\n" plus one, so headers are suggested exactly when the text has a blank line |
| PlatformAgent.SpecKeys | backend/agents/platform_agent.py:44-102 | the spec table lists twitter, linkedin, instagram, facebook and blog, in that order |
| PlatformAgent.SpecTable | backend/agents/platform_agent.py:46-102 | character limits 280, 3000, 2200 and 63206; the blog has a word-count band "800-2000 words" and no character limit |
| PlatformAgent.FirstPieces | backend/agents/platform_agent.py:107 | splitting on '.' and keeping the first five gives one to five pieces |
| PlatformAgent.ThreadFrom | backend/agents/platform_agent.py:110-114 | every tweet is non-empty, at most 280 characters and ends with '.'; no more tweets than pieces |
| PlatformAgent.AdaptForTwitter | backend/agents/platform_agent.py:104-116 | at most five tweets, each at most 280 characters and ending with '.' |
| PlatformAgent.Survivors | backend/agents/platform_agent.py:110-114 | the reference thread: the strictly increasing numbers of the pieces that survive |
| PlatformAgent.SurvivorsMembers | backend/agents/platform_agent.py:111-113 | a piece number is a survivor exactly when its stripped piece is non-blank and its tweet fits in 280 characters |
| PlatformAgent.ThreadFromIsSurvivors | backend/agents/platform_agent.py:110-114 | the loop's thread equals the candidates of the surviving pieces, in input order |
| PlatformAgent.TwitterThread | backend/agents/platform_agent.py:104-116 | the thread of a text is exactly the candidates of its surviving pieces |
| PlatformAgent.CandidateLength | backend/agents/platform_agent.py:112-113 | with at most five pieces a candidate is its piece plus five characters, starts with its number, and survives exactly when the piece has 1-275 characters |
| PlatformAgent.SurvivorTweets | backend/agents/platform_agent.py:110-114 | a piece's candidate is in the thread exactly when that piece survives |
| PlatformAgent.TwitterThreadMembership | backend/agents/platform_agent.py:110-114 | the i-th piece's tweet is in the thread of a text exactly when the piece survives |
| PlatformAgent.ThreadNumberingGap | backend/agents/platform_agent.py:110-112 | a blank piece is skipped but still counted: pieces "a", "", "b" give "1/3 a." and "3/3 b." |
| PlatformAgent.AdaptForLinkedIn | backend/agents/platform_agent.py:118-132 | the template holds the first 1000 characters of the content followed by "..." and names the topic twice; its length is fixed by content prefix and topic |
| PlatformAgent.GenerateHashtags | backend/agents/platform_agent.py:134-155 | no tags for a name outside the table; otherwise "#" + topic without spaces, the same with "Tips", then "#Innovation" and "#Technology", then "#Professional" for linkedin and "#Inspiration" for instagram and nothing more for the rest (the list cut to five); every tag starts with '#' and has no space |
| PlatformAgent.HashtagPlatforms | backend/agents/platform_agent.py:136-139 | tags are produced exactly for the five table names, compared case-sensitively, so "Twitter" gets none |
| EditorAgent.LongSentenceCount | agents/editor_agent.py:54-55 | the number of long pieces, positive exactly when some piece has more than 25 tokens; a single piece counts 1 exactly when it is long |
| EditorAgent.LongSentenceCountAppend | agents/editor_agent.py:54-55 | the list comprehension judges each piece on its own: the count over two lists of pieces is the sum of the counts |
| EditorAgent.RaisedIssues | agents/editor_agent.py:48-65 | at most three issues, each present exactly when its test fires, as many as the tests that fire, in the order exclamation, long sentences, passive voice |
| EditorAgent.GrammarCheck | agents/editor_agent.py:46-65 | more than three '!' raises the exclamation issue; long sentences are reported with their exact count; passive voice fires when 10 times the indicator count exceeds 3 times the piece count; one message per firing test and no other, in the order of the tests |
| EditorAgent.GrammarMessages | agents/editor_agent.py:52-63 | one message per issue, in order: the k-th message is the k-th issue's message |
| EditorAgent.PassiveMatchesInsideWords | agents/editor_agent.py:60-61 | indicators are counted as substrings: "Washington" contains "was" |
| EditorAgent.ReadabilityScore | agents/editor_agent.py:67-82 | no verdict exactly when there are no tokens; otherwise good below 15 tokens per piece, moderate below 20, else the advice to shorten |
| EditorAgent.ReadabilityUnableIffBlank | agents/editor_agent.py:69-73 | the piece list is never empty, so only a blank text gets no verdict |
| EditorAgent.ReadabilityWithoutPeriod | agents/editor_agent.py:69-78 | a text without a period is one sentence: it reads well exactly when it has 1-14 tokens |
| WriterAgent.SpecFor | agents/writer_agent.py:69-76 | the spec of the lower-cased name when the table has it, otherwise the twitter spec |
| WriterAgent.SpecForCaseInsensitive | agents/writer_agent.py:76 | names that lower-case alike get the same spec; the twitter spec comes back exactly for "twitter" or an unknown name |
| WriterAgent.SpecForLimits | agents/writer_agent.py:69-76 | the limit is one of 280, 1300, 500, 2200 |
| WriterAgent.SocialMediaPrompt | agents/writer_agent.py:67-87 | the prompt names the platform as given and states the limit and style of the selected spec |
| WriterAgent.LinkedInPromptLimit | agents/writer_agent.py:71-83 | "LinkedIn" is asked for at most 1300 characters |
| WriterAgent.BlogPostPrompt | agents/writer_agent.py:49-65 | the prompt carries the topic, audience and tone sentence, with defaults "general audience" and "professional", and the research data |
| QaAgent.LongWords | agents/qa_agent.py:108-112 | the distinct tokens longer than four characters, ordered by where each first occurs, as the insertion order of the `word_freq` dict |
| QaAgent.Frequent | agents/qa_agent.py:114 | a candidate is kept exactly when 100 times its count exceeds 3 times the number of all tokens |
| QaAgent.FrequentAppend | agents/qa_agent.py:114 | the comprehension tests each candidate on its own: filtering two lists of candidates is filtering each, appended |
| QaAgent.FrequentKeepsOrder | agents/qa_agent.py:114 | filtering keeps the candidates' first-occurrence order |
| QaAgent.RepetitiveWords | agents/qa_agent.py:108-114 | exactly the lower-cased tokens longer than four characters whose frequency exceeds 3% of all tokens, each once, in the order of their first occurrence |
| QaAgent.ShortTextsAreRepetitive | agents/qa_agent.py:108-114 | in a text of at most 33 tokens every long token is repetitive |
| QaAgent.SentencesWithoutPeriod | agents/qa_agent.py:120-122 | without a period the text is one sentence, too long exactly when it has more than 25 tokens |
| QaAgent.FirstThree | agents/qa_agent.py:116 | the message names the first three repetitive words, or all when fewer |
| QaAgent.LengthIssues | agents/qa_agent.py:94-100 | too short below 100 tokens, too long above 3000, never both |
| QaAgent.Assess | agents/qa_agent.py:91-126 | the score lies in 7.5-10 so the floor at 1 never binds; at most four issues; score is 10 minus half a point per issue minus another half for a too-short text; too short exactly below 100 tokens, too long exactly above 3000; the issues come in check order (length, exclamation, repetition, sentences), so none repeats |
| QaAgent.CheckIssuesInOrder | agents/qa_agent.py:94-124 | each check appends after the earlier checks, so the issues are ordered by check |
| QaAgent.AssessIssues | agents/qa_agent.py:95-124 | the issues are exactly the length issue and the three further issues whose tests fire |
| QaAgent.AssessRaises | agents/qa_agent.py:103-124 | exclamation issue exactly when 50 times the '!' count exceeds the token count; repetition issue exactly when some word is repetitive, naming the first three; sentence issue exactly when the average exceeds 25 |
| QaAgent.CheckPlatformCompliance | agents/qa_agent.py:143-158 | one entry per version whose platform is one of the four exact keys, mapped to length at most the limit (inclusive); other platforms are left out |
| QaAgent.CheckSeoCompliance | agents/qa_agent.py:160-168 | four checks: title 50-60, description 150-160, at least one keyword, at least one header; missing keys count as empty |
| QaAgent.RecommendationsAsWritten | agents/qa_agent.py:170-186 | at most one advice per message, each the first match of some message's tests; when every message is matched, the k-th advice is the k-th message's; when none is, no advice |
| QaAgent.RecommendationsAsWrittenAppend | agents/qa_agent.py:172-186 | the loop treats each message on its own: the advice of two lists of messages is the first list's followed by the second's |
| QaAgent.RecommendationsAsWrittenOne | agents/qa_agent.py:174-184 | a single message gets its first-matching advice, or nothing when no test matches |
| QaAgent.RecommendationsAsWrittenAgree | agents/qa_agent.py:174-180 | without a repetition or sentence-length issue the source's advice is the intended advice, item for item |
| Optional.Collect | agents/qa_agent.py:172-186 | the loop that appends a result whenever there is one: never more results than items, each from some item, item for item when every item has one, none when no item has one |
| Optional.CollectAppend | agents/qa_agent.py:172-186 | collecting over two lists is collecting over each, appended |
| QaAgent.TooShortAdvice | agents/qa_agent.py:174-176 | a too-short text gets the advice to add detail |
| QaAgent.TooLongAdvice | agents/qa_agent.py:174-178 | a too-long text gets the advice to split it |
| QaAgent.ExclamationAdvice | agents/qa_agent.py:174-180 | too many exclamation marks get the advice to calm the tone |
| QaAgent.SentenceIssueGetsPostAdvice | agents/qa_agent.py:177-184 | the sentence-length issue contains "too long" and so gets the split-the-post advice, never the shorten-sentences advice |
| QaAgent.RepetitiveIssueGetsNoAdvice | agents/qa_agent.py:181-182 | the case-sensitive "repetitive" test misses "Repetitive words detected: content", which then gets no advice |
| QaAgent.Recommendations | agents/qa_agent.py:170-186 | one advice per issue, in issue order, each the advice meant for its kind |
| QaAgent.RecommendationsAgree | agents/qa_agent.py:175-184 | for length and exclamation issues the source's tests give the intended advice; the intended advice tells the five kinds apart |
| QaAgent.GenerateQaReport | agents/qa_agent.py:128-141 | the report carries the assessment's score and messages, both compliance checks, the source's first-match recommendations for those messages, and approval exactly when the score is at least 7 and there are at most two issues |
| QaAgent.GenerateQaReportIntended | agents/qa_agent.py:128-141 | the corrected report: every field as in the source's report except the recommendations, which are one intended advice per issue, in order |
| QaAgent.ReportsAgree | agents/qa_agent.py:170-186 | the source's report and the corrected one are equal whenever there is no repetition or sentence-length issue |
| QaAgent.ApprovalByIssueCount | agents/qa_agent.py:126-138 | since the score never drops below 7.5, approval holds exactly when there are at most two issues |
| QaAgent.ShortTextHasTwoIssues | agents/qa_agent.py:94-117 | a text of at most 33 tokens with a long word is too short and repetitive, so it scores at most 8.5 |
| Helpers.MetaBlock | backend/utils/helpers.py:49-53 | nothing for missing or empty metadata; otherwise the published line with the given date (or today's), then the author line when an author is given, then a blank line |
| Helpers.FormatBlogPost | backend/utils/helpers.py:44-56 | the heading, then the metadata block, then the content, in that order |
| Helpers.BlogPostWithoutMeta | backend/utils/helpers.py:47-56 | without metadata (missing or empty) the post is "# " + title + "\n\n" + content |
| Helpers.BlogPostDate | backend/utils/helpers.py:50 | a given date is published instead of today's |
| Helpers.TruncateForTwitter | backend/utils/helpers.py:61-64 | for a name that lower-cases to "twitter", over-long content becomes its first 237 characters and "...", exactly 240; everything else is untouched |
| Helpers.FormatSocialPost | backend/utils/helpers.py:58-70 | without tags the truncated content; with tags a blank line and the "#"-prefixed tags joined by spaces after it |
| Helpers.SocialPostIdempotent | backend/utils/helpers.py:61-64 | formatting without tags twice equals once, and a twitter post is at most 240 characters |
| Helpers.HashtagLineHasTags | backend/utils/helpers.py:67 | every tag appears after a '#' in the tag line |
| Helpers.DensityLinesHas | backend/utils/helpers.py:88-89 | every entry's line is present among the density lines |
| Helpers.DensityLinesAppend | backend/utils/helpers.py:88-89 | the loop writes one line per entry in order: the lines of two runs of entries are the first run's lines then the second's |
| Helpers.DensityLinesOne | backend/utils/helpers.py:88-89 | a single entry gives exactly its own line |
| Helpers.FormatSeoReport | backend/utils/helpers.py:72-91 | the heading, then the title, description, keyword and density sections in that order, each present exactly when its key is; every density line is in the report |
| Helpers.EmptySeoReport | backend/utils/helpers.py:72-91 | with no key present the report is the heading alone |
| Helpers.DensitySectionHas | backend/utils/helpers.py:86-89 | every density line survives whatever comes before the section |
| Helpers.IndexOf | backend/utils/helpers.py:131 | the first position of a character, or none |
| Helpers.LastIndexOf | backend/utils/helpers.py:131 | the last position of a character, or none |
| Helpers.EmailMatchShape | backend/utils/helpers.py:131-132 | what the scanning matcher accepts has the pattern's shape |
| Helpers.EmailMatchIff | backend/utils/helpers.py:131-132 | the scanning matcher accepts exactly the language of the e-mail pattern |
| Helpers.ValidateEmail | backend/utils/helpers.py:127-132 | true exactly for a non-empty local part, '@', a non-empty domain, '.', and at least two letters, optionally followed by one newline |
| Helpers.EmailTrailingNewline | backend/utils/helpers.py:131-132 | "a@b.co\n" is accepted because `$` matches before a final newline |
| Helpers.ProfanityMonotone | backend/utils/helpers.py:142-147 | a flagged text stays flagged whatever is added around it, and case does not matter |
| Helpers.ContentLengthWiden | backend/utils/helpers.py:150-152 | widening the inclusive bounds keeps valid content valid |
| Helpers.NewMetrics | backend/utils/helpers.py:157-164 | a fresh collector has no content, agents or errors, and zero processing time and success rate |
| Helpers.RecordAgentUsage | backend/utils/helpers.py:166-168 | adds the agent to the set and changes nothing else |
| Helpers.RecordContentCreation | backend/utils/helpers.py:170-172 | raises the content count by one and changes nothing else |
| Helpers.RecordError | backend/utils/helpers.py:174-179 | appends one error record with its timestamp and changes nothing else |
| Helpers.RecordProcessingTime | backend/utils/helpers.py:181-183 | sets the time and changes nothing else |
| Helpers.CalculateSuccessRate | backend/utils/helpers.py:185-188 | unchanged without attempts; otherwise rate times attempts equals 100 times the content count |
| Helpers.LastFive | backend/utils/helpers.py:198 | the last five errors, or all of them when fewer |
| Helpers.MetricsSummaryOf | backend/utils/helpers.py:190-199 | the error count is the number of errors and the latest errors are the last five of them; content count, agents, processing time and success rate are copied |
| Helpers.AgentUsageIdempotent | backend/utils/helpers.py:166-168 | recording an agent twice is recording it once |
| Helpers.ContentCountAfter | backend/utils/helpers.py:170-172 | n recordings raise the count by exactly n and touch nothing else |
| Helpers.LatestErrorAfterRecord | backend/utils/helpers.py:174-199 | after recording, the newest error is the last of the latest errors |
| Helpers.ResearchPrompt | backend/utils/helpers.py:205-224 | "Research the topic: " + topic first, the fixed instructions last, and the focus line in between only when there are focus areas |
| Helpers.ResearchPromptNamesAreas | backend/utils/helpers.py:209-210 | every focus area is named in the prompt |
| Pipeline.KeywordsFor | backend/main.py:121-122 | given keywords are used; none or an empty list gives the six generated ones |
| Pipeline.BuildSeoData | backend/main.py:240-247 | all five keys present; the title is the first keyword title-cased plus the fixed suffix (the content's first 100 characters stand in only when there is no keyword, which the run never passes); the description is up to 120 characters of the content, the fixed lead, the first 100 characters and the fixed tail; each keyword's density entry is its count and density in the content; headers suggested from the content |
| Pipeline.DescriptionOfContent | backend/main.py:244 | `content[:100]` as topic and `content[:200]` as preview give a description that opens with up to 120 characters of the content itself |
| Pipeline.PipelineSeoCompliance | backend/main.py:240-247 | the description is in band only for content of 44-49 characters; keywords pass when there are any; headers pass when the content has a blank line; the title passes when the first keyword has 17-27 characters |
| Pipeline.LongContentFailsDescription | backend/main.py:244 | content of 120 characters or more gets a description of 182 characters plus up to 100 (282 from 200 characters on), which always fails its check |
| Pipeline.VersionFor | backend/main.py:268-273 | for a name that lower-cases to "twitter", the thread `adapt_for_twitter` builds (at most five tweets); the LinkedIn post for "linkedin"; otherwise the first 1000 characters |
| Pipeline.AdaptForPlatforms | backend/main.py:251-275 | one entry per distinct requested name, under the name as given, holding that name's version |
| Pipeline.PlatformKeysOrder | backend/main.py:267-273 | the entries come in the order in which the names are first requested, as the dict filled by the loop keeps them |
| Pipeline.TwitterAlwaysCompliant | backend/main.py:268-269 | a requested "twitter" is always compliant, because the check measures the thread by its tweet count |
| Pipeline.FacebookCompliance | backend/main.py:273 | a requested "facebook" is compliant exactly when the content has at most 500 characters |
| Pipeline.CapitalisedNameUnchecked | backend/main.py:268-269 | "Twitter" gets a thread but no compliance entry, since the check's table is case-sensitive |
| Pipeline.SuccessMetrics | backend/main.py:105-148 | a successful run records its agents (platform only when platforms were requested), the time, and one content; errors and success rate are untouched |
| Pipeline.VersionsOf | backend/main.py:131-136 | keys distinct and exactly the requested names (none without platforms); each name holds that name's version |
| Pipeline.Complete | backend/main.py:146-164 | the results hold the topic, content type, audience and tone as requested, the research, writing and editing replies as research data, initial and edited content, the SEO reply as final content, the SEO data of the edited content, the versions of the final content, the source's QA report of those (first-match recommendations) with the QA reply as feedback, the elapsed time, and the summary of the updated collector |
| Pipeline.Abort | backend/main.py:172-175 | the first failing crew's message is raised; agents recorded before it stay recorded, the error is recorded, no content is counted |
| Pipeline.CreateContent | backend/main.py:76-175 | the run completes exactly when every called crew replies, and then every field is as the completed run states it (SEO data of the edited content, versions of the final content, the source's QA report, the elapsed time, the updated collector); otherwise it raises with the first failure's message, the agents recorded before it and one more error |
| Pipeline.DefaultArguments | backend/main.py:76-82 | called with only a topic, a run is a blog post for a general audience in a professional tone with no platform versions |
| Pipeline.SuccessRateUntouched | backend/main.py:105-148 | a run never sets the success rate: the collector and the summary keep the one it had, so a fresh collector reports 0 |
| Pipeline.RunApproval | backend/main.py:140-142 | a completed run is approved exactly when its final content has at most two issues |
| Pipeline.KeepStemChars | backend/main.py:310 | keeps alphanumerics, space, '-' and '_'; a text made only of those is kept whole; one character is kept exactly when it is one of those |
| Pipeline.KeepStemCharsAppend | backend/main.py:310 | the filter goes character by character: the kept characters of two pieces are the first's then the second's |
| Pipeline.SafeStem | backend/main.py:310-311 | the stem is the kept characters with the trailing spaces cut off and every remaining space turned into '_'; it holds only alphanumerics, '-' and '_' |
| Pipeline.StemFixed | backend/main.py:310-311 | a text of stem characters is its own stem |
| Pipeline.SafeStemIdempotent | backend/main.py:310-311 | the stem of a stem is itself |
| Pipeline.LeadingSpaceKept | backend/main.py:310-311 | only the right side is stripped: " ai" becomes "_ai" |
| Pipeline.NamesFor | backend/main.py:314-327 | three different names, each starting with the stem |
| Pipeline.Without | backend/main.py:329-330 | exactly the keys other than the dropped one; a key list without it is returned unchanged |
| Pipeline.WithoutAppend | backend/main.py:329-330 | the comprehension keeps order: dropping from two lists is dropping from each, appended |
| Pipeline.JsonKeys | backend/main.py:329-330 | "metrics" is the last result key, so the JSON file keeps the first twelve keys in order |
| Pipeline.SaveResults | backend/main.py:307-331 | the post is heading plus final content without metadata; the names are built from the topic's stem; the report is the SEO report of the run's data; the JSON keys are the first twelve result keys, without "metrics" |
| Demo.MockInvoke | demo.py:18-33 | each reply comes back exactly when its keyword is in the lower-cased prompt and no earlier keyword is: research, then write or content, edit, seo, platform, quality or qa, else the generic reply |
| Demo.ResearchPromptRouted | demo.py:272 | the research prompt always gets the research reply |
| Demo.WritePromptRouted | demo.py:279 | the writing prompt gets the research or the writing reply |
| Demo.LeadPromptRouted | demo.py:20-23 | a prompt whose lead mentions "content" but not "research" gets the writing reply unless its tail mentions research |
| Demo.EditPromptGetsWriting | demo.py:286 | the edit prompt gets the writing reply, since "content" is tested before "edit" |
| Demo.QaPromptGetsWriting | demo.py:323 | the QA prompt gets the writing reply |
| Demo.SeoPromptRouted | demo.py:296 | the SEO prompt gets the writing reply unless a keyword mentions research |
| Demo.PlatformPromptRouted | demo.py:310 | the platform prompt gets the writing reply unless a platform name mentions research |
| Demo.DemoKeywords | demo.py:293-294 | given keywords are kept; otherwise exactly three: the lower-cased topic, the lower-cased topic + " guide", and "healthcare technology" |
| Demo.ConstantDensity | demo.py:302 | one entry per distinct keyword, each with count 5 and density 1.2 |
| Demo.DemoSeoData | demo.py:298-303 | keywords as given, no headers key, title the topic then the fixed suffix, description the fixed lead, the topic and the fixed tail, character by character |
| Demo.DemoSeoCompliance | demo.py:298-303 | the QA check never sees headers, always sees keywords, and passes title and description only for topics of 12-22 and 29-39 characters |
| Demo.DemoVersions | demo.py:309-318 | none without platforms; otherwise always linkedin, twitter (three tweets) and blog (the SEO reply), whatever was requested |
| Demo.WritePrompt | demo.py:279 | the writing prompt starts with "write " |
| Demo.DemoCreateContent | demo.py:254-350 | research reply for research, writing reply for editing and QA feedback, the SEO reply routed by the keywords, the fixed QA report, the platforms as given, and the topic, content type, audience and tone as requested |
| Demo.DemoDefaultArguments | demo.py:254-256 | called with only a topic, the demo makes a blog post for "professionals" in a professional tone with no platform versions, an audience the backend's default does not share |
| Demo.DemoDraftRouted | demo.py:279 | the draft is the research or the writing reply |
| Demo.DemoSafeTopic | demo.py:355-356 | the kept characters stripped on both sides with every space turned into '_'; empty exactly when the kept characters are all spaces |
| Demo.DemoStemDropsLeadingSpace | demo.py:355-356 | a leading space is dropped by the demo's stem but kept as '_' by the backend's, so the demo's is shorter |
| Demo.DemoName | demo.py:357 | "demo_results_", the stem, "_", the seconds in decimal and ".json", so the seconds read back from the name |
| Demo.DemoFilename | demo.py:354-357 | the given name, or "demo_results_" + the demo stem + "_" + the seconds + ".json", with the seconds reading back |
| Text.Split | agents/editor_agent.py:54 | splitting on a separator gives at least one piece |
| Text.SplitCount | agents/seo_agent.py:91 | the number of pieces is the number of separators plus one |
| Text.SplitJoin | agents/editor_agent.py:54 | joining the pieces with the separator gives the text back |
| Text.Words | agents/qa_agent.py:94 | the whitespace tokens are non-empty and contain no whitespace |
| Text.WordsAtSpace | agents/qa_agent.py:94 | a whitespace character separates tokens: the tokens around it are those of each side |
| Text.WordsOfToken | agents/qa_agent.py:94 | a non-empty run without whitespace is one token |
| Text.WordsEmptyIff | agents/editor_agent.py:70-73 | there are no tokens exactly when the text is all whitespace |
| Text.WordsLowerLength | agents/qa_agent.py:108 | lower-casing does not change the number of tokens |
| Text.CountPositive | agents/seo_agent.py:79 | the count is positive exactly when the substring occurs |
| Text.LowerIdempotent | agents/seo_agent.py:74-79 | lower-casing twice is lower-casing once |
| Text.StripEmptyIff | backend/agents/platform_agent.py:111 | a piece strips to nothing exactly when it is all whitespace, that is, when it has no tokens |
| Text.ParseNatToString | backend/agents/platform_agent.py:112 | the decimal rendering of a number reads back as that number |
| Assoc.Get | agents/writer_agent.py:76 | a lookup misses exactly when the key is absent |
| Assoc.Put | agents/seo_agent.py:81 | assignment keeps the key order, appends a new key, overwrites the value, leaves other keys alone and keeps keys distinct |

## Left out

- Language-model and crew calls (CrewAI agents, tasks and `kickoff`, the LangChain chat models): each reply is a parameter of the run. The task prompts handed to the crews, and the prompt text in `_quality_assurance`, are not modelled.
- backend/agents/research_agent.py is not part of this model: it does network search and page scraping.
- The Flask API, the Streamlit app and the React front ends are UI and HTTP plumbing.
- `ConfigManager`, `FileManager`, and the file writes of `_save_results` and `save_demo_results` are filesystem I/O. The model computes the names and contents, not the writes. An exception raised while saving is not modelled.
- The clock (`time.time`, `time.sleep`, `strftime`, `datetime.now`) is a parameter, and `print` is left out.
- SeoAgent.Density: the density is an exact fraction; the source's `round(…, 2)` is left out. The report renders a density through a `render` parameter.
- The demo's 9.2 is 92 tenths and its 1.2 is the fraction 12/10.
- Helpers.CalculateSuccessRate: the rate is a real number, so float division is exact here.
- Casing, `title`, `isalnum` and `isdigit` cover ASCII only. Unicode letters are treated as non-letters.
- `validate_url` is left out: its pattern is low value next to the e-mail pattern.
- `get_metrics_summary` turns the agent set into a list whose order Python does not fix, so the model keeps the set.
- Demo.MockInvoke: the mock replies are their kinds, not their texts, since nothing inspects the texts.
- backend/main.py imports every agent from backend/agents. Of those files only the platform and research agents are part of this model; the writer, editor, SEO and QA agents are modelled from the agents directory, on the assumption that the backend copies match it.
- KeepStemChars: its own contract pins down only single characters and texts made wholly of stem characters; the order of the kept characters in longer text is stated by Pipeline.KeepStemCharsAppend.
- Without: its own contract states membership and the unchanged case; the order of the kept keys is stated by Pipeline.WithoutAppend.
- Words: its own contract states the token shape; which tokens a text has is stated by Text.WordsAtSpace and Text.WordsOfToken.
- `create_agent`, `create_*_task` and `writing_prompt` only build prompts or crew objects and are not modelled.

## Findings

| source | as written | input that shows it | evidently intended | confidence | as-written member | corrected member |
|---|---|---|---|---|---|---|
| agents/qa_agent.py:181-182 | the repetition message starts with "Repetitive" but the test looks for lower-case "repetitive" | a text whose repetitive word is "content": "Repetitive words detected: content" gets no advice | the synonym advice for every repetition issue | high; not executed | QaAgent.RepetitiveIssueGetsNoAdvice | QaAgent.Recommendations |
| agents/qa_agent.py:177-184 | "too long" is tested before "sentence length", and the sentence message "Average sentence length is too long" contains both | any text averaging more than 25 tokens per sentence gets "Consider breaking into multiple posts or sections" | "Break long sentences into shorter, clearer ones" | high; not executed | QaAgent.SentenceIssueGetsPostAdvice | QaAgent.Recommendations |

The backend pipeline uses the report as written. `QaAgent.GenerateQaReportIntended` is the report with the corrected recommendations, and `QaAgent.ReportsAgree` shows the two differ only for texts with a repetition or sentence-length issue.

=== FILE: assoc.dfy ===
/** Python dictionaries as association lists: a sequence of key/value pairs
    in insertion order, which is the order Python iterates a dict in. */
module Assoc {
  import opened Optional

  /** The keys in iteration order, Python's `list(d)`. */
  function Keys<K, V>(m: seq<(K, V)>): (ks: seq<K>)
    ensures |ks| == |m|
    ensures forall i :: 0 <= i < |m| ==> ks[i] == m[i].0
    decreases |m|
  {
    if m == [] then [] else [m[0].0] + Keys(m[1..])
  }

  predicate Distinct<K(==)>(ks: seq<K>) {
    forall i, j :: 0 <= i < j < |ks| ==> ks[i] != ks[j]
  }

  /** Python's `d.get(k)`. */
  function Get<K(==), V>(m: seq<(K, V)>, k: K): (r: Option<V>)
    ensures r.None? <==> k !in Keys(m)
    decreases |m|
  {
    if m == [] then None
    else if m[0].0 == k then Some(m[0].1)
    else Get(m[1..], k)
  }

  /** What `d[k] = v` promises of the updated dict `r`: an existing key
      keeps its place and takes the new value, a new key goes to the end,
      and no other key changes. */
  ghost predicate Updated<K(!new), V>(m: seq<(K, V)>, k: K, v: V, r: seq<(K, V)>) {
    && Keys(r) == (if k in Keys(m) then Keys(m) else Keys(m) + [k])
    && Get(r, k) == Some(v)
    && (forall k' :: k' != k ==> Get(r, k') == Get(m, k'))
    && (Distinct(Keys(m)) ==> Distinct(Keys(r)))
  }

  /** Overwriting the first key. */
  lemma UpdatedFront<K(!new), V>(m: seq<(K, V)>, k: K, v: V)
    requires m != [] && m[0].0 == k
    ensures Updated(m, k, v, [(k, v)] + m[1..])
  {
    var r := [(k, v)] + m[1..];
    assert r[1..] == m[1..];
    assert Keys(r) == Keys(m) by {
      assert forall i :: 0 <= i < |m| ==> Keys(r)[i] == Keys(m)[i];
    }
  }

  lemma KeysCons<K, V>(x: (K, V), m: seq<(K, V)>)
    ensures Keys([x] + m) == [x.0] + Keys(m)
  {
    assert ([x] + m)[1..] == m;
  }

  lemma DistinctCons<K>(x: K, ks: seq<K>)
    requires Distinct(ks) && x !in ks
    ensures Distinct([x] + ks)
  {
    var l := [x] + ks;
    forall i, j | 0 <= i < j < |l|
      ensures l[i] != l[j]
    {
      assert l[j] == ks[j - 1];
      if i > 0 {
        assert l[i] == ks[i - 1];
      }
    }
  }

  lemma BehindKeys<K, V>(m: seq<(K, V)>, k: K, rest: seq<(K, V)>)
    requires m != [] && m[0].0 != k
    requires Keys(rest) == (if k in Keys(m[1..]) then Keys(m[1..]) else Keys(m[1..]) + [k])
    ensures Keys([m[0]] + rest) == (if k in Keys(m) then Keys(m) else Keys(m) + [k])
  {
    KeysCons(m[0], rest);
    KeysCons(m[0], m[1..]);
    assert [m[0]] + m[1..] == m;
    if k !in Keys(m[1..]) {
      assert [m[0].0] + (Keys(m[1..]) + [k]) == ([m[0].0] + Keys(m[1..])) + [k];
    }
  }

  lemma BehindGet<K(!new), V>(m: seq<(K, V)>, k: K, v: V, rest: seq<(K, V)>)
    requires m != [] && m[0].0 != k
    requires Get(rest, k) == Some(v)
    requires forall k' :: k' != k ==> Get(rest, k') == Get(m[1..], k')
    ensures Get([m[0]] + rest, k) == Some(v)
    ensures forall k' :: k' != k ==> Get([m[0]] + rest, k') == Get(m, k')
  {
    assert ([m[0]] + rest)[1..] == rest;
  }

  lemma BehindDistinct<K, V>(m: seq<(K, V)>, k: K, rest: seq<(K, V)>)
    requires m != [] && m[0].0 != k && Distinct(Keys(m))
    requires Keys(rest) == (if k in Keys(m[1..]) then Keys(m[1..]) else Keys(m[1..]) + [k])
    ensures Distinct(Keys([m[0]] + rest))
  {
    KeysCons(m[0], rest);
    assert forall i :: 0 <= i < |m| - 1 ==> Keys(m[1..])[i] == Keys(m)[i + 1];
    assert Distinct(Keys(m[1..]));
    assert Distinct(Keys(rest)) by {
      if k !in Keys(m[1..]) {
        DistinctSnoc(Keys(m[1..]), k);
      }
    }
    assert m[0].0 !in Keys(rest);
    DistinctCons(m[0].0, Keys(rest));
  }

  lemma DistinctSnoc<K>(ks: seq<K>, x: K)
    requires Distinct(ks) && x !in ks
    ensures Distinct(ks + [x])
  {
  }

  /** Updating behind a different first key. */
  lemma UpdatedBehind<K(!new), V>(m: seq<(K, V)>, k: K, v: V, rest: seq<(K, V)>)
    requires m != [] && m[0].0 != k
    requires Updated(m[1..], k, v, rest)
    ensures Updated(m, k, v, [m[0]] + rest)
  {
    BehindKeys(m, k, rest);
    BehindGet(m, k, v, rest);
    if Distinct(Keys(m)) {
      BehindDistinct(m, k, rest);
    }
  }

  /** Python's `d[k] = v`. */
  function Put<K(==,!new), V>(m: seq<(K, V)>, k: K, v: V): (r: seq<(K, V)>)
    ensures Keys(r) == if k in Keys(m) then Keys(m) else Keys(m) + [k]
    ensures Get(r, k) == Some(v)
    ensures forall k' :: k' != k ==> Get(r, k') == Get(m, k')
    ensures Distinct(Keys(m)) ==> Distinct(Keys(r))
    decreases |m|
  {
    if m == [] then
      assert Keys([(k, v)]) == [k];
      [(k, v)]
    else if m[0].0 == k then
      UpdatedFront(m, k, v);
      [(k, v)] + m[1..]
    else
      var rest := Put(m[1..], k, v);
      UpdatedBehind(m, k, v, rest);
      [m[0]] + rest
  }

  /** A lookup finds the first entry with the key. */
  lemma {:induction false} GetFirst<K, V>(m: seq<(K, V)>, k: K, i: nat)
    requires i < |m| && m[i].0 == k
    requires forall j :: 0 <= j < i ==> m[j].0 != k
    ensures Get(m, k) == Some(m[i].1)
    decreases i
  {
    if i > 0 {
      GetFirst(m[1..], k, i - 1);
    }
  }

  /** With distinct keys, each entry is what a lookup of its key finds. */
  lemma GetDistinct<K, V>(m: seq<(K, V)>, i: nat)
    requires i < |m| && Distinct(Keys(m))
    ensures Get(m, m[i].0) == Some(m[i].1)
  {
    assert forall j :: 0 <= j < i ==> Keys(m)[j] != Keys(m)[i];
    GetFirst(m, m[i].0, i);
  }

  lemma KeysTail<K, V>(m: seq<(K, V)>)
    requires m != []
    ensures Keys(m) == [m[0].0] + Keys(m[1..])
  {
  }

  /** The tail of a dict with distinct keys has distinct keys, none of
      them the first key. */
  lemma DistinctTail<K, V>(m: seq<(K, V)>)
    requires m != [] && Distinct(Keys(m))
    ensures Distinct(Keys(m[1..])) && m[0].0 !in Keys(m[1..])
  {
    KeysTail(m);
    var ks := Keys(m);
    assert forall i :: 0 <= i < |ks| - 1 ==> Keys(m[1..])[i] == ks[i + 1];
  }

  // ---------------------------------------------------------------------
  // First-occurrence order

  /** The position of the first `x` in `s`, or `|s|` when there is none. */
  function FirstIndex<T(==)>(s: seq<T>, x: T): (i: nat)
    ensures i <= |s|
    ensures i < |s| <==> x in s
    ensures i < |s| ==> s[i] == x
    ensures forall k :: 0 <= k < i ==> s[k] != x
    decreases |s|
  {
    if s == [] then 0
    else if s[0] == x then 0
    else 1 + FirstIndex(s[1..], x)
  }

  /** `d` lists values in the order in which they first occur in `s`. */
  predicate FirstOccurrenceOrder<T(==)>(d: seq<T>, s: seq<T>) {
    forall i, j :: 0 <= i < j < |d| ==> FirstIndex(s, d[i]) < FirstIndex(s, d[j])
  }

  /** Appending to `s` moves no first occurrence, and a value new to `s`
      first occurs at the end. */
  lemma FirstIndexSnoc<T>(s: seq<T>, w: T, x: T)
    ensures x in s ==> FirstIndex(s + [w], x) == FirstIndex(s, x)
    ensures x !in s && x == w ==> FirstIndex(s + [w], x) == |s|
  {
    var t := s + [w];
    var i := FirstIndex(s, x);
    if x in s {
      assert t[i] == x;
      assert forall k :: 0 <= k < i ==> t[k] == s[k];
    } else if x == w {
      assert t[|s|] == x;
      assert forall k :: 0 <= k < |s| ==> t[k] == s[k];
    }
  }

  /** A list in first-occurrence order of `s` stays in that order when `s`
      grows, and a value new to `s` may be appended to it. */
  lemma {:induction false} FirstOccurrenceSnoc<T>(d: seq<T>, s: seq<T>, w: T)
    requires FirstOccurrenceOrder(d, s)
    requires forall x :: x in d ==> x in s
    ensures FirstOccurrenceOrder(d, s + [w])
    ensures w !in s ==> FirstOccurrenceOrder(d + [w], s + [w])
  {
    forall x | x in d
      ensures FirstIndex(s + [w], x) == FirstIndex(s, x) < |s|
    {
      FirstIndexSnoc(s, w, x);
    }
    assert forall i :: 0 <= i < |d| ==> d[i] in d;
    if w !in s {
      FirstIndexSnoc(s, w, w);
      var e := d + [w];
      forall i, j | 0 <= i < j < |e|
        ensures FirstIndex(s + [w], e[i]) < FirstIndex(s + [w], e[j])
      {
        assert e[i] == d[i];
        if j < |d| {
          assert e[j] == d[j];
        } else {
          assert e[j] == w;
        }
      }
    }
  }

  /** A value whose first occurrence precedes every value of an ordered
      list may be put in front of it. */
  lemma FirstOccurrenceCons<T>(w: T, d: seq<T>, s: seq<T>)
    requires FirstOccurrenceOrder(d, s)
    requires forall x :: x in d ==> FirstIndex(s, w) < FirstIndex(s, x)
    ensures FirstOccurrenceOrder([w] + d, s)
  {
    var e := [w] + d;
    forall i, j | 0 <= i < j < |e|
      ensures FirstIndex(s, e[i]) < FirstIndex(s, e[j])
    {
      assert e[j] == d[j - 1];
      assert d[j - 1] in d;
      if i > 0 {
        assert e[i] == d[i - 1];
      }
    }
  }
}

=== FILE: demo.dfy ===
/** The demonstration pipeline (demo.py): the mock language model's
    first-match prompt router, the fixed shape of the demo results and the
    demo's file name. */
module Demo {
  import opened Optional
  import opened Text
  import opened Assoc
  import opened SeoAgent
  import opened QaAgent
  import opened Pipeline
  import Helpers

  // ---------------------------------------------------------------------
  // Mock language model

  /** The mock's canned replies, by kind; their texts are fixed strings
      that nothing below inspects. */
  datatype MockReply =
    | ResearchReply
    | WritingReply
    | EditingReply
    | SeoReply
    | PlatformReply
    | QaReply
    | GenericReply

  /** `MockLLM.invoke`: the first keyword found in the lower-cased prompt
      picks the reply. */
  function MockInvoke(prompt: string): (r: MockReply)
    ensures var low := Lower(prompt);
      r == ResearchReply <==> Contains(low, "research")
    ensures var low := Lower(prompt);
      r == WritingReply <==> (!Contains(low, "research") && (Contains(low, "write") || Contains(low, "content")))
    ensures var low := Lower(prompt);
      r == EditingReply <==> (!Contains(low, "research") && !Contains(low, "write") && !Contains(low, "content")
        && Contains(low, "edit"))
    ensures var low := Lower(prompt);
      r == SeoReply <==> (!Contains(low, "research") && !Contains(low, "write") && !Contains(low, "content")
        && !Contains(low, "edit") && Contains(low, "seo"))
    ensures var low := Lower(prompt);
      r == PlatformReply <==> (!Contains(low, "research") && !Contains(low, "write") && !Contains(low, "content")
        && !Contains(low, "edit") && !Contains(low, "seo") && Contains(low, "platform"))
    ensures var low := Lower(prompt);
      r == QaReply <==> (!Contains(low, "research") && !Contains(low, "write") && !Contains(low, "content")
        && !Contains(low, "edit") && !Contains(low, "seo") && !Contains(low, "platform")
        && (Contains(low, "quality") || Contains(low, "qa")))
    ensures var low := Lower(prompt);
      r == GenericReply <==> (!Contains(low, "research") && !Contains(low, "write") && !Contains(low, "content")
        && !Contains(low, "edit") && !Contains(low, "seo") && !Contains(low, "platform")
        && !Contains(low, "quality") && !Contains(low, "qa"))
  {
    var low := Lower(prompt);
    if Contains(low, "research") then ResearchReply
    else if Contains(low, "write") || Contains(low, "content") then WritingReply
    else if Contains(low, "edit") then EditingReply
    else if Contains(low, "seo") then SeoReply
    else if Contains(low, "platform") then PlatformReply
    else if Contains(low, "quality") || Contains(low, "qa") then QaReply
    else GenericReply
  }

  /** The research prompt always gets the research reply. */
  lemma ResearchPromptRouted(topic: string)
    ensures MockInvoke("research " + topic) == ResearchReply
  {
    LowerConcat("research ", topic);
    assert Lower("research ") == "research" + " ";
    ContainsMiddle([], "research", " " + Lower(topic));
    assert [] + "research" + (" " + Lower(topic)) == Lower("research " + topic);
  }

  /** The writing prompt gets the writing reply unless an interpolated
      value mentions research. */
  lemma WritePromptRouted(prompt: string)
    requires |prompt| >= 6 && prompt[..6] == "write "
    ensures MockInvoke(prompt) == ResearchReply || MockInvoke(prompt) == WritingReply
  {
    var low := Lower(prompt);
    assert low[0..5] == "write";
    assert MatchAt(low, "write", 0);
  }

  /** Text without an 'h' cannot contain "research". */
  lemma NoResearchWithoutH(s: string)
    requires forall k :: 0 <= k < |s| ==> s[k] != 'h'
    ensures !Contains(s, "research")
  {
    if i :| 0 <= i <= |s| - 8 && MatchAt(s, "research", i) {
      MatchCharAt(s, "research", i, 7);
      assert false;
    }
  }

  /** A prompt made of a lead and a tail around a space gets the research
      reply exactly when one of them mentions research once lower-cased,
      and otherwise the writing reply if the lead mentions "content". */
  lemma LeadPromptRouted(lead: string, tail: string)
    requires !Contains(Lower(lead), "research") && Contains(Lower(lead), "content")
    ensures MockInvoke(lead + " " + tail) ==
      (if Contains(Lower(tail), "research") then ResearchReply else WritingReply)
  {
    var low := Lower(lead + " " + tail);
    LowerConcat(lead + " ", tail);
    LowerConcat(lead, " ");
    assert Lower(" ") == [' '];
    assert low == Lower(lead) + [' '] + Lower(tail);
    ContainsBarrier(Lower(lead), ' ', Lower(tail), "research");
    ContainsExtend(Lower(lead), [' '] + Lower(tail), "content");
    assert Lower(lead) + ([' '] + Lower(tail)) == low;
  }

  const EditPrompt: string := "edit content for clarity" + " " + "and engagement"
  const QaPrompt: string := "quality assurance review" + " " + "of all content"

  /** Lower-case text without an 'h' is its own lower case and does not
      mention research. */
  lemma PlainNoResearch(s: string)
    requires forall k :: 0 <= k < |s| ==> !IsUpper(s[k]) && s[k] != 'h'
    ensures Lower(s) == s
    ensures !Contains(s, "research")
  {
    PlainLower(s);
    NoResearchWithoutH(s);
  }

  lemma EditLeadContent()
    ensures Contains("edit content for clarity", "content")
  {
    assert MatchAt("edit content for clarity", "content", 5);
  }

  lemma EditTail()
    ensures !Contains(Lower("and engagement"), "research")
  {
    PlainLower("and engagement");
    NoResearchWithoutH("and engagement");
  }

  /** "content" is tested before "edit": the edit prompt gets the writing
      reply. */
  lemma EditPromptGetsWriting()
    ensures MockInvoke(EditPrompt) == WritingReply
  {
    PlainNoResearch("edit content for clarity");
    EditLeadContent();
    EditTail();
    LeadPromptRouted("edit content for clarity", "and engagement");
  }

  lemma QaTail()
    ensures Lower("of all content") == "of all content"
    ensures !Contains("of all content", "research")
    ensures Contains("of all content", "content")
  {
    var tail := "of all content";
    PlainLower(tail);
    NoResearchWithoutH(tail);
    ContainsMiddle("of all ", "content", []);
    assert "of all " + "content" + [] == tail;
  }

  /** The same holds for the quality-assurance prompt, whose "content"
      comes last. */
  lemma QaPromptGetsWriting()
    ensures MockInvoke(QaPrompt) == WritingReply
  {
    var lead := "quality assurance review";
    var tail := "of all content";
    PlainNoResearch(lead);
    QaTail();
    LowerConcat(lead + " ", tail);
    LowerConcat(lead, " ");
    assert Lower(" ") == [' '];
    assert Lower(QaPrompt) == lead + [' '] + tail;
    ContainsBarrier(lead, ' ', tail, "research");
    ContainsExtend(tail, lead + [' '], "content");
  }

  const SeoLead: string := "optimize content for " + "SEO" + " with keywords:"
  const PlatformLead: string := "adapt " + "content" + " for platforms:"

  /** The SEO prompt: `"optimize content for SEO with keywords: " +
      ", ".join(keywords)`. */
  function SeoPrompt(keywords: seq<string>): string {
    SeoLead + " " + Join(keywords, ", ")
  }

  /** The platform prompt. */
  function PlatformPrompt(platforms: seq<string>): string {
    PlatformLead + " " + Join(platforms, ", ")
  }

  const SeoLeadLow: string := "optimize content for seo" + " " + "with keywords:"

  lemma SeoLeadLower()
    ensures Lower(SeoLead) == SeoLeadLow
  {
    LowerConcat("optimize content for " + "SEO", " with keywords:");
    LowerConcat("optimize content for ", "SEO");
    PlainLower("optimize content for ");
    PlainLower(" with keywords:");
    assert Lower("SEO") == "seo";
  }

  lemma SeoLeadNoResearch()
    ensures !Contains(SeoLeadLow, "research")
  {
    var a := "optimize content for seo";
    NoResearchWithoutH(a);
    assert !Contains("with", "research");
    NoResearchWithoutH("keywords:");
    var b := "with keywords:";
    assert "with" + [' '] + "keywords:" == b;
    ContainsBarrier("with", ' ', "keywords:", "research");
    assert a + [' '] + b == SeoLeadLow;
    ContainsBarrier(a, ' ', b, "research");
  }

  lemma SeoLeadContent()
    ensures Contains(SeoLeadLow, "content")
  {
    assert MatchAt(SeoLeadLow, "content", 9);
  }

  /** The SEO prompt gets the writing reply unless a keyword mentions
      research. */
  lemma SeoPromptRouted(keywords: seq<string>)
    ensures MockInvoke(SeoPrompt(keywords)) ==
      (if Contains(Lower(Join(keywords, ", ")), "research") then ResearchReply else WritingReply)
  {
    SeoLeadLower();
    SeoLeadNoResearch();
    SeoLeadContent();
    LeadPromptRouted(SeoLead, Join(keywords, ", "));
  }

  /** The platform prompt gets the writing reply unless a platform name
      mentions research. */
  lemma PlatformPromptRouted(platforms: seq<string>)
    ensures MockInvoke(PlatformPrompt(platforms)) ==
      (if Contains(Lower(Join(platforms, ", ")), "research") then ResearchReply else WritingReply)
  {
    assert Lower(PlatformLead) == PlatformLead;
    NoResearchWithoutH(PlatformLead);
    ContainsMiddle("adapt ", "content", " for platforms:");
    LeadPromptRouted(PlatformLead, Join(platforms, ", "));
  }

  // ---------------------------------------------------------------------
  // Demo results

  /** The demo's default keywords. */
  function DemoKeywords(topic: string, keywords: seq<string>): (r: seq<string>)
    ensures keywords != [] ==> r == keywords
    ensures keywords == [] ==> |r| == 3 && r[0] == Lower(topic) && r[2] == "healthcare technology"
    ensures keywords == [] ==> r[1] == Lower(topic) + " guide"
  {
    if keywords == [] then [Lower(topic), Lower(topic) + " guide", "healthcare technology"] else keywords
  }

  /** The constant statistics every demo keyword gets: 5 occurrences,
      density 1.2. */
  const DemoStat: KeywordStat := KeywordStat(5, Ratio(12, 10))

  /** `{kw: {...} for kw in keywords}`: one entry per distinct keyword. */
  function ConstantDensity(keywords: seq<string>): (r: seq<(string, KeywordStat)>)
    ensures Distinct(Keys(r))
    ensures forall k :: k in Keys(r) <==> k in keywords
    ensures forall k :: k in keywords ==> Get(r, k) == Some(DemoStat)
    decreases |keywords|
  {
    if keywords == [] then []
    else
      var init := keywords[..|keywords| - 1];
      var k := keywords[|keywords| - 1];
      assert forall x :: x in keywords <==> x in init || x == k;
      var prev := ConstantDensity(init);
      var r := Put(prev, k, DemoStat);
      assert forall x :: x in Keys(r) <==> x in Keys(prev) || x == k;
      r
  }

  const DemoTitleSuffix: string := ": Complete Guide & Best Practices 2024"
  const DemoDescriptionLead: string := "Comprehensive guide to "
  const DemoDescriptionTail: string :=
    ". Learn key insights, trends, and applications with expert analysis"
    + " and practical recommendations."

  /** The demo's SEO data: the keywords, the topic with the fixed title
      suffix, the topic inside the fixed description, the constant
      densities, and no headers key. */
  function DemoSeoData(topic: string, keywords: seq<string>): (d: SeoData)
    ensures d.keywords == Some(keywords) && d.headers.None?
    ensures d.metaTitle.Some? && |d.metaTitle.value| == |topic| + 38
    ensures d.metaDescription.Some? && |d.metaDescription.value| == |topic| + 121
    ensures d.metaTitle.Some? ==>
      d.metaTitle.value[..|topic|] == topic && d.metaTitle.value[|topic|..] == DemoTitleSuffix
    ensures var lead := |DemoDescriptionLead|;
      d.metaDescription.Some? ==>
      && d.metaDescription.value[..lead] == DemoDescriptionLead
      && d.metaDescription.value[lead..lead + |topic|] == topic
      && d.metaDescription.value[lead + |topic|..] == DemoDescriptionTail
    ensures d.keywordDensity.Some?
    ensures forall k :: k in Keys(d.keywordDensity.value) <==> k in keywords
  {
    var description := DemoDescriptionLead + topic + DemoDescriptionTail;
    assert description[..|DemoDescriptionLead|] == DemoDescriptionLead;
    assert description[|DemoDescriptionLead|..] == topic + DemoDescriptionTail;
    SeoData(Some(keywords), Some(topic + DemoTitleSuffix),
            Some(DemoDescriptionLead + topic + DemoDescriptionTail),
            Some(ConstantDensity(keywords)), None)
  }

  /** Checked by the QA agent, the demo's SEO data never has structured
      headers, always has keywords, and its title and description are in
      band only for topics of 12-22 and 29-39 characters. */
  lemma DemoSeoCompliance(topic: string, keywords: seq<string>)
    ensures var c := CheckSeoCompliance(DemoSeoData(topic, DemoKeywords(topic, keywords)));
      && !c.headersStructured
      && c.keywordsIntegrated
      && (c.metaTitleLength <==> 12 <= |topic| <= 22)
      && (c.metaDescriptionLength <==> 29 <= |topic| <= 39)
  {
  }

  /** A demo platform version. */
  datatype DemoVersion = DemoPost(text: string) | DemoThread(tweets: seq<string>) | DemoGenerated(reply: MockReply)

  const DemoLinkedIn: string := "Professional LinkedIn post with key insights and engagement hooks"
  const DemoTweets: seq<string> := ["Tweet 1: Key insight", "Tweet 2: Supporting data", "Tweet 3: Call to action"]

  /** The demo's versions: none without platforms, otherwise always the
      same three keys whatever was requested. */
  function DemoVersions(platforms: seq<string>, seoContent: MockReply): (r: seq<(string, DemoVersion)>)
    ensures platforms == [] ==> r == []
    ensures platforms != [] ==> Keys(r) == ["linkedin", "twitter", "blog"]
    ensures platforms != [] ==> Get(r, "blog") == Some(DemoGenerated(seoContent))
    ensures platforms != [] ==> Get(r, "twitter") == Some(DemoThread(DemoTweets)) && |DemoTweets| == 3
  {
    if platforms == [] then []
    else
      var blog := [("blog", DemoGenerated(seoContent))];
      var vs := [("linkedin", DemoPost(DemoLinkedIn)), ("twitter", DemoThread(DemoTweets))] + blog;
      assert vs[1..] == [("twitter", DemoThread(DemoTweets))] + blog;
      assert vs[1..][1..] == blog;
      assert |"linkedin"| != |"blog"| && |"twitter"| != |"blog"| && |"linkedin"| != |"twitter"|;
      var ks := Keys(vs);
      assert ks[0] == "linkedin" && ks[1] == "twitter" && ks[2] == "blog";
      assert ks == ["linkedin", "twitter", "blog"];
      assert Get(blog, "blog") == Some(DemoGenerated(seoContent));
      assert Get(vs[1..], "blog") == Get(blog, "blog");
      vs
  }

  /** The demo's QA report: score 9.2 (in tenths), approved, no issues. */
  datatype DemoQa = DemoQa(
    overallTenths: nat, approvalStatus: string, contentIssues: seq<string>,
    recommendations: seq<string>, agentFeedback: MockReply)

  const DemoRecommendations: seq<string> := ["Consider adding more case studies", "Include recent statistics"]

  datatype DemoResults = DemoResults(
    researchData: MockReply, initialContent: MockReply, editedContent: MockReply,
    finalContent: MockReply, seoData: SeoData, platformVersions: seq<(string, DemoVersion)>,
    qaReport: DemoQa, topic: string, contentType: string, targetAudience: string, tone: string,
    platforms: seq<string>, processingTime: real, createdAt: string)

  /** The writing prompt. */
  function WritePrompt(contentType: string, topic: string, audience: string, tone: string): (p: string)
    ensures |p| >= 6 && p[..6] == "write "
  {
    "write " + contentType + " about " + topic + " for " + audience + " with " + tone + " tone"
  }

  /** `DemoContentPipeline.create_content`; the content type, audience and
      tone default as in the demo, a missing list is the empty one, and the
      clock readings are parameters. */
  function DemoCreateContent(topic: string, contentType: string := "blog_post",
                             audience: string := "professionals", tone: string := "professional",
                             platforms: seq<string> := [], keywords: seq<string> := [],
                             elapsed: real, createdAt: string): (r: DemoResults)
    ensures r.topic == topic && r.contentType == contentType
    ensures r.targetAudience == audience && r.tone == tone
    ensures r.researchData == ResearchReply
    ensures r.editedContent == WritingReply
    ensures r.qaReport == DemoQa(92, "APPROVED", [], DemoRecommendations, WritingReply)
    ensures r.finalContent == (if Contains(Lower(Join(DemoKeywords(topic, keywords), ", ")), "research")
                               then ResearchReply else WritingReply)
    ensures r.seoData == DemoSeoData(topic, DemoKeywords(topic, keywords))
    ensures r.platformVersions == DemoVersions(platforms, r.finalContent)
    ensures r.platforms == platforms
  {
    ResearchPromptRouted(topic);
    EditPromptGetsWriting();
    QaPromptGetsWriting();
    var ks := DemoKeywords(topic, keywords);
    SeoPromptRouted(ks);
    var seoContent := MockInvoke(SeoPrompt(ks));
    DemoResults(
      MockInvoke("research " + topic),
      MockInvoke(WritePrompt(contentType, topic, audience, tone)),
      MockInvoke(EditPrompt),
      seoContent,
      DemoSeoData(topic, ks),
      DemoVersions(platforms, seoContent),
      DemoQa(92, "APPROVED", [], DemoRecommendations, MockInvoke(QaPrompt)),
      topic, contentType, audience, tone, platforms, elapsed, createdAt)
  }

  /** The demo's default audience is "professionals", where the backend's
      is "general audience". */
  lemma DemoDefaultArguments(topic: string, replies: Replies, m: Helpers.Metrics, elapsed: real, now: string,
                             createdAt: string)
    requires AllReplied(replies, [])
    ensures var r := DemoCreateContent(topic, elapsed := elapsed, createdAt := createdAt);
      && r.contentType == "blog_post" && r.targetAudience == "professionals" && r.tone == "professional"
      && r.platformVersions == []
    ensures var b := CreateContent(topic, replies := replies, m := m, elapsed := elapsed, now := now);
      b.Done? && b.results.targetAudience != DemoCreateContent(topic, elapsed := elapsed, createdAt := createdAt).targetAudience
  {
    DefaultArguments(topic, replies, m, elapsed, now);
    assert "general audience"[0] != "professionals"[0];
  }

  /** The draft is the writing reply unless the prompt's values mention
      research. */
  lemma DemoDraftRouted(topic: string, contentType: string, audience: string, tone: string,
                        platforms: seq<string>, keywords: seq<string>, elapsed: real, createdAt: string)
    ensures var r := DemoCreateContent(topic, contentType, audience, tone, platforms, keywords, elapsed, createdAt);
      r.initialContent == ResearchReply || r.initialContent == WritingReply
  {
    WritePromptRouted(WritePrompt(contentType, topic, audience, tone));
  }

  // ---------------------------------------------------------------------
  // File name

  /** The demo's topic stem: the kept characters, stripped on both sides,
      spaces turned into '_'. */
  function DemoSafeTopic(topic: string): (r: string)
    ensures |r| <= |topic|
    ensures forall k :: 0 <= k < |r| ==> IsAlnum(r[k]) || r[k] == '-' || r[k] == '_'
    ensures var t := Strip(KeepStemChars(topic));
      |r| == |t| && forall k :: 0 <= k < |r| ==> r[k] == (if t[k] == ' ' then '_' else t[k])
    ensures r == [] <==> AllSpace(KeepStemChars(topic))
  {
    var kept := KeepStemChars(topic);
    var stripped := Strip(kept);
    StripChars(kept);
    assert forall k :: 0 <= k < |stripped| ==> StemChar(stripped[k]);
    StripEmptyIff(kept);
    ReplaceChar(stripped, ' ', '_')
  }

  /** Unlike the backend's stem, which turns a leading space into '_',
      the demo's stem drops it and is shorter. */
  lemma DemoStemDropsLeadingSpace(topic: string)
    requires |topic| > 0 && topic[0] == ' ' && !IsSpace(topic[|topic| - 1])
    requires forall k :: 0 <= k < |topic| ==> StemChar(topic[k])
    ensures |SafeStem(topic)| == |topic| && SafeStem(topic)[0] == '_'
    ensures |DemoSafeTopic(topic)| < |SafeStem(topic)|
  {
    assert KeepStemChars(topic) == topic;
    assert RStrip(topic) == topic;
    assert LStrip(topic) == LStrip(topic[1..]);
  }

  /** The five parts of an appended list sit one after the other. */
  lemma FiveParts<T>(a: seq<T>, b: seq<T>, c: seq<T>, d: seq<T>, e: seq<T>)
    ensures var r := a + (b + (c + (d + e)));
      && |r| == |a| + |b| + |c| + |d| + |e|
      && r[..|a|] == a
      && r[|a|..|a| + |b|] == b
      && r[|a| + |b|..|a| + |b| + |c|] == c
      && r[|a| + |b| + |c|..|r| - |e|] == d
      && r[|r| - |e|..] == e
  {
    var r := a + (b + (c + (d + e)));
    assert r[|a|..] == b + (c + (d + e));
    assert r[|a| + |b|..] == c + (d + e);
    assert r[|a| + |b| + |c|..] == d + e;
  }

  /** The generated name for a stem and a clock reading in whole seconds:
      the stem and the seconds can be read back from it. */
  function DemoName(stem: string, seconds: nat): (r: string)
    ensures |r| >= 20 + |stem|
    ensures r[..13] == "demo_results_" && r[|r| - 5..] == ".json"
    ensures r[13..13 + |stem|] == stem && r[13 + |stem|..14 + |stem|] == "_"
    ensures r[14 + |stem|..|r| - 5] == NatToString(seconds)
    ensures ParseNat(r[14 + |stem|..|r| - 5]) == seconds
  {
    var lead := "demo_results_";
    var digits := NatToString(seconds);
    ParseNatToString(seconds);
    assert |lead| == 13;
    FiveParts(lead, stem, "_", digits, ".json");
    lead + (stem + ("_" + (digits + ".json")))
  }

  /** `save_demo_results`' file name: the given one, or one built from the
      topic stem and the clock's whole seconds. */
  function DemoFilename(filename: string, topic: string, seconds: nat): (r: string)
    ensures filename != [] ==> r == filename
    ensures filename == [] ==> |r| >= 18 && r[..13] == "demo_results_" && r[|r| - 5..] == ".json"
    ensures filename == [] ==>
      var stem := DemoSafeTopic(topic);
      && |r| >= 20 + |stem|
      && r[13..13 + |stem|] == stem && r[13 + |stem|..14 + |stem|] == "_"
      && r[14 + |stem|..|r| - 5] == NatToString(seconds)
      && ParseNat(r[14 + |stem|..|r| - 5]) == seconds
  {
    if filename != [] then filename else DemoName(DemoSafeTopic(topic), seconds)
  }
}

=== FILE: editor_agent.dfy ===
/** The deterministic checks of the editor agent (agents/editor_agent.py):
    the grammar and style check and the readability verdict. */
module EditorAgent {
  import opened Text

  /** The issues the style check can report. */
  datatype StyleIssue = ExclamationMarks | LongSentences(count: nat) | PassiveVoice {

    /** The text the source appends for the issue. */
    function Message(): string {
      match this
      case ExclamationMarks => "Consider reducing exclamation marks for professional tone"
      case LongSentences(n) => "Found " + NatToString(n) + " potentially long sentences"
      case PassiveVoice => "Consider reducing passive voice usage"
    }
  }

  /** A piece of the text between periods is long when it has more than 25
      whitespace-separated tokens. */
  predicate IsLongSentence(piece: string) {
    |Words(piece)| > 25
  }

  /** How many pieces are long; positive exactly when some piece is. A
      single piece counts one when it is long and none otherwise. */
  function LongSentenceCount(pieces: seq<string>): (n: nat)
    ensures n <= |pieces|
    ensures n > 0 <==> exists k :: 0 <= k < |pieces| && IsLongSentence(pieces[k])
    ensures |pieces| == 1 ==> n == (if IsLongSentence(pieces[0]) then 1 else 0)
    decreases |pieces|
  {
    if pieces == [] then 0
    else
      var rest := LongSentenceCount(pieces[1..]);
      assert forall k :: 0 <= k < |pieces| - 1 ==> pieces[1..][k] == pieces[k + 1];
      (if IsLongSentence(pieces[0]) then 1 else 0) + rest
  }

  /** The count is additive: the long pieces of two runs of pieces are
      those of the first run plus those of the second. */
  lemma {:induction false} LongSentenceCountAppend(a: seq<string>, b: seq<string>)
    ensures LongSentenceCount(a + b) == LongSentenceCount(a) + LongSentenceCount(b)
    decreases |a|
  {
    if a == [] {
      assert a + b == b;
    } else {
      assert (a + b)[0] == a[0] && (a + b)[1..] == a[1..] + b;
      LongSentenceCountAppend(a[1..], b);
    }
  }

  /** The indicator words, matched as case-insensitive substrings. */
  const PassiveIndicators: seq<string> := ["was", "were", "been", "being"]

  /** `sum(text.lower().count(w) for w in passive_indicators)` */
  function PassiveCount(text: string): nat {
    var low := Lower(text);
    Count(low, "was") + Count(low, "were") + Count(low, "been") + Count(low, "being")
  }

  /** `passive_count > len(sentences) * 0.3`, cross-multiplied by ten. */
  predicate TooPassive(passive: nat, pieces: nat) {
    10 * passive > 3 * pieces
  }

  /** The position of an issue's test in the source: exclamation marks,
      then long sentences, then passive voice. */
  function StyleRank(issue: StyleIssue): nat {
    match issue
    case ExclamationMarks => 0
    case LongSentences(_) => 1
    case PassiveVoice => 2
  }

  /** The issues come in test order, so none is repeated. */
  predicate InStyleOrder(issues: seq<StyleIssue>) {
    forall i, j :: 0 <= i < j < |issues| ==> StyleRank(issues[i]) < StyleRank(issues[j])
  }

  /** The issues raised by the three tests, in the order the source
      appends them: one per test that fires, in test order. */
  function RaisedIssues(bangs: bool, long: nat, passive: bool): (issues: seq<StyleIssue>)
    ensures |issues| <= 3
    ensures |issues| == (if bangs then 1 else 0) + (if long > 0 then 1 else 0) + (if passive then 1 else 0)
    ensures InStyleOrder(issues)
    ensures ExclamationMarks in issues <==> bangs
    ensures LongSentences(long) in issues <==> long > 0
    ensures forall n :: LongSentences(n) in issues ==> n == long
    ensures PassiveVoice in issues <==> passive
    ensures bangs ==> issues[0] == ExclamationMarks
    ensures passive ==> issues[|issues| - 1] == PassiveVoice
  {
    var first := if bangs then [ExclamationMarks] else [];
    var second := if long > 0 then [LongSentences(long)] else [];
    var third := if passive then [PassiveVoice] else [];
    var issues := first + second + third;
    assert forall y :: y in issues <==> y in first || y in second || y in third;
    assert forall i :: 0 <= i < |first| ==> issues[i] == ExclamationMarks;
    assert forall i :: |first| <= i < |first| + |second| ==> issues[i] == LongSentences(long);
    assert forall i :: |first| + |second| <= i < |issues| ==> issues[i] == PassiveVoice;
    issues
  }

  /** The style issues: more than three exclamation marks, long sentences
      (with their number), passive voice. */
  function GrammarCheck(text: string): (issues: seq<StyleIssue>)
    ensures |issues| <= 3
    ensures |issues| == (if Count(text, "!") > 3 then 1 else 0)
      + (if LongSentenceCount(Split(text, ".")) > 0 then 1 else 0)
      + (if TooPassive(PassiveCount(text), |Split(text, ".")|) then 1 else 0)
    ensures InStyleOrder(issues)
    ensures ExclamationMarks in issues <==> Count(text, "!") > 3
    ensures LongSentences(LongSentenceCount(Split(text, "."))) in issues
        <==> exists k :: 0 <= k < |Split(text, ".")| && IsLongSentence(Split(text, ".")[k])
    ensures forall n :: LongSentences(n) in issues ==> n == LongSentenceCount(Split(text, "."))
    ensures PassiveVoice in issues <==> TooPassive(PassiveCount(text), |Split(text, ".")|)
    ensures Count(text, "!") > 3 ==> issues[0] == ExclamationMarks
    ensures PassiveVoice in issues ==> issues[|issues| - 1] == PassiveVoice
  {
    var pieces := Split(text, ".");
    RaisedIssues(Count(text, "!") > 3, LongSentenceCount(pieces), TooPassive(PassiveCount(text), |pieces|))
  }

  /** `grammar_check(text)` as the list of messages. */
  function GrammarMessages(text: string): (r: seq<string>)
    ensures |r| == |GrammarCheck(text)|
    ensures forall k :: 0 <= k < |r| ==> r[k] == GrammarCheck(text)[k].Message()
  {
    var issues := GrammarCheck(text);
    seq(|issues|, k requires 0 <= k < |issues| => issues[k].Message())
  }

  /** An indicator is matched inside longer words, so "Washington" counts
      as passive voice. */
  lemma PassiveMatchesInsideWords()
    ensures PassiveCount("Washington") > 0
  {
    var low := Lower("Washington");
    assert low[0..3] == "was";
    assert MatchAt(low, "was", 0);
    CountPositive(low, "was");
  }

  // ---------------------------------------------------------------------
  // Readability

  const Unable: string := "Unable to calculate"
  const Good: string := "Good readability"
  const Moderate: string := "Moderate readability"
  const Shorter: string := "Consider shorter sentences for better readability"

  /** The verdict on the average number of tokens per period-separated
      piece: below 15, below 20, or at least 20; a text without tokens has
      no verdict. */
  function ReadabilityScore(text: string): (r: string)
    ensures r == Unable <==> Words(text) == []
    ensures r == Good <==> 0 < |Words(text)| < 15 * |Split(text, ".")|
    ensures r == Moderate <==>
      0 < |Words(text)| && 15 * |Split(text, ".")| <= |Words(text)| < 20 * |Split(text, ".")|
    ensures r == Shorter <==> 0 < |Words(text)| && 20 * |Split(text, ".")| <= |Words(text)|
  {
    var pieces := |Split(text, ".")|;
    var words := |Words(text)|;
    if pieces == 0 || words == 0 then Unable
    else if words < 15 * pieces then Good
    else if words < 20 * pieces then Moderate
    else Shorter
  }

  /** Only a blank text (nothing but whitespace) gets no verdict; the
      empty-sentence-list branch of the source can never be taken. */
  lemma ReadabilityUnableIffBlank(text: string)
    ensures ReadabilityScore(text) == Unable <==> AllSpace(text)
    ensures ReadabilityScore(text) == Unable <==> Strip(text) == []
    ensures |Split(text, ".")| > 0
  {
    WordsEmptyIff(text);
    StripEmptyIff(text);
  }

  /** A text without a period is one sentence: it reads well exactly when
      it has between 1 and 14 tokens. */
  lemma ReadabilityWithoutPeriod(text: string)
    requires !Contains(text, ".")
    ensures ReadabilityScore(text) == Good <==> 0 < |Words(text)| < 15
  {
    SplitCount(text, ".");
    CountPositive(text, ".");
  }
}

=== FILE: helpers.dfy ===
/** The utility layer (backend/utils/helpers.py): the three content
    formatters, the validators, the metrics record and the research prompt
    template. */
module Helpers {
  import opened Optional
  import opened Text
  import opened Assoc
  import opened SeoAgent

  // ---------------------------------------------------------------------
  // Blog post

  /** The optional metadata of a blog post; a key whose value is the empty
      string is as good as absent for the author test. */
  datatype BlogMeta = BlogMeta(entries: seq<(string, string)>)

  /** The heading line and the blank line after it. */
  function BlogHeading(title: string): string {
    "# " + title + "\n\n"
  }

  /** The publication line. */
  function PublishedLine(date: string): (r: string)
    ensures |r| == |date| + 14 && r[..12] == "*Published: " && r[|r| - 1] == '\n'
  {
    var stamp := "*Published: ";
    assert |stamp| == 12;
    var r := stamp + (date + "*\n");
    assert r[..12] == stamp;
    r
  }

  /** The author line, only for an author that is given and not empty. */
  function AuthorLine(author: Option<string>): string {
    if author.Some? && author.value != [] then "*Author: " + author.value + "*\n" else []
  }

  /** The metadata block: nothing for missing or empty metadata; otherwise
      the publication date (today's date when none is given), the author
      when one is given, and a blank line. */
  function MetaBlock(meta: Option<BlogMeta>, today: string): (r: string)
    ensures meta.None? || meta.value.entries == [] ==> r == []
    ensures meta.Some? && meta.value.entries != [] ==>
      |r| >= 15 && r[..12] == "*Published: " && r[|r| - 1] == '\n'
    ensures meta.Some? && meta.value.entries != [] ==>
      var date := Get(meta.value.entries, "date").GetOr(today);
      var author := Get(meta.value.entries, "author");
      && |r| >= |date| + 15
      && r[..|date| + 14] == "*Published: " + date + "*\n"
      && (author.Some? && author.value != [] ==> r[|date| + 14..] == "*Author: " + author.value + "*\n" + "\n")
      && (author.None? || author.value == [] ==> r[|date| + 14..] == "\n")
  {
    if meta.None? || meta.value.entries == [] then []
    else
      var date := Get(meta.value.entries, "date").GetOr(today);
      var published := PublishedLine(date);
      var rest := AuthorLine(Get(meta.value.entries, "author")) + "\n";
      var r := published + rest;
      assert r[..|date| + 14] == published && r[|date| + 14..] == rest;
      assert r[..12] == published[..12];
      assert r[|r| - 1] == rest[|rest| - 1];
      r
  }

  /** `format_blog_post`, with today's date passed in: the heading, the
      metadata block and the content, in that order. */
  function FormatBlogPost(title: string, content: string, meta: Option<BlogMeta>, today: string): (r: string)
    ensures |r| >= |BlogHeading(title)| + |content|
    ensures r[..|BlogHeading(title)|] == BlogHeading(title)
    ensures r[|r| - |content|..] == content
    ensures r[|BlogHeading(title)|..|r| - |content|] == MetaBlock(meta, today)
  {
    BlogHeading(title) + MetaBlock(meta, today) + content
  }

  /** Without metadata the post is the heading followed by the content. */
  lemma BlogPostWithoutMeta(title: string, content: string, today: string)
    ensures FormatBlogPost(title, content, None, today) == "# " + title + "\n\n" + content
    ensures FormatBlogPost(title, content, Some(BlogMeta([])), today) == "# " + title + "\n\n" + content
  {
    assert MetaBlock(None, today) == [];
    assert MetaBlock(Some(BlogMeta([])), today) == [];
    var h := BlogHeading(title);
    assert h + [] + content == h + content;
  }

  /** A given date replaces today's. */
  lemma BlogPostDate(title: string, content: string, date: string, today: string)
    ensures Contains(FormatBlogPost(title, content, Some(BlogMeta([("date", date)])), today),
                     "*Published: " + date + "*\n")
  {
    var entries := [("date", date)];
    assert Get(entries, "date") == Some(date);
    assert Get(entries, "author").None? by {
      assert |"author"| != |"date"|;
    }
    var line := "*Published: " + date + "*\n";
    var block := MetaBlock(Some(BlogMeta(entries)), today);
    assert block == line + [] + "\n";
    var h := BlogHeading(title);
    assert FormatBlogPost(title, content, Some(BlogMeta(entries)), today) == h + block + content;
    assert h + block + content == h + line + ("\n" + content);
    ContainsMiddle(h, line, "\n" + content);
  }

  // ---------------------------------------------------------------------
  // Social post

  /** The space-separated `#tag` line. */
  function HashtagLine(tags: seq<string>): string {
    Join(seq(|tags|, k requires 0 <= k < |tags| => "#" + tags[k]), " ")
  }

  /** Content longer than 240 characters for a platform that lower-cases to
      "twitter" is cut to 237 characters and an ellipsis. */
  function TruncateForTwitter(content: string, platform: string): (r: string)
    ensures Lower(platform) == "twitter" ==> |r| <= 240
    ensures Lower(platform) != "twitter" || |content| <= 240 ==> r == content
    ensures Lower(platform) == "twitter" && |content| > 240 ==>
      |r| == 240 && r[..237] == content[..237] && r[237..] == "..."
  {
    if Lower(platform) == "twitter" && |content| > 240 then content[..237] + "..." else content
  }

  /** `format_social_post`; a missing hashtag list is the empty one. The
      hashtags follow a blank line, only when there are any. */
  function FormatSocialPost(content: string, platform: string, hashtags: seq<string>): (r: string)
    ensures hashtags == [] ==> r == TruncateForTwitter(content, platform)
    ensures hashtags != [] ==>
      r == TruncateForTwitter(content, platform) + "\n\n" + HashtagLine(hashtags)
  {
    var body := TruncateForTwitter(content, platform);
    if hashtags != [] then body + "\n\n" + HashtagLine(hashtags) else body
  }

  /** Without hashtags, formatting for twitter is idempotent and never
      exceeds 240 characters. */
  lemma SocialPostIdempotent(content: string, platform: string)
    ensures FormatSocialPost(FormatSocialPost(content, platform, []), platform, []) ==
            FormatSocialPost(content, platform, [])
    ensures Lower(platform) == "twitter" ==> |FormatSocialPost(content, platform, [])| <= 240
  {
  }

  /** Every tag of the list shows up, after a '#', in the hashtag line. */
  lemma {:induction false} HashtagLineHasTags(tags: seq<string>, k: nat)
    requires k < |tags|
    ensures Contains(HashtagLine(tags), "#" + tags[k])
    decreases |tags|
  {
    var hs := seq(|tags|, i requires 0 <= i < |tags| => "#" + tags[i]);
    JoinHas(hs, " ", k);
  }

  /** A part of a joined list is a substring of the result. */
  lemma {:induction false} JoinHas(parts: seq<string>, sep: string, k: nat)
    requires k < |parts|
    ensures Contains(Join(parts, sep), parts[k])
    decreases |parts|
  {
    if |parts| == 1 {
      ContainsSelf(parts[0]);
    } else if k == 0 {
      ContainsSelf(parts[0]);
      ContainsExtend(parts[0], sep + Join(parts[1..], sep), parts[0]);
      assert Join(parts, sep) == parts[0] + (sep + Join(parts[1..], sep));
    } else {
      JoinHas(parts[1..], sep, k - 1);
      ContainsExtend(Join(parts[1..], sep), parts[0] + sep, parts[k]);
      assert Join(parts, sep) == (parts[0] + sep) + Join(parts[1..], sep);
    }
  }

  // ---------------------------------------------------------------------
  // SEO report

  const SeoReportHeading: string := "# SEO Analysis Report\n\n"
  const DensityHeading: string := "\n## Keyword Density Analysis\n"

  /** One density line; the density value is rendered by `render`, standing
      for Python's float formatting. */
  function DensityLine(entry: (string, KeywordStat), render: Ratio -> string): string {
    "- " + entry.0 + ": " + NatToString(entry.1.count) + " occurrences (" + render(entry.1.density) + "%)\n"
  }

  /** The density lines in dictionary order. */
  function DensityLines(entries: seq<(string, KeywordStat)>, render: Ratio -> string): string
    decreases |entries|
  {
    if entries == [] then [] else DensityLine(entries[0], render) + DensityLines(entries[1..], render)
  }

  /** The density lines of a non-empty run: the first entry's line, then
      the rest's. */
  lemma DensityLinesCons(entries: seq<(string, KeywordStat)>, render: Ratio -> string)
    requires entries != []
    ensures DensityLines(entries, render) == DensityLine(entries[0], render) + DensityLines(entries[1..], render)
  {
  }

  /** Every entry's line is somewhere among the density lines. */
  lemma {:induction false} DensityLinesHas(entries: seq<(string, KeywordStat)>, render: Ratio -> string, k: nat)
    requires k < |entries|
    ensures Contains(DensityLines(entries, render), DensityLine(entries[k], render))
    decreases |entries|
  {
    var line := DensityLine(entries[0], render);
    var rest := DensityLines(entries[1..], render);
    DensityLinesCons(entries, render);
    if k == 0 {
      ContainsSelf(line);
      ContainsExtend(line, rest, line);
    } else {
      assert entries[k] == entries[1..][k - 1];
      DensityLinesHas(entries[1..], render, k - 1);
      ContainsExtend(rest, line, DensityLine(entries[k], render));
    }
  }

  /** The density lines of two runs of entries are the first run's lines
      followed by the second's. */
  lemma {:induction false} DensityLinesAppend(a: seq<(string, KeywordStat)>, b: seq<(string, KeywordStat)>,
                                               render: Ratio -> string)
    ensures DensityLines(a + b, render) == DensityLines(a, render) + DensityLines(b, render)
    decreases |a|
  {
    if a == [] {
      assert a + b == b;
    } else {
      assert (a + b)[0] == a[0] && (a + b)[1..] == a[1..] + b;
      DensityLinesCons(a + b, render);
      DensityLinesCons(a, render);
      DensityLinesAppend(a[1..], b, render);
      SeqAssoc(DensityLine(a[0], render), DensityLines(a[1..], render), DensityLines(b, render));
    }
  }

  /** One entry gives exactly its own line. */
  lemma DensityLinesOne(e: (string, KeywordStat), render: Ratio -> string)
    ensures DensityLines([e], render) == DensityLine(e, render)
  {
    assert [e][1..] == [];
    assert DensityLine(e, render) + [] == DensityLine(e, render);
  }

  /** The report's sections; each is empty when its key is absent. */
  function TitleSection(seo: SeoData): (s: string)
    ensures seo.metaTitle.Some? ==> s == "**Meta Title:** " + seo.metaTitle.value + "\n"
    ensures seo.metaTitle.None? ==> s == []
  {
    if seo.metaTitle.Some? then "**Meta Title:** " + seo.metaTitle.value + "\n" else []
  }

  function DescriptionSection(seo: SeoData): (s: string)
    ensures seo.metaDescription.Some? ==> s == "**Meta Description:** " + seo.metaDescription.value + "\n"
    ensures seo.metaDescription.None? ==> s == []
  {
    if seo.metaDescription.Some? then "**Meta Description:** " + seo.metaDescription.value + "\n" else []
  }

  function KeywordsSection(seo: SeoData): (s: string)
    ensures seo.keywords.Some? ==> s == "**Target Keywords:** " + Join(seo.keywords.value, ", ") + "\n"
    ensures seo.keywords.None? ==> s == []
  {
    if seo.keywords.Some? then "**Target Keywords:** " + Join(seo.keywords.value, ", ") + "\n" else []
  }

  function DensitySection(seo: SeoData, render: Ratio -> string): (s: string)
    ensures seo.keywordDensity.Some? ==> s == DensityHeading + DensityLines(seo.keywordDensity.value, render)
    ensures seo.keywordDensity.None? ==> s == []
  {
    if seo.keywordDensity.Some? then DensityHeading + DensityLines(seo.keywordDensity.value, render) else []
  }

  /** `format_seo_report`: the heading, then a section for each key that is
      present, one after the other in the fixed order title, description,
      keywords, density; the density section holds every entry's line. */
  function FormatSeoReport(seo: SeoData, render: Ratio -> string): (r: string)
    ensures var h := |SeoReportHeading|;
      var t := h + |TitleSection(seo)|;
      var d := t + |DescriptionSection(seo)|;
      var k := d + |KeywordsSection(seo)|;
      && |r| == k + |DensitySection(seo, render)|
      && r[..h] == SeoReportHeading
      && r[h..t] == TitleSection(seo)
      && r[t..d] == DescriptionSection(seo)
      && r[d..k] == KeywordsSection(seo)
      && r[k..] == DensitySection(seo, render)
    ensures seo.keywordDensity.Some? ==>
      forall k :: 0 <= k < |seo.keywordDensity.value| ==>
        Contains(r, DensityLine(seo.keywordDensity.value[k], render))
  {
    var head := SeoReportHeading + TitleSection(seo) + DescriptionSection(seo) + KeywordsSection(seo);
    DensitySectionHas(seo, render, head);
    Quarters(SeoReportHeading + TitleSection(seo), DescriptionSection(seo), KeywordsSection(seo),
             DensitySection(seo, render));
    var r := head + DensitySection(seo, render);
    assert r[..|SeoReportHeading| + |TitleSection(seo)|] == SeoReportHeading + TitleSection(seo);
    r
  }

  /** A report of data without any key is the bare heading. */
  lemma EmptySeoReport(render: Ratio -> string)
    ensures FormatSeoReport(SeoData(None, None, None, None, None), render) == SeoReportHeading
  {
  }

  /** The four parts of an appended list sit one after the other. */
  lemma Quarters<T>(a: seq<T>, b: seq<T>, c: seq<T>, e: seq<T>)
    ensures var r := a + b + c + e;
      && |r| == |a| + |b| + |c| + |e|
      && r[|a|..|a| + |b|] == b
      && r[|a| + |b|..|a| + |b| + |c|] == c
      && r[|a| + |b| + |c|..] == e
  {
    var r := a + b + c + e;
    assert r == a + (b + (c + e));
    assert r[|a|..] == b + (c + e);
    assert r[|a| + |b|..] == c + e;
  }

  /** The density lines survive being put after any text. */
  lemma DensitySectionHas(seo: SeoData, render: Ratio -> string, head: string)
    ensures seo.keywordDensity.Some? ==>
      forall k :: 0 <= k < |seo.keywordDensity.value| ==>
        Contains(head + DensitySection(seo, render), DensityLine(seo.keywordDensity.value[k], render))
  {
    if seo.keywordDensity.Some? {
      var lines := DensityLines(seo.keywordDensity.value, render);
      forall k | 0 <= k < |seo.keywordDensity.value|
        ensures Contains(head + DensitySection(seo, render), DensityLine(seo.keywordDensity.value[k], render))
      {
        DensityLinesHas(seo.keywordDensity.value, render, k);
        ContainsExtend(lines, DensityHeading, DensityLine(seo.keywordDensity.value[k], render));
        ContainsExtend(DensityHeading + lines, head, DensityLine(seo.keywordDensity.value[k], render));
      }
    }
  }

  // ---------------------------------------------------------------------
  // Validators

  /** The character classes of the e-mail pattern. */
  predicate LocalChar(c: char) { IsAlnum(c) || c == '.' || c == '_' || c == '%' || c == '+' || c == '-' }
  predicate DomainChar(c: char) { IsAlnum(c) || c == '.' || c == '-' }

  predicate AllLocal(s: string) { forall k :: 0 <= k < |s| ==> LocalChar(s[k]) }
  predicate AllDomain(s: string) { forall k :: 0 <= k < |s| ==> DomainChar(s[k]) }
  predicate AllLetters(s: string) { forall k :: 0 <= k < |s| ==> IsLetter(s[k]) }

  /** The language of `[a-zA-Z0-9._%+-]+@[a-zA-Z0-9.-]+\.[a-zA-Z]{2,}`, with
      the '@' at `a` and the last '.' at `d` chosen freely. */
  predicate EmailShape(s: string) {
    exists a, d :: 1 <= a && a + 2 <= d && d + 3 <= |s| && s[a] == '@' && s[d] == '.'
      && AllLocal(s[..a]) && AllDomain(s[a + 1..d]) && AllLetters(s[d + 1..])
  }

  /** The first position of `c`. */
  function IndexOf(s: string, c: char): (r: Option<nat>)
    ensures r.Some? ==> r.value < |s| && s[r.value] == c && forall k :: 0 <= k < r.value ==> s[k] != c
    ensures r.None? ==> forall k :: 0 <= k < |s| ==> s[k] != c
    decreases |s|
  {
    if s == [] then None
    else if s[0] == c then Some(0)
    else
      var r := IndexOf(s[1..], c);
      if r.Some? then Some(r.value + 1) else None
  }

  /** The last position of `c`. */
  function LastIndexOf(s: string, c: char): (r: Option<nat>)
    ensures r.Some? ==> r.value < |s| && s[r.value] == c && forall k :: r.value < k < |s| ==> s[k] != c
    ensures r.None? ==> forall k :: 0 <= k < |s| ==> s[k] != c
    decreases |s|
  {
    if s == [] then None
    else if s[|s| - 1] == c then Some(|s| - 1)
    else LastIndexOf(s[..|s| - 1], c)
  }

  /** The domain after the '@': domain characters only, and a last '.'
      with at least one character before it and at least two letters
      after it. */
  predicate DomainMatch(t: string) {
    && AllDomain(t)
    && var d := LastIndexOf(t, '.');
    && d.Some? && 1 <= d.value && d.value + 3 <= |t| && AllLetters(t[d.value + 1..])
  }

  /** A scanning matcher: split at the first '@', then at the last '.'. */
  predicate EmailMatch(s: string) {
    var at := IndexOf(s, '@');
    at.Some? && 1 <= at.value && AllLocal(s[..at.value]) && DomainMatch(s[at.value + 1..])
  }

  /** What the scanning matcher accepts has the pattern's shape. */
  lemma EmailMatchShape(s: string)
    requires EmailMatch(s)
    ensures EmailShape(s)
  {
    var a := IndexOf(s, '@').value;
    var t := s[a + 1..];
    var dt := LastIndexOf(t, '.').value;
    var d := a + 1 + dt;
    assert s[a + 1..d] == t[..dt];
    assert s[d + 1..] == t[dt + 1..];
    assert s[d] == t[dt];
    assert AllDomain(s[a + 1..d]);
    assert 1 <= a && a + 2 <= d && d + 3 <= |s| && s[a] == '@' && s[d] == '.'
      && AllLocal(s[..a]) && AllDomain(s[a + 1..d]) && AllLetters(s[d + 1..]);
  }

  /** The '@' of a well-shaped address is its first. */
  lemma ShapeFirstAt(s: string, a: nat)
    requires a < |s| && s[a] == '@' && AllLocal(s[..a])
    ensures IndexOf(s, '@') == Some(a)
  {
    assert forall k :: 0 <= k < a ==> s[k] == s[..a][k];
  }

  /** The domain of a well-shaped address passes the domain scan. */
  lemma ShapeDomain(s: string, a: nat, d: nat)
    requires a + 2 <= d && d + 3 <= |s| && s[d] == '.'
    requires AllDomain(s[a + 1..d]) && AllLetters(s[d + 1..])
    ensures DomainMatch(s[a + 1..])
  {
    var t := s[a + 1..];
    var dt := d - a - 1;
    assert forall k :: 0 <= k < dt ==> t[k] == s[a + 1..d][k];
    assert forall k :: dt < k < |t| ==> t[k] == s[d + 1..][k - dt - 1];
    assert AllDomain(t);
    assert LastIndexOf(t, '.') == Some(dt);
    assert t[dt + 1..] == s[d + 1..];
  }

  /** The scanning matcher accepts exactly the language of the pattern. */
  lemma EmailMatchIff(s: string)
    ensures EmailMatch(s) <==> EmailShape(s)
  {
    if EmailMatch(s) {
      EmailMatchShape(s);
    }
    if EmailShape(s) {
      var a, d :| 1 <= a && a + 2 <= d && d + 3 <= |s| && s[a] == '@' && s[d] == '.'
        && AllLocal(s[..a]) && AllDomain(s[a + 1..d]) && AllLetters(s[d + 1..]);
      ShapeFirstAt(s, a);
      ShapeDomain(s, a, d);
    }
  }

  /** `validate_email`: `re.match` anchors at the start, and `$` matches at
      the end or just before a final newline. */
  function ValidateEmail(email: string): (r: bool)
    ensures r <==> EmailShape(email)
                   || (|email| > 0 && email[|email| - 1] == '\n' && EmailShape(email[..|email| - 1]))
  {
    EmailMatchIff(email);
    EmailMatchIff(email[..Max(0, |email| - 1)]);
    EmailMatch(email) || (|email| > 0 && email[|email| - 1] == '\n' && EmailMatch(email[..|email| - 1]))
  }

  /** The pattern accepts an address with a trailing newline. */
  lemma EmailTrailingNewline()
    ensures ValidateEmail("a@b.co\n")
  {
    var s := "a@b.co";
    assert "a@b.co\n"[..6] == s;
    assert s[..1] == "a" && s[2..3] == "b" && s[4..] == "co";
    assert AllLocal(s[..1]) && AllDomain(s[2..3]) && AllLetters(s[4..]);
    assert s[1] == '@' && s[3] == '.';
    assert EmailShape(s);
  }

  const ProfaneWords: seq<string> := ["spam", "scam", "fake"]

  /** `check_profanity`: a listed word occurs, as a substring, in the
      lower-cased text. */
  predicate CheckProfanity(text: string) {
    var low := Lower(text);
    Contains(low, "spam") || Contains(low, "scam") || Contains(low, "fake")
  }

  /** A flagged text stays flagged whatever is added around it, and the
      check ignores case. */
  lemma ProfanityMonotone(a: string, b: string)
    ensures CheckProfanity(a) ==> CheckProfanity(a + b) && CheckProfanity(b + a)
    ensures CheckProfanity(Lower(a)) == CheckProfanity(a)
  {
    LowerConcat(a, b);
    LowerConcat(b, a);
    LowerIdempotent(a);
    if CheckProfanity(a) {
      var w := if Contains(Lower(a), "spam") then "spam" else if Contains(Lower(a), "scam") then "scam" else "fake";
      ContainsExtend(Lower(a), Lower(b), w);
    }
  }

  /** `validate_content_length`, bounds inclusive, defaults 100 and 5000. */
  predicate ValidateContentLength(content: string, minLength: int := 100, maxLength: int := 5000) {
    minLength <= |content| <= maxLength
  }

  /** Widening the bounds keeps valid content valid. */
  lemma ContentLengthWiden(content: string, lo: int, hi: int, lo': int, hi': int)
    requires lo' <= lo && hi <= hi'
    ensures ValidateContentLength(content, lo, hi) ==> ValidateContentLength(content, lo', hi')
  {
  }

  // ---------------------------------------------------------------------
  // Metrics

  /** A recorded error with the timestamp it was recorded at. */
  datatype ErrorRecord = ErrorRecord(error: string, timestamp: string)

  /** The collector's state. Times and rates are reals: the source's
      floats without rounding. */
  datatype Metrics = Metrics(
    contentCreated: nat,
    agentsUsed: set<string>,
    processingTime: real,
    successRate: real,
    errors: seq<ErrorRecord>)

  function NewMetrics(): (m: Metrics)
    ensures m.contentCreated == 0 && m.agentsUsed == {} && m.errors == []
    ensures m.processingTime == 0.0 && m.successRate == 0.0
  {
    Metrics(0, {}, 0.0, 0.0, [])
  }

  function RecordAgentUsage(m: Metrics, agent: string): (r: Metrics)
    ensures r.agentsUsed == m.agentsUsed + {agent}
    ensures r.(agentsUsed := m.agentsUsed) == m
  {
    m.(agentsUsed := m.agentsUsed + {agent})
  }

  function RecordContentCreation(m: Metrics): (r: Metrics)
    ensures r.contentCreated == m.contentCreated + 1
    ensures r.(contentCreated := m.contentCreated) == m
  {
    m.(contentCreated := m.contentCreated + 1)
  }

  /** `record_error`, with the clock reading passed in. */
  function RecordError(m: Metrics, error: string, timestamp: string): (r: Metrics)
    ensures |r.errors| == |m.errors| + 1 && r.errors[..|m.errors|] == m.errors
    ensures r.errors[|m.errors|] == ErrorRecord(error, timestamp)
    ensures r.(errors := m.errors) == m
  {
    m.(errors := m.errors + [ErrorRecord(error, timestamp)])
  }

  function RecordProcessingTime(m: Metrics, seconds: real): (r: Metrics)
    ensures r.processingTime == seconds && r.(processingTime := m.processingTime) == m
  {
    m.(processingTime := seconds)
  }

  /** `calculate_success_rate`: nothing changes unless there were attempts. */
  function CalculateSuccessRate(m: Metrics, totalAttempts: int): (r: Metrics)
    ensures totalAttempts <= 0 ==> r == m
    ensures totalAttempts > 0 ==> r.successRate * totalAttempts as real == m.contentCreated as real * 100.0
    ensures r.(successRate := m.successRate) == m
  {
    if totalAttempts > 0 then
      m.(successRate := m.contentCreated as real / totalAttempts as real * 100.0)
    else m
  }

  /** The summary dictionary; the agent set stays a set since Python's
      `list(set)` order is unspecified. */
  datatype MetricsSummary = MetricsSummary(
    contentCreated: nat,
    agentsUsed: set<string>,
    processingTime: real,
    successRate: real,
    errorCount: nat,
    latestErrors: seq<ErrorRecord>)

  /** `errors[-5:]`: the last five errors, or all of them when fewer. */
  function LastFive(errors: seq<ErrorRecord>): (r: seq<ErrorRecord>)
    ensures |r| == Min(5, |errors|)
    ensures r == errors[|errors| - |r|..]
  {
    if |errors| > 5 then errors[|errors| - 5..] else errors
  }

  function MetricsSummaryOf(m: Metrics): (s: MetricsSummary)
    ensures s.errorCount == |m.errors|
    ensures |s.latestErrors| == Min(5, |m.errors|) && s.latestErrors == m.errors[|m.errors| - |s.latestErrors|..]
    ensures s.contentCreated == m.contentCreated && s.agentsUsed == m.agentsUsed
    ensures s.processingTime == m.processingTime && s.successRate == m.successRate
  {
    MetricsSummary(m.contentCreated, m.agentsUsed, m.processingTime, m.successRate,
                   |m.errors|, LastFive(m.errors))
  }

  /** Recording an agent twice is recording it once. */
  lemma AgentUsageIdempotent(m: Metrics, agent: string)
    ensures RecordAgentUsage(RecordAgentUsage(m, agent), agent) == RecordAgentUsage(m, agent)
  {
  }

  /** `n` recordings of content creation. */
  function RecordContentTimes(m: Metrics, n: nat): Metrics
    decreases n
  {
    if n == 0 then m else RecordContentCreation(RecordContentTimes(m, n - 1))
  }

  /** Each recording raises the count by exactly one and touches nothing
      else. */
  lemma {:induction false} ContentCountAfter(m: Metrics, n: nat)
    ensures RecordContentTimes(m, n).contentCreated == m.contentCreated + n
    ensures RecordContentTimes(m, n).(contentCreated := m.contentCreated) == m
    decreases n
  {
    if n > 0 {
      ContentCountAfter(m, n - 1);
    }
  }

  /** The newest error is the last of the latest errors, and the oldest
      of six drops out of the summary. */
  lemma LatestErrorAfterRecord(m: Metrics, error: string, timestamp: string)
    ensures var s := MetricsSummaryOf(RecordError(m, error, timestamp));
      s.errorCount == |m.errors| + 1
      && s.latestErrors[|s.latestErrors| - 1] == ErrorRecord(error, timestamp)
      && (|m.errors| >= 5 ==> s.latestErrors == m.errors[|m.errors| - 4..] + [ErrorRecord(error, timestamp)])
  {
    var r := RecordError(m, error, timestamp);
    if |m.errors| >= 5 {
      assert r.errors[|r.errors| - 5..] == m.errors[|m.errors| - 4..] + [ErrorRecord(error, timestamp)];
    }
  }

  // ---------------------------------------------------------------------
  // Research prompt

  const ResearchTail: string :=
    "\n        \n        Provide comprehensive information including:\n"
    + "        1. Key facts and statistics\n        2. Current trends and developments\n"
    + "        3. Expert opinions and insights\n        4. Relevant examples and case studies\n"
    + "        5. Target audience considerations\n        \n"
    + "        Ensure all information is accurate and from reliable sources.\n        "

  /** `research_prompt`; a missing focus list is the empty one. */
  function ResearchPrompt(topic: string, focusAreas: seq<string>): (r: string)
    ensures |r| >= 20 + |topic| + |ResearchTail|
    ensures r[..20 + |topic|] == "Research the topic: " + topic
    ensures r[|r| - |ResearchTail|..] == ResearchTail
    ensures focusAreas == [] ==> |r| == 20 + |topic| + |ResearchTail|
    ensures focusAreas != [] ==>
      r[20 + |topic|..|r| - |ResearchTail|] == "\n\nFocus on these specific areas: " + Join(focusAreas, ", ")
  {
    var focus := if focusAreas != [] then "\n\nFocus on these specific areas: " + Join(focusAreas, ", ") else [];
    "Research the topic: " + topic + focus + ResearchTail
  }

  /** Each focus area is named in the prompt. */
  lemma ResearchPromptNamesAreas(topic: string, focusAreas: seq<string>, k: nat)
    requires k < |focusAreas|
    ensures Contains(ResearchPrompt(topic, focusAreas), focusAreas[k])
  {
    var joined := Join(focusAreas, ", ");
    JoinHas(focusAreas, ", ", k);
    ContainsExtend(joined, "\n\nFocus on these specific areas: ", focusAreas[k]);
    ContainsExtend("\n\nFocus on these specific areas: " + joined, "Research the topic: " + topic, focusAreas[k]);
    ContainsExtend("Research the topic: " + topic + ("\n\nFocus on these specific areas: " + joined), ResearchTail, focusAreas[k]);
    assert "Research the topic: " + topic + ("\n\nFocus on these specific areas: " + joined) + ResearchTail
      == ResearchPrompt(topic, focusAreas);
  }
}

=== FILE: optional.dfy ===
/** The absent-or-present value that Python expresses with `None` and with
    `dict.get` on a missing key. */
module Optional {

  datatype Option<+T> = None | Some(value: T) {

    /** The wrapped value, or `default` when absent (Python's `x or default`
        for a value that is either missing or present). */
    function GetOr(default: T): T {
      match this
      case Some(v) => v
      case None => default
    }

    /** The value as a list of zero or one items. */
    function Items(): (r: seq<T>)
      ensures |r| <= 1
      ensures r == [] <==> None?
      ensures r != [] ==> this == Some(r[0])
    {
      match this
      case Some(v) => [v]
      case None => []
    }
  }

  /** The present results of `f` over `xs`, in order: a loop that appends
      a result whenever there is one. */
  function Collect<X, Y>(f: X -> Option<Y>, xs: seq<X>): (r: seq<Y>)
    ensures |r| <= |xs|
    ensures forall k :: 0 <= k < |r| ==> exists j :: 0 <= j < |xs| && f(xs[j]) == Some(r[k])
    ensures (forall j :: 0 <= j < |xs| ==> f(xs[j]).Some?) ==>
      |r| == |xs| && forall k :: 0 <= k < |r| ==> Some(r[k]) == f(xs[k])
    ensures (forall j :: 0 <= j < |xs| ==> f(xs[j]).None?) ==> r == []
    decreases |xs|
  {
    if xs == [] then []
    else
      var rest := Collect(f, xs[1..]);
      var r := f(xs[0]).Items() + rest;
      CollectStepSound(f, xs, rest, r);
      CollectStepAll(f, xs, rest, r);
      CollectStepNone(f, xs, rest, r);
      r
  }

  /** The step of `Collect`: every result in front of results collected
      from the rest comes from some element. */
  lemma CollectStepSound<X, Y>(f: X -> Option<Y>, xs: seq<X>, rest: seq<Y>, r: seq<Y>)
    requires xs != [] && r == f(xs[0]).Items() + rest
    requires forall k :: 0 <= k < |rest| ==> exists j :: 0 <= j < |xs[1..]| && f(xs[1..][j]) == Some(rest[k])
    ensures forall k :: 0 <= k < |r| ==> exists j :: 0 <= j < |xs| && f(xs[j]) == Some(r[k])
  {
    var head := f(xs[0]).Items();
    forall k | 0 <= k < |r|
      ensures exists j :: 0 <= j < |xs| && f(xs[j]) == Some(r[k])
    {
      if k < |head| {
        assert f(xs[0]) == Some(r[k]);
      } else {
        assert r[k] == rest[k - |head|];
        var j :| 0 <= j < |xs[1..]| && f(xs[1..][j]) == Some(rest[k - |head|]);
        assert xs[1..][j] == xs[j + 1];
      }
    }
  }

  /** The step of `Collect` when every element has a result. */
  lemma CollectStepAll<X, Y>(f: X -> Option<Y>, xs: seq<X>, rest: seq<Y>, r: seq<Y>)
    requires xs != [] && r == f(xs[0]).Items() + rest
    requires (forall j :: 0 <= j < |xs[1..]| ==> f(xs[1..][j]).Some?) ==>
      |rest| == |xs[1..]| && forall k :: 0 <= k < |rest| ==> Some(rest[k]) == f(xs[1..][k])
    ensures (forall j :: 0 <= j < |xs| ==> f(xs[j]).Some?) ==>
      |r| == |xs| && forall k :: 0 <= k < |r| ==> Some(r[k]) == f(xs[k])
  {
    if forall j :: 0 <= j < |xs| ==> f(xs[j]).Some? {
      assert forall j :: 0 <= j < |xs[1..]| ==> f(xs[1..][j]).Some? by {
        forall j | 0 <= j < |xs[1..]|
          ensures f(xs[1..][j]).Some?
        {
          assert xs[1..][j] == xs[j + 1];
        }
      }
      assert f(xs[0]).Some?;
      forall k | 0 <= k < |r|
        ensures Some(r[k]) == f(xs[k])
      {
        if k > 0 {
          assert r[k] == rest[k - 1];
          assert xs[1..][k - 1] == xs[k];
        }
      }
    }
  }

  /** The step of `Collect` when no element has a result. */
  lemma CollectStepNone<X, Y>(f: X -> Option<Y>, xs: seq<X>, rest: seq<Y>, r: seq<Y>)
    requires xs != [] && r == f(xs[0]).Items() + rest
    requires (forall j :: 0 <= j < |xs[1..]| ==> f(xs[1..][j]).None?) ==> rest == []
    ensures (forall j :: 0 <= j < |xs| ==> f(xs[j]).None?) ==> r == []
  {
    if forall j :: 0 <= j < |xs| ==> f(xs[j]).None? {
      assert f(xs[0]).None?;
      forall j | 0 <= j < |xs[1..]|
        ensures f(xs[1..][j]).None?
      {
        assert xs[1..][j] == xs[j + 1];
      }
    }
  }

  /** The results of a non-empty list: the first element's, then the
      rest's. */
  lemma CollectCons<X, Y>(f: X -> Option<Y>, xs: seq<X>)
    requires xs != []
    ensures Collect(f, xs) == f(xs[0]).Items() + Collect(f, xs[1..])
  {
  }

  /** Appending is associative. */
  lemma SeqAssoc<Y>(x: seq<Y>, y: seq<Y>, z: seq<Y>)
    ensures x + (y + z) == (x + y) + z
  {
  }

  /** Collecting over two lists is collecting over each, appended. */
  lemma {:induction false} CollectAppend<X, Y>(f: X -> Option<Y>, a: seq<X>, b: seq<X>)
    ensures Collect(f, a + b) == Collect(f, a) + Collect(f, b)
    decreases |a|
  {
    if a == [] {
      assert a + b == b;
    } else {
      var x := f(a[0]).Items();
      var ab := a + b;
      assert ab[0] == a[0] && ab[1..] == a[1..] + b;
      CollectCons(f, ab);
      assert Collect(f, ab) == x + Collect(f, a[1..] + b);
      CollectCons(f, a);
      CollectAppend(f, a[1..], b);
      SeqAssoc(x, Collect(f, a[1..]), Collect(f, b));
    }
  }

  function Min(a: int, b: int): int {
    if a <= b then a else b
  }

  function Max(a: int, b: int): int {
    if a >= b then a else b
  }
}

=== FILE: pipeline.dfy ===
/** The orchestration in backend/main.py with every language-model call
    replaced by its reply: keyword defaulting, the SEO data, platform
    routing, the QA step, the metrics bookkeeping and the names and
    contents of the saved files. */
module Pipeline {
  import opened Optional
  import opened Text
  import opened Assoc
  import opened SeoAgent
  import opened PlatformAgent
  import opened QaAgent
  import opened Helpers

  /** Python's `s[:n]`. */
  function Prefix(s: string, n: nat): (r: string)
    ensures |r| == Min(n, |s|) && r == s[..|r|]
  {
    s[..Min(n, |s|)]
  }

  // ---------------------------------------------------------------------
  // SEO step

  /** `target_keywords`, or the generated ones when none (or an empty
      list) were given. */
  function KeywordsFor(topic: string, target: seq<string>): (r: seq<string>)
    ensures target != [] ==> r == target
    ensures target == [] ==> r == GenerateKeywords(topic) && r[0] == topic
    ensures r != []
  {
    if target == [] then GenerateKeywords(topic) else target
  }

  /** The `seo_data` built by `_optimize_seo` from the edited content,
      with every key present. The title is the first keyword title-cased
      (the first 100 characters stand in only when there is no keyword,
      which the run never passes). The description opens with up to 120
      characters of the content and names its first 100 characters as the
      topic. The density entry holds each keyword's statistics. */
  function BuildSeoData(content: string, keywords: seq<string>): (d: SeoData)
    ensures d.keywords == Some(keywords)
    ensures d.metaTitle.Some? && d.metaDescription.Some? && d.keywordDensity.Some? && d.headers.Some?
    ensures |d.metaTitle.value| == |PrimaryKeyword(Prefix(content, 100), keywords)| + 33
    ensures keywords != [] ==> d.metaTitle.value == Title(keywords[0]) + TitleSuffix
    ensures keywords == [] ==> d.metaTitle.value == Title(Prefix(content, 100)) + TitleSuffix
    ensures |d.metaDescription.value| == Min(120, |content|) + Min(100, |content|) + 62
    ensures d.metaDescription.value
         == content[..Min(120, |content|)] + DescriptionLead + Prefix(content, 100) + DescriptionTail
    ensures Distinct(Keys(d.keywordDensity.value))
    ensures forall k :: k in Keys(d.keywordDensity.value) <==> k in keywords
    ensures forall k :: k in keywords ==> Get(d.keywordDensity.value, k) == Some(KeywordStatOf(content, k))
    ensures d.headers.value == SuggestHeaders(content)
  {
    var title := CreateMetaTitle(Prefix(content, 100), keywords);
    var description := CreateMetaDescription(Prefix(content, 100), Prefix(content, 200));
    DescriptionOfContent(content);
    SeoData(
      Some(keywords),
      Some(title),
      Some(description),
      Some(AnalyzeKeywordDensity(content, keywords)),
      Some(SuggestHeaders(content)))
  }

  /** The description `_optimize_seo` asks for opens with up to 120
      characters of the content itself and names its first 100 characters
      as the topic. */
  lemma DescriptionOfContent(content: string)
    ensures CreateMetaDescription(Prefix(content, 100), Prefix(content, 200))
         == content[..Min(120, |content|)] + DescriptionLead + Prefix(content, 100) + DescriptionTail
  {
    var preview := Prefix(content, 200);
    var description := CreateMetaDescription(Prefix(content, 100), preview);
    assert preview[..Min(120, |preview|)] == content[..Min(120, |content|)];
    assert description == content[..Min(120, |content|)] + (DescriptionLead + Prefix(content, 100) + DescriptionTail);
  }

  /** What the QA agent's SEO check makes of the pipeline's own SEO data:
      the description is in its 150-160 band only for content of 44 to 49
      characters; the keywords pass exactly when there are any; headers
      pass exactly when the content has a blank line; the title passes
      exactly when the first keyword has 17 to 27 characters. */
  lemma PipelineSeoCompliance(content: string, keywords: seq<string>)
    ensures var c := CheckSeoCompliance(BuildSeoData(content, keywords));
      && (c.metaDescriptionLength <==> 44 <= |content| <= 49)
      && (c.keywordsIntegrated <==> keywords != [])
      && (c.headersStructured <==> Contains(content, "\n\n"))
      && (keywords != [] ==> (c.metaTitleLength <==> 17 <= |keywords[0]| <= 27))
  {
    HeadersIffBlankLine(content);
  }

  /** Content of 120 characters or more always fails the description
      check: its description has 182 characters plus up to 100 more, 282
      from 200 characters on. */
  lemma LongContentFailsDescription(content: string, keywords: seq<string>)
    requires |content| >= 120
    ensures |BuildSeoData(content, keywords).metaDescription.value| == 182 + Min(100, |content|)
    ensures |content| >= 200 ==> |BuildSeoData(content, keywords).metaDescription.value| == 282
    ensures !CheckSeoCompliance(BuildSeoData(content, keywords)).metaDescriptionLength
  {
  }

  // ---------------------------------------------------------------------
  // Platform step

  /** The version for one requested platform: the thread for a name that
      lower-cases to "twitter", the LinkedIn post for "linkedin", the first
      1000 characters otherwise. */
  function VersionFor(content: string, platform: string, topic: string): (v: Version)
    ensures Lower(platform) == "twitter" ==> v.Thread? && v.Length() <= 5
    ensures Lower(platform) == "twitter" ==> v == Thread(AdaptForTwitter(content, topic))
    ensures Lower(platform) != "twitter" ==> v.Post?
    ensures Lower(platform) == "linkedin" ==> v == Post(AdaptForLinkedIn(content, topic))
    ensures Lower(platform) != "twitter" && Lower(platform) != "linkedin" ==>
      v == Post(Prefix(content, 1000))
  {
    if Lower(platform) == "twitter" then Thread(AdaptForTwitter(content, topic))
    else if Lower(platform) == "linkedin" then Post(AdaptForLinkedIn(content, topic))
    else Post(Prefix(content, 1000))
  }

  /** `_adapt_for_platforms`: one entry per distinct requested name, under
      the name as given (`PlatformKeysOrder` gives the order). */
  function AdaptForPlatforms(content: string, platforms: seq<string>, topic: string): (r: seq<(string, Version)>)
    ensures Distinct(Keys(r))
    ensures forall p :: p in Keys(r) <==> p in platforms
    ensures forall p :: p in platforms ==> Get(r, p) == Some(VersionFor(content, p, topic))
    decreases |platforms|
  {
    if platforms == [] then []
    else
      var init := platforms[..|platforms| - 1];
      var p := platforms[|platforms| - 1];
      assert forall x :: x in platforms <==> x in init || x == p;
      var prev := AdaptForPlatforms(content, init, topic);
      var r := Put(prev, p, VersionFor(content, p, topic));
      assert forall x :: x in Keys(r) <==> x in Keys(prev) || x == p;
      r
  }

  /** The versions come in the order in which the names are first
      requested, as the dict filled by the loop keeps them. */
  lemma {:induction false} PlatformKeysOrder(content: string, platforms: seq<string>, topic: string)
    ensures FirstOccurrenceOrder(Keys(AdaptForPlatforms(content, platforms, topic)), platforms)
    decreases |platforms|
  {
    if platforms != [] {
      var init := platforms[..|platforms| - 1];
      var p := platforms[|platforms| - 1];
      assert platforms == init + [p];
      var prev := AdaptForPlatforms(content, init, topic);
      PlatformKeysOrder(content, init, topic);
      FirstOccurrenceSnoc(Keys(prev), init, p);
      assert Keys(AdaptForPlatforms(content, platforms, topic))
          == if p in Keys(prev) then Keys(prev) else Keys(prev) + [p];
    }
  }

  /** A requested "twitter" is always compliant: the QA agent measures the
      thread by its number of tweets, at most 5 against a limit of 280. */
  lemma TwitterAlwaysCompliant(content: string, platforms: seq<string>, topic: string)
    requires "twitter" in platforms
    ensures Get(CheckPlatformCompliance(AdaptForPlatforms(content, platforms, topic)), "twitter") == Some(true)
  {
    var versions := AdaptForPlatforms(content, platforms, topic);
    LowerCaseNames();
    var v := VersionFor(content, "twitter", topic);
    assert Get(versions, "twitter") == Some(v);
    assert v.Length() <= 5;
    GetFirst(QaLimits(), "twitter", 0);
    assert "twitter" in Keys(QaLimits());
    var r := CheckPlatformCompliance(versions);
    assert "twitter" in Keys(r);
    assert Get(r, "twitter") == Some(v.Length() <= 280);
  }

  /** A requested "facebook" gets the first 1000 characters, which the QA
      agent holds to 500 (the platform agent's table says 63206). */
  lemma FacebookCompliance(content: string, platforms: seq<string>, topic: string)
    requires "facebook" in platforms
    ensures Get(CheckPlatformCompliance(AdaptForPlatforms(content, platforms, topic)), "facebook")
         == Some(|content| <= 500)
  {
    var versions := AdaptForPlatforms(content, platforms, topic);
    LowerCaseNames();
    var v := VersionFor(content, "facebook", topic);
    assert v == Post(Prefix(content, 1000));
    assert Get(versions, "facebook") == Some(v);
    GetFirst(QaLimits(), "facebook", 3);
    assert "facebook" in Keys(QaLimits());
    var r := CheckPlatformCompliance(versions);
    assert "facebook" in Keys(r);
    assert Get(r, "facebook") == Some(v.Length() <= 500);
  }

  /** The QA agent's table is case-sensitive while routing is not: a
      platform requested as "Twitter" gets a thread but no compliance
      entry. */
  lemma CapitalisedNameUnchecked(content: string, topic: string)
    ensures "Twitter" !in Keys(CheckPlatformCompliance(AdaptForPlatforms(content, ["Twitter"], topic)))
    ensures Get(AdaptForPlatforms(content, ["Twitter"], topic), "Twitter").value.Thread?
  {
    assert Lower("Twitter") == "twitter";
    assert "Twitter" !in Keys(QaLimits());
  }

  // ---------------------------------------------------------------------
  // The run

  /** A language-model call either replies or raises. */
  datatype Outcome = Reply(text: string) | Failed(message: string)

  /** The replies of the six crews, in call order. */
  datatype Replies = Replies(
    research: Outcome, writing: Outcome, editing: Outcome,
    seo: Outcome, platform: Outcome, qa: Outcome)

  /** The QA report with the QA crew's own reply attached. */
  datatype PipelineQa = PipelineQa(report: QaReport, agentFeedback: string)

  /** The `results` dictionary. */
  datatype Results = Results(
    topic: string, contentType: string, targetAudience: string, tone: string,
    researchData: string, initialContent: string, editedContent: string, finalContent: string,
    seoData: SeoData, platformVersions: seq<(string, Version)>, qaReport: PipelineQa,
    processingTime: real, metrics: MetricsSummary)

  datatype Run = Done(results: Results, state: Metrics) | Raised(message: string, state: Metrics)

  /** The agents recorded on a successful run. */
  function AgentsOfRun(platforms: seq<string>): set<string> {
    {"research", "writer", "editor", "seo", "qa"} + (if platforms != [] then {"platform"} else {})
  }

  /** Whether every crew the run calls replied; the platform crew is only
      called when platforms were requested. */
  predicate AllReplied(replies: Replies, platforms: seq<string>) {
    && replies.research.Reply? && replies.writing.Reply? && replies.editing.Reply?
    && replies.seo.Reply? && (platforms != [] ==> replies.platform.Reply?) && replies.qa.Reply?
  }

  /** The collector after a successful run: the agents of the run are
      recorded, the time is taken and one content is counted. */
  function SuccessMetrics(m: Metrics, platforms: seq<string>, elapsed: real): (s: Metrics)
    ensures s.contentCreated == m.contentCreated + 1
    ensures s.agentsUsed == m.agentsUsed + AgentsOfRun(platforms)
    ensures s.errors == m.errors && s.processingTime == elapsed
    ensures s.successRate == m.successRate
  {
    var agents := RecordAgentUsage(RecordAgentUsage(RecordAgentUsage(RecordAgentUsage(m,
      "research"), "writer"), "editor"), "seo");
    var withPlatform := if platforms != [] then RecordAgentUsage(agents, "platform") else agents;
    RecordContentCreation(RecordProcessingTime(RecordAgentUsage(withPlatform, "qa"), elapsed))
  }

  /** The platform versions of a run: none when no platform was requested. */
  function VersionsOf(content: string, platforms: seq<string>, topic: string): (r: seq<(string, Version)>)
    ensures Distinct(Keys(r))
    ensures forall p :: p in Keys(r) <==> p in platforms
    ensures forall p :: p in platforms ==> Get(r, p) == Some(VersionFor(content, p, topic))
  {
    if platforms != [] then AdaptForPlatforms(content, platforms, topic) else []
  }

  /** The results of a run in which every crew replied. */
  function Complete(topic: string, contentType: string, audience: string, tone: string,
                    platforms: seq<string>, keywords: seq<string>,
                    replies: Replies, m: Metrics, elapsed: real): (r: Run)
    requires AllReplied(replies, platforms)
    ensures r.Done?
    ensures r.results.topic == topic && r.results.contentType == contentType
    ensures r.results.targetAudience == audience && r.results.tone == tone
    ensures r.state == SuccessMetrics(m, platforms, elapsed)
    ensures r.results.researchData == replies.research.text
    ensures r.results.initialContent == replies.writing.text
    ensures r.results.editedContent == replies.editing.text
    ensures r.results.finalContent == replies.seo.text
    ensures r.results.seoData == BuildSeoData(replies.editing.text, KeywordsFor(topic, keywords))
    ensures r.results.platformVersions == VersionsOf(replies.seo.text, platforms, topic)
    ensures r.results.qaReport.report
         == GenerateQaReport(r.results.finalContent, r.results.platformVersions, r.results.seoData)
    ensures r.results.qaReport.agentFeedback == replies.qa.text
    ensures r.results.processingTime == elapsed
    ensures r.results.metrics == MetricsSummaryOf(r.state)
  {
    var final := replies.seo.text;
    var seo := BuildSeoData(replies.editing.text, KeywordsFor(topic, keywords));
    var versions := VersionsOf(final, platforms, topic);
    var report := GenerateQaReport(final, versions, seo);
    var state := SuccessMetrics(m, platforms, elapsed);
    Done(Results(topic, contentType, audience, tone,
                 replies.research.text, replies.writing.text, replies.editing.text, final,
                 seo, versions, PipelineQa(report, replies.qa.text), elapsed,
                 MetricsSummaryOf(state)),
         state)
  }

  /** The message of the first crew that raised. */
  function FirstFailure(replies: Replies, platforms: seq<string>): string
    requires !AllReplied(replies, platforms)
  {
    if replies.research.Failed? then replies.research.message
    else if replies.writing.Failed? then replies.writing.message
    else if replies.editing.Failed? then replies.editing.message
    else if replies.seo.Failed? then replies.seo.message
    else if platforms != [] && replies.platform.Failed? then replies.platform.message
    else replies.qa.message
  }

  /** The agents recorded before the first failure. */
  function AgentsBeforeFailure(replies: Replies, platforms: seq<string>): set<string> {
    if replies.research.Failed? then {}
    else if replies.writing.Failed? then {"research"}
    else if replies.editing.Failed? then {"research", "writer"}
    else if replies.seo.Failed? then {"research", "writer", "editor"}
    else if platforms != [] && replies.platform.Failed? then {"research", "writer", "editor", "seo"}
    else {"research", "writer", "editor", "seo"} + (if platforms != [] then {"platform"} else {})
  }

  /** The run after a crew raised: the agents recorded so far stay
      recorded, the error is recorded and no content is counted. */
  function Abort(platforms: seq<string>, replies: Replies, m: Metrics, now: string): (r: Run)
    requires !AllReplied(replies, platforms)
    ensures r.Raised?
    ensures r.message == FirstFailure(replies, platforms)
    ensures r.state.contentCreated == m.contentCreated
    ensures r.state.agentsUsed == m.agentsUsed + AgentsBeforeFailure(replies, platforms)
    ensures r.state.errors == m.errors + [ErrorRecord(r.message, now)]
  {
    var message := FirstFailure(replies, platforms);
    Raised(message, RecordError(m.(agentsUsed := m.agentsUsed + AgentsBeforeFailure(replies, platforms)), message, now))
  }

  /** `create_content`: the crews' replies, the clock reading at the end
      and at a failure, and the collector before the run are parameters.
      The content type, audience and tone default as in the source, and a
      missing platform or keyword list is the empty list. */
  function CreateContent(topic: string, contentType: string := "blog_post",
                         audience: string := "general audience", tone: string := "professional",
                         platforms: seq<string> := [], keywords: seq<string> := [],
                         replies: Replies, m: Metrics, elapsed: real, now: string): (r: Run)
    ensures r.Done? <==> AllReplied(replies, platforms)
    ensures r.Done? ==>
      && r.results.topic == topic && r.results.contentType == contentType
      && r.results.targetAudience == audience && r.results.tone == tone
      && r.state == SuccessMetrics(m, platforms, elapsed)
      && r.state.contentCreated == m.contentCreated + 1
      && r.state.agentsUsed == m.agentsUsed + AgentsOfRun(platforms)
      && r.state.errors == m.errors && r.state.processingTime == elapsed
      && r.results.researchData == replies.research.text
      && r.results.initialContent == replies.writing.text
      && r.results.editedContent == replies.editing.text
      && r.results.finalContent == replies.seo.text
      && r.results.seoData == BuildSeoData(replies.editing.text, KeywordsFor(topic, keywords))
      && r.results.seoData.keywords == Some(KeywordsFor(topic, keywords))
      && r.results.platformVersions == VersionsOf(replies.seo.text, platforms, topic)
      && Distinct(Keys(r.results.platformVersions))
      && (forall p :: p in Keys(r.results.platformVersions) <==> p in platforms)
      && r.results.qaReport.agentFeedback == replies.qa.text
      && r.results.processingTime == elapsed
      && r.results.qaReport.report == GenerateQaReport(r.results.finalContent, r.results.platformVersions, r.results.seoData)
      && r.results.metrics == MetricsSummaryOf(r.state)
    ensures r.Raised? ==>
      && r.message == FirstFailure(replies, platforms)
      && r.state.contentCreated == m.contentCreated
      && r.state.agentsUsed == m.agentsUsed + AgentsBeforeFailure(replies, platforms)
      && r.state.errors == m.errors + [ErrorRecord(r.message, now)]
  {
    if AllReplied(replies, platforms) then
      Complete(topic, contentType, audience, tone, platforms, keywords, replies, m, elapsed)
    else Abort(platforms, replies, m, now)
  }

  /** Called with the topic alone, a run records the default content
      type, audience and tone. */
  lemma DefaultArguments(topic: string, replies: Replies, m: Metrics, elapsed: real, now: string)
    requires AllReplied(replies, [])
    ensures var r := CreateContent(topic, replies := replies, m := m, elapsed := elapsed, now := now);
      && r.Done?
      && r.results.contentType == "blog_post"
      && r.results.targetAudience == "general audience"
      && r.results.tone == "professional"
      && r.results.platformVersions == []
  {
  }

  /** A successful run is approved exactly when the final content has at
      most two issues. */
  lemma RunApproval(topic: string, contentType: string, audience: string, tone: string,
                    platforms: seq<string>, keywords: seq<string>,
                    replies: Replies, m: Metrics, elapsed: real, now: string)
    requires AllReplied(replies, platforms)
    ensures var r := CreateContent(topic, contentType, audience, tone, platforms, keywords, replies, m, elapsed, now);
      r.results.qaReport.report.approved <==> |AssessContentQuality(replies.seo.text).issues| <= 2
  {
    var r := CreateContent(topic, contentType, audience, tone, platforms, keywords, replies, m, elapsed, now);
    ApprovalByIssueCount(r.results.finalContent, r.results.platformVersions, r.results.seoData);
  }

  /** `create_content` never calls `calculate_success_rate`, so a run,
      successful or not, leaves the success rate as it was; from a fresh
      collector every summary reports 0. */
  lemma SuccessRateUntouched(topic: string, contentType: string, audience: string, tone: string,
                             platforms: seq<string>, keywords: seq<string>,
                             replies: Replies, m: Metrics, elapsed: real, now: string)
    ensures var r := CreateContent(topic, contentType, audience, tone, platforms, keywords, replies, m, elapsed, now);
      && r.state.successRate == m.successRate
      && (r.Done? ==> r.results.metrics.successRate == m.successRate)
    ensures var r := CreateContent(topic, contentType, audience, tone, platforms, keywords, replies, NewMetrics(), elapsed, now);
      r.Done? ==> r.results.metrics.successRate == 0.0
  {
  }

  // ---------------------------------------------------------------------
  // Saving

  /** The characters the stem keeps. */
  predicate StemChar(c: char) {
    IsAlnum(c) || c == ' ' || c == '-' || c == '_'
  }

  /** The characters of the topic the stem keeps, in order. */
  function KeepStemChars(s: string): (r: string)
    ensures |r| <= |s|
    ensures forall k :: 0 <= k < |r| ==> StemChar(r[k])
    ensures (forall k :: 0 <= k < |s| ==> StemChar(s[k])) ==> r == s
    ensures |s| == 1 ==> r == (if StemChar(s[0]) then s else [])
    decreases |s|
  {
    if s == [] then []
    else if StemChar(s[0]) then [s[0]] + KeepStemChars(s[1..])
    else KeepStemChars(s[1..])
  }

  /** The filter works character by character: the kept characters of two
      pieces are the first piece's followed by the second's. */
  lemma {:induction false} KeepStemCharsAppend(a: string, b: string)
    ensures KeepStemChars(a + b) == KeepStemChars(a) + KeepStemChars(b)
    decreases |a|
  {
    if a == [] {
      assert a + b == b;
    } else {
      assert (a + b)[0] == a[0] && (a + b)[1..] == a[1..] + b;
      KeepStemCharsAppend(a[1..], b);
    }
  }

  /** The filename stem: the kept characters with trailing whitespace
      removed (leading spaces stay) and spaces turned into '_'. */
  function SafeStem(topic: string): (r: string)
    ensures |r| <= |topic|
    ensures forall k :: 0 <= k < |r| ==> IsAlnum(r[k]) || r[k] == '-' || r[k] == '_'
    ensures var kept := KeepStemChars(topic);
      && |r| <= |kept|
      && (forall k :: 0 <= k < |r| ==> r[k] == (if kept[k] == ' ' then '_' else kept[k]))
      && (forall k :: |r| <= k < |kept| ==> kept[k] == ' ')
      && (r != [] ==> kept[|r| - 1] != ' ')
  {
    var kept := KeepStemChars(topic);
    RStripStem(kept);
    ReplaceChar(RStrip(kept), ' ', '_')
  }

  /** In text made of stem characters the only whitespace is ' ', so
      `rstrip` removes exactly the trailing spaces. */
  lemma RStripStem(s: string)
    requires forall k :: 0 <= k < |s| ==> StemChar(s[k])
    ensures var t := RStrip(s);
      && (forall k :: |t| <= k < |s| ==> s[k] == ' ')
      && (t != [] ==> s[|t| - 1] != ' ')
      && (forall k :: 0 <= k < |t| ==> t[k] == s[k] && StemChar(t[k]))
  {
    var t := RStrip(s);
    forall k | |t| <= k < |s|
      ensures s[k] == ' '
    {
      assert s[|t|..][k - |t|] == s[k];
      assert IsSpace(s[k]) && StemChar(s[k]);
    }
  }

  /** A stem is its own stem; a leading space becomes an underscore. */
  lemma SafeStemIdempotent(topic: string)
    ensures SafeStem(SafeStem(topic)) == SafeStem(topic)
  {
    var s := SafeStem(topic);
    StemFixed(s);
  }

  /** Text made only of characters a stem may hold is its own stem. */
  lemma StemFixed(s: string)
    requires forall k :: 0 <= k < |s| ==> IsAlnum(s[k]) || s[k] == '-' || s[k] == '_'
    ensures SafeStem(s) == s
  {
    assert forall k :: 0 <= k < |s| ==> StemChar(s[k]);
    assert KeepStemChars(s) == s;
    assert s != [] ==> !IsSpace(s[|s| - 1]);
    assert RStrip(s) == s;
    ReplaceAbsent(s, ' ', '_');
  }

  lemma LeadingSpaceKept()
    ensures SafeStem(" ai") == "_ai"
  {
    assert KeepStemChars(" ai") == " ai";
    assert !IsSpace(" ai"[2]);
    assert RStrip(" ai") == " ai";
  }

  /** The three file names of a run. */
  datatype OutputNames = OutputNames(content: string, seoReport: string, complete: string)

  function NamesFor(stem: string, timestamp: string): (n: OutputNames)
    ensures n.content != n.seoReport && n.seoReport != n.complete && n.content != n.complete
    ensures |n.content| > |stem| && |n.seoReport| > |stem| && |n.complete| > |stem|
    ensures n.content[..|stem|] == stem && n.seoReport[..|stem|] == stem && n.complete[..|stem|] == stem
  {
    var a := stem + "_" + timestamp + ".md";
    var b := stem + "_seo_" + timestamp + ".md";
    var c := stem + "_complete_" + timestamp + ".json";
    assert |a| + 4 == |b| && |a| + 11 == |c| && |b| + 7 == |c|;
    OutputNames(a, b, c)
  }

  const ResultKeys: seq<string> := [
    "topic", "content_type", "target_audience", "tone", "research_data", "initial_content",
    "edited_content", "final_content", "seo_data", "platform_versions", "qa_report",
    "processing_time", "metrics"]

  /** The keys of a dictionary without one of them, in order. */
  function Without(keys: seq<string>, k: string): (r: seq<string>)
    ensures forall x :: x in r <==> x in keys && x != k
    ensures |r| <= |keys|
    ensures k !in keys ==> r == keys
    decreases |keys|
  {
    if keys == [] then []
    else if keys[0] == k then Without(keys[1..], k)
    else
      assert forall x :: x in keys <==> x == keys[0] || x in keys[1..];
      [keys[0]] + Without(keys[1..], k)
  }

  /** Removal works piece by piece, so the kept keys stay in order. */
  lemma {:induction false} WithoutAppend(a: seq<string>, b: seq<string>, k: string)
    ensures Without(a + b, k) == Without(a, k) + Without(b, k)
    decreases |a|
  {
    if a == [] {
      assert a + b == b;
    } else {
      assert (a + b)[0] == a[0] && (a + b)[1..] == a[1..] + b;
      WithoutAppend(a[1..], b, k);
    }
  }

  /** "metrics" is the last key, so the JSON file keeps the first twelve
      keys in order. */
  lemma JsonKeys()
    ensures Without(ResultKeys, "metrics") == ResultKeys[..12]
  {
    assert ResultKeys == ResultKeys[..12] + ["metrics"];
    assert forall i :: 0 <= i < 12 ==> |ResultKeys[i]| != |"metrics"|;
    assert "metrics" !in ResultKeys[..12];
    WithoutAppend(ResultKeys[..12], ["metrics"], "metrics");
    assert Without(["metrics"], "metrics") == [];
  }

  /** What `_save_results` writes: the three names, the Markdown post
      (heading and final content, no metadata), the SEO report, and the
      keys of the JSON file. */
  datatype Saved = Saved(names: OutputNames, post: string, seoReport: string, jsonKeys: seq<string>)

  function SaveResults(r: Results, timestamp: string, today: string, render: Ratio -> string): (s: Saved)
    ensures s.post == "# " + r.topic + "\n\n" + r.finalContent
    ensures s.names == NamesFor(SafeStem(r.topic), timestamp)
    ensures s.seoReport == FormatSeoReport(r.seoData, render)
    ensures "metrics" !in s.jsonKeys
    ensures s.jsonKeys == ResultKeys[..12]
  {
    BlogPostWithoutMeta(r.topic, r.finalContent, today);
    JsonKeys();
    Saved(NamesFor(SafeStem(r.topic), timestamp),
          FormatBlogPost(r.topic, r.finalContent, None, today),
          FormatSeoReport(r.seoData, render),
          Without(ResultKeys, "metrics"))
  }
}

=== FILE: platform_agent.dfy ===
/** The deterministic part of the platform agent
    (backend/agents/platform_agent.py): the platform specification table,
    the Twitter thread splitter, the LinkedIn template and the hashtag
    generator. */
module PlatformAgent {
  import opened Optional
  import opened Text
  import opened Assoc

  /** A rendered platform version as the pipeline stores it: a single post,
      or the list of tweets produced for Twitter. */
  datatype Version = Post(text: string) | Thread(tweets: seq<string>) {

    /** Python's `len()` of the stored value: characters of a post, tweets
        of a thread. */
    function Length(): nat {
      match this
      case Post(t) => |t|
      case Thread(ts) => |ts|
    }
  }

  datatype Limit = CharLimit(chars: nat) | WordCountBand(band: string)

  datatype Strategy = HashtagStrategy(hashtags: string) | SeoStrategy(seo: string)

  datatype PlatformSpec = PlatformSpec(
    limit: Limit,
    bestPractices: seq<string>,
    postingTimes: string,
    strategy: Strategy)

  const TwitterSpec: PlatformSpec := PlatformSpec(CharLimit(280),
    ["Use relevant hashtags (2-3 max)", "Include engaging visuals",
     "Keep it concise and punchy", "Use threads for longer content"],
    "Weekdays 9 AM - 3 PM", HashtagStrategy("Use trending and niche hashtags"))

  const LinkedInSpec: PlatformSpec := PlatformSpec(CharLimit(3000),
    ["Professional tone", "Share insights and expertise",
     "Use industry-specific hashtags", "Encourage professional discussion"],
    "Weekdays 8 AM - 10 AM, " + "12 PM - 2 PM", HashtagStrategy("Use 3-5 professional hashtags"))

  const InstagramSpec: PlatformSpec := PlatformSpec(CharLimit(2200),
    ["Visual-first content", "Tell stories", "Use relevant hashtags (20-30)",
     "Engage with community"],
    "Weekdays 11 AM - 1 PM, " + "7 PM - 9 PM", HashtagStrategy("Mix popular and niche hashtags"))

  const FacebookSpec: PlatformSpec := PlatformSpec(CharLimit(63206),
    ["Encourage engagement", "Use native video when possible",
     "Share valuable content", "Use Facebook Groups"],
    "Weekdays 1 PM - 3 PM", HashtagStrategy("Use 1-2 relevant hashtags"))

  const BlogSpec: PlatformSpec := PlatformSpec(WordCountBand("800-2000 words"),
    ["SEO optimization", "Compelling headlines", "Use subheadings",
     "Include internal/external links"],
    "Tuesday - Thursday mornings", SeoStrategy("Focus on long-tail keywords"))

  /** `get_platform_specs()`, in the dictionary's order. */
  function PlatformSpecs(): seq<(string, PlatformSpec)> {
    [ ("twitter", TwitterSpec), ("linkedin", LinkedInSpec), ("instagram", InstagramSpec),
      ("facebook", FacebookSpec), ("blog", BlogSpec) ]
  }

  /** The character limit the specification table gives a platform, if
      any. */
  function SpecCharLimit(platform: string): Option<nat> {
    var spec := Get(PlatformSpecs(), platform);
    if spec.Some? && spec.value.limit.CharLimit? then Some(spec.value.limit.chars) else None
  }

  /** The platforms the table describes, in its order. */
  const SpecPlatforms: seq<string> := ["twitter", "linkedin", "instagram", "facebook", "blog"]

  /** The platform names are written in lower case, so a name that
      lower-cases to one of them and the name itself agree. */
  lemma LowerCaseNames()
    ensures Lower("twitter") == "twitter" && Lower("linkedin") == "linkedin"
    ensures Lower("facebook") == "facebook"
  {
    PlainLower("twitter");
    PlainLower("linkedin");
    PlainLower("facebook");
  }

  /** The table covers five platforms, in this order. */
  lemma SpecKeys()
    ensures Keys(PlatformSpecs()) == SpecPlatforms
  {
    var ks := Keys(PlatformSpecs());
    assert ks[0] == "twitter" && ks[1] == "linkedin" && ks[2] == "instagram";
    assert ks[3] == "facebook" && ks[4] == "blog";
    assert ks == [ks[0], ks[1], ks[2], ks[3], ks[4]];
  }

  /** Four platforms carry a character limit and the blog carries a
      word-count band instead. */
  lemma SpecTable()
    ensures SpecCharLimit("twitter") == Some(280)
    ensures SpecCharLimit("linkedin") == Some(3000)
    ensures SpecCharLimit("instagram") == Some(2200)
    ensures SpecCharLimit("facebook") == Some(63206)
    ensures SpecCharLimit("blog") == None
    ensures Get(PlatformSpecs(), "blog") == Some(BlogSpec)
    ensures BlogSpec.limit == WordCountBand("800-2000 words")
  {
    var t := PlatformSpecs();
    SpecKeys();
    assert "linkedin"[0] != "facebook"[0];
    assert Distinct(SpecPlatforms);
    GetDistinct(t, 0);
    GetDistinct(t, 1);
    GetDistinct(t, 2);
    GetDistinct(t, 3);
    GetDistinct(t, 4);
  }

  // ---------------------------------------------------------------------
  // Twitter thread

  /** `f"{i}/{n} {body}."` */
  function TweetText(i: nat, n: nat, body: string): string {
    NatToString(i) + "/" + NatToString(n) + " " + body + "."
  }

  /** `content.split('.')[:5]`: the first five pieces, empty ones included. */
  function FirstPieces(content: string): (p: seq<string>)
    ensures 1 <= |p| <= 5
  {
    var all := Split(content, ".");
    if |all| > 5 then all[..5] else all
  }

  /** Every piece with surrounding whitespace removed. */
  function StripAll(pieces: seq<string>): (r: seq<string>)
    ensures |r| == |pieces|
    ensures forall k :: 0 <= k < |r| ==> r[k] == Strip(pieces[k])
  {
    seq(|pieces|, k requires 0 <= k < |pieces| => Strip(pieces[k]))
  }

  /** The stripped pieces the thread is made from. */
  function Bodies(content: string): (b: seq<string>)
    ensures 1 <= |b| <= 5
  {
    StripAll(FirstPieces(content))
  }

  /** The candidate tweet for the `i`-th stripped piece (counting from 1). */
  function Candidate(bodies: seq<string>, i: nat): string
    requires 1 <= i <= |bodies|
  {
    TweetText(i, |bodies|, bodies[i - 1])
  }

  /** The source keeps a candidate when its stripped piece is not blank and
      the tweet fits in 280 characters. */
  predicate Survives(bodies: seq<string>, i: nat)
    requires 1 <= i <= |bodies|
  {
    |bodies[i - 1]| > 0 && |Candidate(bodies, i)| <= 280
  }

  /** The tweets for the pieces from the `i`-th on, in order. */
  function ThreadFrom(pieces: seq<string>, i: nat): (r: seq<string>)
    requires 1 <= i <= |pieces| + 1
    ensures |r| <= |pieces| + 1 - i
    ensures forall k :: 0 <= k < |r| ==> 0 < |r[k]| <= 280 && r[k][|r[k]| - 1] == '.'
    decreases |pieces| + 1 - i
  {
    if i > |pieces| then []
    else
      var t := Candidate(pieces, i);
      (if Survives(pieces, i) then [t] else []) + ThreadFrom(pieces, i + 1)
  }

  /** The tweets of all the pieces, numbered from 1 of `|bodies|`. */
  function NumberedThread(bodies: seq<string>): (r: seq<string>)
    ensures |r| <= |bodies|
    ensures forall k :: 0 <= k < |r| ==> 0 < |r[k]| <= 280 && r[k][|r[k]| - 1] == '.'
  {
    ThreadFrom(bodies, 1)
  }

  /** The thread: at most five tweets, each at most 280 characters and
      ending with a period. */
  function AdaptForTwitter(content: string, topic: string): (tweets: seq<string>)
    ensures |tweets| <= 5
    ensures forall k :: 0 <= k < |tweets| ==>
      0 < |tweets[k]| <= 280 && tweets[k][|tweets[k]| - 1] == '.'
  {
    NumberedThread(Bodies(content))
  }

  /** Reference description of the thread: the numbers of the surviving
      pieces from the `i`-th on, in increasing order. */
  function Survivors(pieces: seq<string>, i: nat): (s: seq<nat>)
    requires 1 <= i <= |pieces| + 1
    ensures forall k :: 0 <= k < |s| ==> i <= s[k] <= |pieces|
    ensures forall a, b :: 0 <= a < b < |s| ==> s[a] < s[b]
    decreases |pieces| + 1 - i
  {
    if i > |pieces| then []
    else (if Survives(pieces, i) then [i] else []) + Survivors(pieces, i + 1)
  }

  /** A piece number from `i` on is listed exactly when that piece
      survives. */
  lemma {:induction false} SurvivorsMembers(pieces: seq<string>, i: nat, j: nat)
    requires 1 <= i <= j <= |pieces|
    ensures j in Survivors(pieces, i) <==> Survives(pieces, j)
    decreases |pieces| + 1 - i
  {
    if i < j {
      SurvivorsMembers(pieces, i + 1, j);
    }
  }

  /** The candidates of the given piece numbers, in the given order. */
  function Tweets(pieces: seq<string>, idx: seq<nat>): (r: seq<string>)
    requires forall k :: 0 <= k < |idx| ==> 1 <= idx[k] <= |pieces|
    ensures |r| == |idx|
    ensures forall k :: 0 <= k < |idx| ==> r[k] == Candidate(pieces, idx[k])
    decreases |idx|
  {
    if idx == [] then [] else [Candidate(pieces, idx[0])] + Tweets(pieces, idx[1..])
  }

  lemma TweetsCons(pieces: seq<string>, i: nat, rest: seq<nat>)
    requires 1 <= i <= |pieces|
    requires forall k :: 0 <= k < |rest| ==> 1 <= rest[k] <= |pieces|
    ensures Tweets(pieces, [i] + rest) == [Candidate(pieces, i)] + Tweets(pieces, rest)
  {
    assert ([i] + rest)[1..] == rest;
  }

  /** One step of the thread: a surviving piece adds its candidate in
      front of the rest. */
  lemma SurvivingStep(pieces: seq<string>, i: nat)
    requires 1 <= i <= |pieces| && Survives(pieces, i)
    requires ThreadFrom(pieces, i + 1) == Tweets(pieces, Survivors(pieces, i + 1))
    ensures ThreadFrom(pieces, i) == Tweets(pieces, Survivors(pieces, i))
  {
    var rest := Survivors(pieces, i + 1);
    var t := Candidate(pieces, i);
    assert ThreadFrom(pieces, i) == [t] + ThreadFrom(pieces, i + 1);
    assert Survivors(pieces, i) == [i] + rest;
    TweetsCons(pieces, i, rest);
  }

  /** One step of the thread: a skipped piece adds nothing. */
  lemma SkippedStep(pieces: seq<string>, i: nat)
    requires 1 <= i <= |pieces| && !Survives(pieces, i)
    requires ThreadFrom(pieces, i + 1) == Tweets(pieces, Survivors(pieces, i + 1))
    ensures ThreadFrom(pieces, i) == Tweets(pieces, Survivors(pieces, i))
  {
    assert Survivors(pieces, i) == [] + Survivors(pieces, i + 1) == Survivors(pieces, i + 1);
    assert ThreadFrom(pieces, i) == [] + ThreadFrom(pieces, i + 1) == ThreadFrom(pieces, i + 1);
  }

  lemma {:induction false} ThreadFromIsSurvivors(pieces: seq<string>, i: nat)
    requires 1 <= i <= |pieces| + 1
    ensures ThreadFrom(pieces, i) == Tweets(pieces, Survivors(pieces, i))
    decreases |pieces| + 1 - i
  {
    if i <= |pieces| {
      ThreadFromIsSurvivors(pieces, i + 1);
      if Survives(pieces, i) {
        SurvivingStep(pieces, i);
      } else {
        SkippedStep(pieces, i);
      }
    }
  }

  /** The thread is exactly the candidates of the surviving pieces, in
      piece order: blank or over-long pieces are skipped while the others
      keep their original number, so the numbering can have gaps. */
  lemma TwitterThread(content: string, topic: string)
    ensures AdaptForTwitter(content, topic)
         == Tweets(Bodies(content), Survivors(Bodies(content), 1))
  {
    ThreadFromIsSurvivors(Bodies(content), 1);
    assert AdaptForTwitter(content, topic) == ThreadFrom(Bodies(content), 1);
  }

  /** With at most five pieces every number has one digit, so a tweet is
      its stripped piece plus five characters; a piece survives exactly
      when it is not blank and has at most 275 characters after stripping. */
  lemma CandidateLength(pieces: seq<string>, i: nat)
    requires 1 <= i <= |pieces| <= 5
    ensures |Candidate(pieces, i)| == |pieces[i - 1]| + 5
    ensures Survives(pieces, i) <==> 0 < |pieces[i - 1]| <= 275
    ensures Candidate(pieces, i)[0] == DigitChar(i)
  {
    assert NatToString(i) == [DigitChar(i)];
  }

  /** Candidates of different pieces differ, so a piece's candidate is
      among the surviving tweets exactly when the piece survives. */
  lemma {:induction false} SurvivorTweets(bodies: seq<string>, i: nat)
    requires 1 <= i <= |bodies| <= 5
    ensures Candidate(bodies, i) in Tweets(bodies, Survivors(bodies, 1)) <==> Survives(bodies, i)
  {
    var s := Survivors(bodies, 1);
    var t := Tweets(bodies, s);
    SurvivorsMembers(bodies, 1, i);
    if Candidate(bodies, i) in t {
      var k :| 0 <= k < |s| && t[k] == Candidate(bodies, i);
      CandidateLength(bodies, i);
      CandidateLength(bodies, s[k]);
      assert s[k] == i;
    }
    if Survives(bodies, i) {
      var k :| 0 <= k < |s| && s[k] == i;
      assert t[k] == Candidate(bodies, i);
    }
  }

  /** The i-th piece's tweet is in the thread exactly when that piece
      survives. */
  lemma TwitterThreadMembership(content: string, topic: string, i: nat)
    requires 1 <= i <= |Bodies(content)|
    ensures Candidate(Bodies(content), i) in AdaptForTwitter(content, topic)
        <==> Survives(Bodies(content), i)
  {
    TwitterThread(content, topic);
    SurvivorTweets(Bodies(content), i);
  }

  /** A blank piece is skipped but still counted: the pieces "a", "" and
      "b" give the tweets "1/3 a." and "3/3 b.". */
  lemma ThreadNumberingGap()
    ensures NumberedThread(["a", "", "b"]) == ["1/3 a.", "3/3 b."]
  {
    var b := ["a", "", "b"];
    assert NatToString(3) == "3";
    assert NatToString(1) == "1";
    assert Candidate(b, 1) == "1/3 a.";
    assert Candidate(b, 3) == "3/3 b.";
    assert ThreadFrom(b, 4) == [];
    assert ThreadFrom(b, 3) == ["3/3 b."];
    assert ThreadFrom(b, 2) == ["3/3 b."];
  }

  // ---------------------------------------------------------------------
  // LinkedIn

  const LinkedInTakeaways: string :=
    "\n\nKey takeaways:\n\U{2022} [Point 1]\n\U{2022} [Point 2] \n\U{2022} [Point 3]\n\nWhat's your "
  const LinkedInTail: string := " Share your thoughts below!\n\n#Industry #Innovation #Growth"

  /** The fixed template around at most the first 1000 characters of the
      content (followed by an ellipsis), naming the topic twice. */
  function AdaptForLinkedIn(content: string, topic: string): (r: string)
    ensures |r| == Min(1000, |content|) + 2 * |topic| + 161
    ensures Contains(r, content[..Min(1000, |content|)] + "...")
    ensures Contains(r, "Insights on " + topic + "\n\n")
    ensures Contains(r, "experience with " + topic + "?")
  {
    var body := content[..Min(1000, |content|)];
    var insights := "Insights on " + topic + "\n\n";
    var excerpt := body + "...";
    var question := "experience with " + topic + "?";
    var r := "\U{1F50D} " + insights + excerpt + LinkedInTakeaways + question + LinkedInTail;
    var head := "\U{1F50D} ";
    ContainsSelf(insights);
    ContainsExtend(insights, head, insights);
    ContainsExtend(head + insights, excerpt, insights);
    ContainsExtend(head + insights + excerpt, LinkedInTakeaways, insights);
    ContainsExtend(head + insights + excerpt + LinkedInTakeaways, question, insights);
    ContainsExtend(head + insights + excerpt + LinkedInTakeaways + question, LinkedInTail, insights);
    ContainsSelf(excerpt);
    ContainsExtend(excerpt, head + insights, excerpt);
    ContainsExtend(head + insights + excerpt, LinkedInTakeaways, excerpt);
    ContainsExtend(head + insights + excerpt + LinkedInTakeaways, question, excerpt);
    ContainsExtend(head + insights + excerpt + LinkedInTakeaways + question, LinkedInTail, excerpt);
    ContainsSelf(question);
    ContainsExtend(question, head + insights + excerpt + LinkedInTakeaways, question);
    ContainsExtend(head + insights + excerpt + LinkedInTakeaways + question, LinkedInTail, question);
    r
  }

  // ---------------------------------------------------------------------
  // Hashtags

  /** Hashtags for a platform of the specification table (a key of
      `PlatformSpecs()`, see `SpecKeys`): the topic tag,
      the topic tag with "Tips", two fixed tags, and for LinkedIn and
      Instagram one platform tag; nothing for any other platform name. */
  function GenerateHashtags(topic: string, platform: string): (r: seq<string>)
    ensures platform !in SpecPlatforms ==> r == []
    ensures platform in SpecPlatforms ==>
      && |r| == (if platform == "linkedin" || platform == "instagram" then 5 else 4)
      && r[0] == "#" + RemoveChar(topic, ' ')
      && r[1] == r[0] + "Tips"
      && r[2] == "#Innovation" && r[3] == "#Technology"
    ensures platform == "linkedin" ==> r[4] == "#Professional"
    ensures platform == "instagram" ==> r[4] == "#Inspiration"
    ensures forall k :: 0 <= k < |r| ==> |r[k]| > 0 && r[k][0] == '#' && ' ' !in r[k]
  {
    if platform !in SpecPlatforms then []
    else
      var tag := "#" + RemoveChar(topic, ' ');
      var base := [tag, tag + "Tips", "#Innovation", "#Technology"];
      var all :=
        if platform == "linkedin" then base + ["#Professional", "#Industry", "#Growth"]
        else if platform == "instagram" then base + ["#Inspiration", "#Lifestyle", "#Community"]
        else base;
      all[..Min(5, |all|)]
  }

  /** Only the five table names, matched case-sensitively, get hashtags. */
  lemma HashtagPlatforms(topic: string, platform: string)
    ensures GenerateHashtags(topic, platform) != [] <==> platform in Keys(PlatformSpecs())
    ensures GenerateHashtags(topic, "Twitter") == []
  {
    SpecKeys();
    assert "Twitter" !in SpecPlatforms by {
      assert "Twitter"[0] != "twitter"[0];
    }
  }
}

=== FILE: qa_agent.dfy ===
/** The deterministic checks of the QA agent (agents/qa_agent.py): the
    content-quality score and issues, platform and SEO compliance,
    recommendations and the report that combines them.

    Scores are counted in half points: 20 stands for the source's 10, and
    every deduction of 0.5 is one half point. */
module QaAgent {
  import opened Optional
  import opened Text
  import opened Assoc
  import opened SeoAgent
  import opened PlatformAgent

  // ---------------------------------------------------------------------
  // Issues

  /** The content issues the assessment can report. Each message is
      written as the concatenation of its parts so that the key phrase the
      recommendations look for is visible. */
  datatype QaIssue =
    | TooShort
    | TooLong
    | ExcessiveExclamation
    | Repetitive(words: seq<string>)
    | LongSentences
  {
    function Message(): string {
      match this
      case TooShort => "Content may be " + "too short" + " for meaningful value"
      case TooLong => "Content may be " + "too long" + " for optimal engagement"
      case ExcessiveExclamation => "Excessive " + "exclamation marks" + " detected"
      case Repetitive(ws) => "Repetitive words detected: " + Join(ws, ", ")
      case LongSentences => "Average " + "sentence length" + " is " + "too long"
    }
  }

  /** The messages of a list of issues, in order. */
  function Messages(issues: seq<QaIssue>): (r: seq<string>)
    ensures |r| == |issues|
    ensures forall k :: 0 <= k < |issues| ==> r[k] == issues[k].Message()
  {
    seq(|issues|, k requires 0 <= k < |issues| => issues[k].Message())
  }

  // ---------------------------------------------------------------------
  // Repetitive words

  /** How often `w` occurs in `tokens`. */
  function Occurrences(tokens: seq<string>, w: string): (n: nat)
    ensures n > 0 <==> w in tokens
    decreases |tokens|
  {
    if tokens == [] then 0
    else
      assert tokens == tokens[..|tokens| - 1] + [tokens[|tokens| - 1]];
      Occurrences(tokens[..|tokens| - 1], w) + (if tokens[|tokens| - 1] == w then 1 else 0)
  }

  /** The distinct tokens longer than four characters, in first-occurrence
      order: the keys of the source's `word_freq` dictionary, whose values
      are their `Occurrences`. */
  function LongWords(tokens: seq<string>): (d: seq<string>)
    ensures forall i, j :: 0 <= i < j < |d| ==> d[i] != d[j]
    ensures forall w :: w in d <==> w in tokens && |w| > 4
    ensures FirstOccurrenceOrder(d, tokens)
    decreases |tokens|
  {
    if tokens == [] then []
    else
      var init := tokens[..|tokens| - 1];
      var w := tokens[|tokens| - 1];
      assert tokens == init + [w];
      var prev := LongWords(init);
      FirstOccurrenceSnoc(prev, init, w);
      if |w| > 4 && w !in prev then prev + [w] else prev
  }

  /** The words among `candidates` whose count exceeds three hundredths of
      the number of tokens, in the order of `candidates`. */
  function Frequent(candidates: seq<string>, tokens: seq<string>): (r: seq<string>)
    ensures forall w :: w in r <==>
      w in candidates && 100 * Occurrences(tokens, w) > 3 * |tokens|
    decreases |candidates|
  {
    if candidates == [] then []
    else
      var w := candidates[0];
      assert forall x :: x in candidates <==> x == w || x in candidates[1..];
      (if 100 * Occurrences(tokens, w) > 3 * |tokens| then [w] else []) + Frequent(candidates[1..], tokens)
  }

  /** The comprehension tests each candidate on its own: filtering two runs
      of candidates is filtering each, appended. */
  lemma {:induction false} FrequentAppend(a: seq<string>, b: seq<string>, tokens: seq<string>)
    ensures Frequent(a + b, tokens) == Frequent(a, tokens) + Frequent(b, tokens)
    decreases |a|
  {
    if a == [] {
      assert a + b == b;
    } else {
      assert (a + b)[0] == a[0] && (a + b)[1..] == a[1..] + b;
      FrequentAppend(a[1..], b, tokens);
    }
  }

  /** Filtering keeps the candidates' order: candidates listed in
      first-occurrence order of `s` are kept in that order. */
  lemma {:induction false} FrequentKeepsOrder(candidates: seq<string>, tokens: seq<string>, s: seq<string>)
    requires FirstOccurrenceOrder(candidates, s)
    ensures FirstOccurrenceOrder(Frequent(candidates, tokens), s)
    decreases |candidates|
  {
    if candidates != [] {
      var w := candidates[0];
      var tail := candidates[1..];
      assert forall i :: 0 <= i < |tail| ==> tail[i] == candidates[i + 1];
      FrequentKeepsOrder(tail, tokens, s);
      var rest := Frequent(tail, tokens);
      forall x | x in rest
        ensures FirstIndex(s, w) < FirstIndex(s, x)
      {
        var m :| 0 <= m < |tail| && tail[m] == x;
        assert candidates[m + 1] == x;
      }
      FirstOccurrenceCons(w, rest, s);
    }
  }

  /** The lower-cased tokens of the content. */
  function Tokens(content: string): seq<string> {
    Words(Lower(content))
  }

  /** The repetitive words: exactly the lower-cased tokens longer than four
      characters that make up more than 3% of all tokens, in the order of
      their first occurrence, each once. */
  function RepetitiveWords(content: string): (r: seq<string>)
    ensures forall w :: w in r <==>
      && w in Tokens(content)
      && |w| > 4
      && 100 * Occurrences(Tokens(content), w) > 3 * |Tokens(content)|
    ensures FirstOccurrenceOrder(r, Tokens(content))
    ensures forall i, j :: 0 <= i < j < |r| ==> r[i] != r[j]
  {
    var tokens := Tokens(content);
    FrequentKeepsOrder(LongWords(tokens), tokens, tokens);
    Frequent(LongWords(tokens), tokens)
  }

  /** In a text of at most 33 tokens a single occurrence already exceeds
      3%, so every token longer than four characters is reported. */
  lemma ShortTextsAreRepetitive(content: string, w: string)
    requires |Tokens(content)| <= 33
    requires w in Tokens(content) && |w| > 4
    ensures w in RepetitiveWords(content)
  {
    assert Occurrences(Tokens(content), w) >= 1;
  }

  // ---------------------------------------------------------------------
  // Sentence length

  /** `sum(len(s.split()) for s in sentences)` */
  function SentenceWordSum(pieces: seq<string>): nat
    decreases |pieces|
  {
    if pieces == [] then 0 else |Words(pieces[0])| + SentenceWordSum(pieces[1..])
  }

  /** The average over the period-separated pieces exceeds 25. */
  predicate SentencesTooLong(content: string) {
    var pieces := Split(content, ".");
    SentenceWordSum(pieces) > 25 * |pieces|
  }

  /** Without a period the whole text is one sentence, so its sentences are
      too long exactly when it has more than 25 tokens. */
  lemma SentencesWithoutPeriod(content: string)
    requires !Contains(content, ".")
    ensures SentencesTooLong(content) <==> WordCount(content) > 25
  {
    SplitCount(content, ".");
    CountPositive(content, ".");
    SplitJoin(content, ".");
    var pieces := Split(content, ".");
    assert |pieces| == 1 && Join(pieces, ".") == pieces[0];
    assert pieces[0] == content;
    assert pieces[1..] == [];
    assert SentenceWordSum(pieces) == |Words(content)| + SentenceWordSum(pieces[1..]);
    assert SentenceWordSum(pieces) == |Words(content)|;
  }

  // ---------------------------------------------------------------------
  // Assessment

  /** The score (in half points) and the issues found. */
  datatype Assessment = Assessment(halfPoints: int, issues: seq<QaIssue>)

  /** At most three repetitive words are named in the message. */
  function FirstThree(ws: seq<string>): (r: seq<string>)
    ensures |r| == Min(3, |ws|)
    ensures r == ws[..|r|]
  {
    ws[..Min(3, |ws|)]
  }

  /** Membership in four appended lists. */
  lemma InFour<T>(a: seq<T>, b: seq<T>, c: seq<T>, d: seq<T>)
    ensures forall y :: y in a + b + c + d <==> y in a || y in b || y in c || y in d
  {
  }

  /** The length check: at most one of the two length issues. */
  function LengthIssues(wordCount: nat): (r: seq<QaIssue>)
    ensures TooShort in r <==> wordCount < 100
    ensures TooLong in r <==> wordCount > 3000
    ensures forall x :: x in r ==> x == TooShort || x == TooLong
    ensures |r| <= 1
  {
    if wordCount < 100 then [TooShort] else if wordCount > 3000 then [TooLong] else []
  }

  /** A check that raises `issue` exactly when `raised` holds. */
  function IssueIf(raised: bool, issue: QaIssue): (r: seq<QaIssue>)
    ensures forall x :: x in r <==> raised && x == issue
    ensures |r| == if raised then 1 else 0
  {
    if raised then [issue] else []
  }

  /** The position of an issue's check in the assessment: length, then
      exclamation marks, then repetition, then sentence length. */
  function Rank(issue: QaIssue): nat {
    match issue
    case TooShort => 0
    case TooLong => 0
    case ExcessiveExclamation => 1
    case Repetitive(_) => 2
    case LongSentences => 3
  }

  /** The issues come in check order, so none is repeated. */
  predicate InCheckOrder(issues: seq<QaIssue>) {
    forall i, j :: 0 <= i < j < |issues| ==> Rank(issues[i]) < Rank(issues[j])
  }

  /** Issues in check order are distinct. */
  lemma InCheckOrderDistinct(issues: seq<QaIssue>)
    requires InCheckOrder(issues)
    ensures forall i, j :: 0 <= i < j < |issues| ==> issues[i] != issues[j]
  {
  }

  /** Two lists in check order, all of the first ranked below all of the
      second, stay in check order when appended. */
  lemma InCheckOrderAppend(x: seq<QaIssue>, y: seq<QaIssue>, bound: nat)
    requires InCheckOrder(x) && InCheckOrder(y)
    requires forall a :: a in x ==> Rank(a) < bound
    requires forall b :: b in y ==> Rank(b) >= bound
    ensures InCheckOrder(x + y)
  {
    var xy := x + y;
    forall i, j | 0 <= i < j < |xy|
      ensures Rank(xy[i]) < Rank(xy[j])
    {
      if j < |x| {
        assert xy[i] == x[i] && xy[j] == x[j];
      } else if i >= |x| {
        assert xy[i] == y[i - |x|] && xy[j] == y[j - |x|];
      } else {
        assert xy[i] == x[i] && xy[j] == y[j - |x|];
      }
    }
  }

  /** The issues of the four checks, appended in check order. */
  function CheckIssues(wordCount: nat, bangs: nat, repetitive: seq<string>, longSentences: bool): (r: seq<QaIssue>)
    ensures TooShort in r <==> wordCount < 100
    ensures TooLong in r <==> wordCount > 3000
    ensures |r| == |LengthIssues(wordCount)| + (if 50 * bangs > wordCount then 1 else 0)
      + (if repetitive != [] then 1 else 0) + (if longSentences then 1 else 0)
  {
    var length := LengthIssues(wordCount);
    var exclaimed := IssueIf(50 * bangs > wordCount, ExcessiveExclamation);
    var repeated := IssueIf(repetitive != [], Repetitive(FirstThree(repetitive)));
    var sentences := IssueIf(longSentences, LongSentences);
    InFour(length, exclaimed, repeated, sentences);
    length + exclaimed + repeated + sentences
  }

  /** Each check's issues rank above the previous checks', so the
      appended issues are in check order. */
  lemma CheckIssuesInOrder(wordCount: nat, bangs: nat, repetitive: seq<string>, longSentences: bool)
    ensures InCheckOrder(CheckIssues(wordCount, bangs, repetitive, longSentences))
  {
    var length := LengthIssues(wordCount);
    var exclaimed := IssueIf(50 * bangs > wordCount, ExcessiveExclamation);
    var repeated := IssueIf(repetitive != [], Repetitive(FirstThree(repetitive)));
    var sentences := IssueIf(longSentences, LongSentences);
    InCheckOrderAppend(length, exclaimed, 1);
    InCheckOrderAppend(length + exclaimed, repeated, 2);
    InCheckOrderAppend(length + exclaimed + repeated, sentences, 3);
  }

  /** The checks on the measured quantities (token count, exclamation
      marks, repetitive words, whether sentences are too long): each check
      appends its issue and deducts half a point, a too-short text a whole
      point, and the score is floored at 1 (two half points). The issues
      come in check order, so none is repeated. */
  function Assess(wordCount: nat, bangs: nat, repetitive: seq<string>, longSentences: bool): (a: Assessment)
    ensures 15 <= a.halfPoints <= 20
    ensures |a.issues| <= 4
    ensures a.halfPoints == 20 - |a.issues| - (if TooShort in a.issues then 1 else 0)
    ensures TooShort in a.issues <==> wordCount < 100
    ensures TooLong in a.issues <==> wordCount > 3000
    ensures InCheckOrder(a.issues)
    ensures forall i, j :: 0 <= i < j < |a.issues| ==> a.issues[i] != a.issues[j]
  {
    var issues := CheckIssues(wordCount, bangs, repetitive, longSentences);
    CheckIssuesInOrder(wordCount, bangs, repetitive, longSentences);
    InCheckOrderDistinct(issues);
    var lengthCost := if wordCount < 100 then 2 else if wordCount > 3000 then 1 else 0;
    var score := 20 - lengthCost - (|issues| - |LengthIssues(wordCount)|);
    Assessment(Max(2, score), issues)
  }

  /** The issues of an assessment are the four checks' issues in order. */
  lemma AssessIssues(wordCount: nat, bangs: nat, repetitive: seq<string>, longSentences: bool)
    ensures forall x :: x in Assess(wordCount, bangs, repetitive, longSentences).issues <==>
      x in LengthIssues(wordCount)
      || (50 * bangs > wordCount && x == ExcessiveExclamation)
      || (repetitive != [] && x == Repetitive(FirstThree(repetitive)))
      || (longSentences && x == LongSentences)
  {
    InFour(LengthIssues(wordCount),
           IssueIf(50 * bangs > wordCount, ExcessiveExclamation),
           IssueIf(repetitive != [], Repetitive(FirstThree(repetitive))),
           IssueIf(longSentences, LongSentences));
  }

  /** The remaining checks raise their issue exactly when their condition
      holds, and the repetition issue names the first three repeated words. */
  lemma AssessRaises(wordCount: nat, bangs: nat, repetitive: seq<string>, longSentences: bool)
    ensures var a := Assess(wordCount, bangs, repetitive, longSentences);
      && (ExcessiveExclamation in a.issues <==> 50 * bangs > wordCount)
      && (Repetitive(FirstThree(repetitive)) in a.issues <==> repetitive != [])
      && (forall ws :: Repetitive(ws) in a.issues ==> ws == FirstThree(repetitive))
      && (LongSentences in a.issues <==> longSentences)
  {
    AssessIssues(wordCount, bangs, repetitive, longSentences);
    assert ExcessiveExclamation !in LengthIssues(wordCount);
    assert LongSentences !in LengthIssues(wordCount);
  }

  /** `assess_content_quality`. The exclamation test `count > 0.02 * words`
      is cross-multiplied by 50. */
  function AssessContentQuality(content: string): Assessment {
    Assess(WordCount(content), Count(content, "!"), RepetitiveWords(content), SentencesTooLong(content))
  }

  // ---------------------------------------------------------------------
  // Platform and SEO compliance

  /** The QA agent's own limits, which differ from the platform agent's
      table for Facebook (500 against 63206). */
  function QaLimits(): seq<(string, nat)> {
    [("twitter", 280), ("linkedin", 3000), ("instagram", 2200), ("facebook", 500)]
  }

  /** One entry per version whose platform the QA table knows, telling
      whether its length is within the limit; other platforms are left
      out. Python's `len` counts tweets for a thread. */
  function CheckPlatformCompliance(versions: seq<(string, Version)>): (r: seq<(string, bool)>)
    requires Distinct(Keys(versions))
    ensures Distinct(Keys(r))
    ensures forall p :: p in Keys(r) <==> p in Keys(versions) && p in Keys(QaLimits())
    ensures forall p :: p in Keys(r) ==>
      Get(r, p) == Some(Get(versions, p).value.Length() <= Get(QaLimits(), p).value)
    decreases |versions|
  {
    if versions == [] then []
    else
      var (p, v) := versions[0];
      DistinctTail(versions);
      KeysTail(versions);
      var rest := CheckPlatformCompliance(versions[1..]);
      var limit := Get(QaLimits(), p);
      if limit.Some? then
        var r := [(p, v.Length() <= limit.value)] + rest;
        KeysCons((p, v.Length() <= limit.value), rest);
        DistinctCons(p, Keys(rest));
        assert r[1..] == rest;
        r
      else rest
  }

  /** The four SEO checks. */
  datatype SeoCompliance = SeoCompliance(
    metaTitleLength: bool,
    metaDescriptionLength: bool,
    keywordsIntegrated: bool,
    headersStructured: bool)

  /** Missing keys count as empty: a title of 50-60 characters, a
      description of 150-160, at least one keyword and one header. */
  function CheckSeoCompliance(seo: SeoData): (c: SeoCompliance)
    ensures c.metaTitleLength <==> seo.metaTitle.Some? && 50 <= |seo.metaTitle.value| <= 60
    ensures c.metaDescriptionLength <==>
      seo.metaDescription.Some? && 150 <= |seo.metaDescription.value| <= 160
    ensures c.keywordsIntegrated <==> seo.keywords.Some? && seo.keywords.value != []
    ensures c.headersStructured <==> seo.headers.Some? && seo.headers.value != []
  {
    SeoCompliance(
      50 <= |seo.metaTitle.GetOr("")| <= 60,
      150 <= |seo.metaDescription.GetOr("")| <= 160,
      |seo.keywords.GetOr([])| > 0,
      |seo.headers.GetOr([])| > 0)
  }

  // ---------------------------------------------------------------------
  // Recommendations

  const AddDetail: string := "Add more detailed explanations and examples"
  const SplitPost: string := "Consider breaking into multiple posts or sections"
  const CalmTone: string := "Reduce exclamation marks for more professional tone"
  const UseSynonyms: string := "Use synonyms to vary vocabulary"
  const ShortenSentences: string := "Break long sentences into shorter, clearer ones"

  /** The source's case-sensitive substring tests on one issue message,
      first match wins. */
  function AdviceAsWritten(message: string): Option<string> {
    if Contains(message, "too short") then Some(AddDetail)
    else if Contains(message, "too long") then Some(SplitPost)
    else if Contains(message, "exclamation marks") then Some(CalmTone)
    else if Contains(message, "repetitive") then Some(UseSynonyms)
    else if Contains(message, "sentence length") then Some(ShortenSentences)
    else None
  }

  /** `_generate_recommendations` as written: at most one piece of advice
      per issue, none for an issue no test matches; when every message is
      matched, the advice is the matched one at each position. */
  function RecommendationsAsWritten(messages: seq<string>): (r: seq<string>)
    ensures |r| <= |messages|
    ensures forall k :: 0 <= k < |r| ==>
      exists j :: 0 <= j < |messages| && AdviceAsWritten(messages[j]) == Some(r[k])
    ensures (forall j :: 0 <= j < |messages| ==> AdviceAsWritten(messages[j]).Some?) ==>
      |r| == |messages| && forall k :: 0 <= k < |r| ==> Some(r[k]) == AdviceAsWritten(messages[k])
    ensures (forall j :: 0 <= j < |messages| ==> AdviceAsWritten(messages[j]).None?) ==> r == []
  {
    Collect(AdviceAsWritten, messages)
  }

  /** The advice for a list of messages is the advice for each part, in
      order. */
  lemma RecommendationsAsWrittenAppend(a: seq<string>, b: seq<string>)
    ensures RecommendationsAsWritten(a + b) == RecommendationsAsWritten(a) + RecommendationsAsWritten(b)
  {
    CollectAppend(AdviceAsWritten, a, b);
  }

  /** One message gets its first-match advice, or nothing. */
  lemma RecommendationsAsWrittenOne(m: string)
    ensures RecommendationsAsWritten([m]) ==
      (if AdviceAsWritten(m).Some? then [AdviceAsWritten(m).value] else [])
  {
    CollectCons(AdviceAsWritten, [m]);
    assert [m][1..] == [];
  }

  /** A too-short text gets the advice to add detail. */
  lemma TooShortAdvice()
    ensures AdviceAsWritten(TooShort.Message()) == Some(AddDetail)
  {
    ContainsMiddle("Content may be ", "too short", " for meaningful value");
  }

  /** A too-long text gets the advice to split it. */
  lemma TooLongAdvice()
    ensures AdviceAsWritten(TooLong.Message()) == Some(SplitPost)
  {
    ContainsMiddle("Content may be ", "too long", " for optimal engagement");
    TooLongNotShort();
  }

  /** The too-long message has no 'h', so it does not say "too short". */
  lemma TooLongNotShort()
    ensures !Contains(TooLong.Message(), "too short")
  {
    MissingChar(TooLong.Message(), "too short", 5);
  }

  /** The exclamation message mentions neither length. */
  lemma ExclamationNotShort()
    ensures !Contains(ExcessiveExclamation.Message(), "too short")
  {
    var bang := ExcessiveExclamation.Message();
    if i :| 0 <= i <= |bang| - 9 && MatchAt(bang, "too short", i) {
      MatchCharAt(bang, "too short", i, 5);
      assert false;
    }
  }

  lemma ExclamationNotLong()
    ensures !Contains(ExcessiveExclamation.Message(), "too long")
  {
    var bang := ExcessiveExclamation.Message();
    if i :| 0 <= i <= |bang| - 8 && MatchAt(bang, "too long", i) {
      MatchCharAt(bang, "too long", i, 7);
      assert false;
    }
  }

  /** Too many exclamation marks get the advice to calm the tone. */
  lemma ExclamationAdvice()
    ensures AdviceAsWritten(ExcessiveExclamation.Message()) == Some(CalmTone)
  {
    ContainsMiddle("Excessive ", "exclamation marks", " detected");
    ExclamationNotShort();
    ExclamationNotLong();
  }

  /** The sentence-length issue also contains "too long", which is tested
      first, so it gets the advice meant for over-long posts. */
  lemma SentenceIssueGetsPostAdvice()
    ensures AdviceAsWritten(LongSentences.Message()) == Some(SplitPost)
    ensures AdviceAsWritten(LongSentences.Message()) != Some(ShortenSentences)
  {
    var s := LongSentences.Message();
    ContainsMiddle("Average " + "sentence length" + " is ", "too long", []);
    assert "Average " + "sentence length" + " is " + "too long" + [] == s;
    if i :| 0 <= i <= |s| - 9 && MatchAt(s, "too short", i) {
      MatchCharAt(s, "too short", i, 5);
      MatchCharAt(s, "too short", i, 0);
      assert false;
    }
  }

  /** The test for "repetitive" is case-sensitive while the message starts
      with "Repetitive", so a repetitive word such as "content" gets no
      advice at all. */
  lemma RepetitiveIssueGetsNoAdvice()
    ensures AdviceAsWritten(Repetitive(["content"]).Message()) == None
  {
    var s := Repetitive(["content"]).Message();
    assert s == "Repetitive words detected: " + "content";
    RepetitiveMissesLength(s);
    RepetitiveMissesOthers(s);
    RepetitiveLowerMissing(s);
  }

  lemma RepetitiveMissesLength(s: string)
    requires s == "Repetitive words detected: " + "content"
    ensures !Contains(s, "too short") && !Contains(s, "too long")
  {
    MissingChar(s, "too short", 5);
    MissingChar(s, "too long", 7);
  }

  lemma RepetitiveMissesOthers(s: string)
    requires s == "Repetitive words detected: " + "content"
    ensures !Contains(s, "exclamation marks") && !Contains(s, "sentence length")
  {
    MissingChar(s, "exclamation marks", 1);
    MissingChar(s, "sentence length", 9);
  }

  lemma RepetitiveLowerMissing(s: string)
    requires s == "Repetitive words detected: " + "content"
    ensures !Contains(s, "repetitive")
  {
    var head := "Repetitive";
    var tail := "words detected: content";
    assert s == head + [' '] + tail;
    ContainsBarrier(head, ' ', tail, "repetitive");
    CapitalMisses();
    TailMisses();
  }

  /** The rest of the message has no 'p'. */
  lemma TailMisses()
    ensures !Contains("words detected: content", "repetitive")
  {
    MissingChar("words detected: content", "repetitive", 2);
  }

  /** The capital 'R' defeats the case-sensitive test. */
  lemma CapitalMisses()
    ensures !Contains("Repetitive", "repetitive")
  {
    if MatchAt("Repetitive", "repetitive", 0) {
      MatchCharAt("Repetitive", "repetitive", 0, 0);
    }
  }

  /** The advice each kind of issue is evidently meant to get. */
  function Advice(issue: QaIssue): string {
    match issue
    case TooShort => AddDetail
    case TooLong => SplitPost
    case ExcessiveExclamation => CalmTone
    case Repetitive(_) => UseSynonyms
    case LongSentences => ShortenSentences
  }

  /** One piece of advice per issue, in issue order. */
  function Recommendations(issues: seq<QaIssue>): (r: seq<string>)
    ensures |r| == |issues|
    ensures forall k :: 0 <= k < |issues| ==> r[k] == Advice(issues[k])
  {
    seq(|issues|, k requires 0 <= k < |issues| => Advice(issues[k]))
  }

  /** Where the source's substring tests work they agree with the intended
      advice; the intended advice tells the five kinds of issue apart. */
  lemma RecommendationsAgree(issue: QaIssue)
    ensures issue.TooShort? || issue.TooLong? || issue.ExcessiveExclamation? ==>
      AdviceAsWritten(issue.Message()) == Some(Advice(issue))
    ensures forall other: QaIssue :: Advice(other) == Advice(issue) ==>
      (other.Repetitive? && issue.Repetitive?) || other == issue
  {
    TooShortAdvice();
    TooLongAdvice();
    ExclamationAdvice();
  }

  /** The messages after the first are the messages of the later issues. */
  lemma MessagesTail(issues: seq<QaIssue>)
    requires issues != []
    ensures Messages(issues)[0] == issues[0].Message()
    ensures Messages(issues)[1..] == Messages(issues[1..])
  {
  }

  /** The intended advice of a list is the first issue's advice, then the
      advice of the rest. */
  lemma RecommendationsTail(issues: seq<QaIssue>)
    requires issues != []
    ensures Recommendations(issues) == [Advice(issues[0])] + Recommendations(issues[1..])
  {
    var r := Recommendations(issues);
    assert r[1..] == Recommendations(issues[1..]);
    assert r == [r[0]] + r[1..];
  }

  /** The advice items of an issue whose substring test works. */
  lemma AdviceItemsAgree(issue: QaIssue)
    requires !issue.Repetitive? && !issue.LongSentences?
    ensures AdviceAsWritten(issue.Message()).Items() == [Advice(issue)]
  {
    match issue
    case TooShort => TooShortAdvice();
    case TooLong => TooLongAdvice();
    case ExcessiveExclamation => ExclamationAdvice();
  }

  /** On issue lists without a repetition or sentence-length issue the
      source's advice is the intended advice, item by item. */
  lemma {:induction false} RecommendationsAsWrittenAgree(issues: seq<QaIssue>)
    requires forall i :: 0 <= i < |issues| ==> !issues[i].Repetitive? && !issues[i].LongSentences?
    ensures RecommendationsAsWritten(Messages(issues)) == Recommendations(issues)
    decreases |issues|
  {
    if issues != [] {
      var m := Messages(issues);
      MessagesTail(issues);
      CollectCons(AdviceAsWritten, m);
      AdviceItemsAgree(issues[0]);
      RecommendationsAsWrittenAgree(issues[1..]);
      assert RecommendationsAsWritten(m) == [Advice(issues[0])] + Recommendations(issues[1..]);
      RecommendationsTail(issues);
    }
  }

  // ---------------------------------------------------------------------
  // Report

  datatype QaReport = QaReport(
    overallHalfPoints: int,
    contentIssues: seq<string>,
    platformCompliance: seq<(string, bool)>,
    seoCompliance: SeoCompliance,
    recommendations: seq<string>,
    approved: bool)

  /** `generate_qa_report`: the assessment's score and messages, the two
      compliance checks, the source's first-match recommendations for
      those messages, and approval, which needs a score of at least 7 and
      at most two issues. */
  function GenerateQaReport(content: string, versions: seq<(string, Version)>, seo: SeoData): (r: QaReport)
    requires Distinct(Keys(versions))
    ensures r.overallHalfPoints == AssessContentQuality(content).halfPoints
    ensures r.contentIssues == Messages(AssessContentQuality(content).issues)
    ensures r.platformCompliance == CheckPlatformCompliance(versions)
    ensures r.seoCompliance == CheckSeoCompliance(seo)
    ensures r.recommendations == RecommendationsAsWritten(r.contentIssues)
    ensures r.approved <==> r.overallHalfPoints >= 14 && |r.contentIssues| <= 2
  {
    var a := AssessContentQuality(content);
    QaReport(
      a.halfPoints,
      Messages(a.issues),
      CheckPlatformCompliance(versions),
      CheckSeoCompliance(seo),
      RecommendationsAsWritten(Messages(a.issues)),
      a.halfPoints >= 14 && |a.issues| <= 2)
  }

  /** The report as evidently intended: the same in every field except the
      recommendations, which give one intended piece of advice per issue. */
  function GenerateQaReportIntended(content: string, versions: seq<(string, Version)>, seo: SeoData): (r: QaReport)
    requires Distinct(Keys(versions))
    ensures r.(recommendations := []) == GenerateQaReport(content, versions, seo).(recommendations := [])
    ensures |r.recommendations| == |r.contentIssues|
    ensures forall k :: 0 <= k < |r.recommendations| ==>
      r.recommendations[k] == Advice(AssessContentQuality(content).issues[k])
  {
    var a := AssessContentQuality(content);
    GenerateQaReport(content, versions, seo).(recommendations := Recommendations(a.issues))
  }

  /** The two reports differ only when the content has a repetition or a
      sentence-length issue. */
  lemma ReportsAgree(content: string, versions: seq<(string, Version)>, seo: SeoData)
    requires Distinct(Keys(versions))
    requires forall i :: 0 <= i < |AssessContentQuality(content).issues| ==>
      !AssessContentQuality(content).issues[i].Repetitive? && !AssessContentQuality(content).issues[i].LongSentences?
    ensures GenerateQaReport(content, versions, seo) == GenerateQaReportIntended(content, versions, seo)
  {
    var a := AssessContentQuality(content);
    RecommendationsAsWrittenAgree(a.issues);
    var r := GenerateQaReport(content, versions, seo);
    assert r.recommendations == Recommendations(a.issues);
    assert r.(recommendations := Recommendations(a.issues)) == r;
  }

  /** Since the score never drops below 7.5, approval depends on the
      number of issues alone. */
  lemma ApprovalByIssueCount(content: string, versions: seq<(string, Version)>, seo: SeoData)
    requires Distinct(Keys(versions))
    ensures GenerateQaReport(content, versions, seo).approved
        <==> |AssessContentQuality(content).issues| <= 2
  {
  }

  /** A text of at most 33 tokens that contains a word longer than four
      characters is reported both as too short and as repetitive, so it
      scores at most 8.5. */
  lemma ShortTextHasTwoIssues(content: string, w: string)
    requires |Tokens(content)| <= 33 && w in Tokens(content) && |w| > 4
    ensures TooShort in AssessContentQuality(content).issues
    ensures Repetitive(FirstThree(RepetitiveWords(content))) in AssessContentQuality(content).issues
    ensures AssessContentQuality(content).halfPoints <= 17
  {
    WordsLowerLength(content);
    ShortTextsAreRepetitive(content, w);
    AssessRaises(WordCount(content), Count(content, "!"), RepetitiveWords(content), SentencesTooLong(content));
  }
}

=== FILE: seo_agent.dfy ===
/** The deterministic helpers of the SEO agent (agents/seo_agent.py):
    keyword suggestions, meta title and description templates, keyword
    density and header suggestions. */
module SeoAgent {
  import opened Optional
  import opened Text
  import opened Assoc

  /** An exact percentage `num / den`; the source rounds the float to two
      decimals, which this model does not do. */
  datatype Ratio = Ratio(num: nat, den: nat)

  /** One entry of the keyword-density dictionary. */
  datatype KeywordStat = KeywordStat(count: nat, density: Ratio)

  /** The `seo_data` dictionary handed to the QA agent and the report
      formatter; a field is `None` when the key is absent. */
  datatype SeoData = SeoData(
    keywords: Option<seq<string>>,
    metaTitle: Option<string>,
    metaDescription: Option<string>,
    keywordDensity: Option<seq<(string, KeywordStat)>>,
    headers: Option<seq<string>>)

  /** `len(content.split())`. */
  function WordCount(s: string): nat {
    |Words(s)|
  }

  // ---------------------------------------------------------------------
  // Keywords, meta title, meta description

  /** Six suggestions in a fixed order, the first the topic itself and
      every one of them containing it. */
  function GenerateKeywords(topic: string): (r: seq<string>)
    ensures |r| == 6 && r[0] == topic
    ensures forall k :: 0 <= k < |r| ==> Contains(r[k], topic)
  {
    ContainsMiddle([], topic, []);
    ContainsMiddle([], topic, " guide");
    ContainsMiddle("how to ", topic, []);
    ContainsMiddle([], topic, " tips");
    ContainsMiddle("best ", topic, []);
    ContainsMiddle([], topic, " 2024");
    assert [] + topic + [] == topic;
    assert [] + topic + " guide" == topic + " guide";
    assert "how to " + topic + [] == "how to " + topic;
    assert [] + topic + " tips" == topic + " tips";
    assert "best " + topic + [] == "best " + topic;
    assert [] + topic + " 2024" == topic + " 2024";
    [topic, topic + " guide", "how to " + topic, topic + " tips", "best " + topic, topic + " 2024"]
  }

  const TitleSuffix: string := ": Complete Guide & Best Practices"

  /** `keywords[0] if keywords else topic`. */
  function PrimaryKeyword(topic: string, keywords: seq<string>): string {
    if |keywords| > 0 then keywords[0] else topic
  }

  /** The primary keyword in title case followed by the fixed 33-character
      suffix. */
  function CreateMetaTitle(topic: string, keywords: seq<string>): (r: string)
    ensures |r| == |PrimaryKeyword(topic, keywords)| + 33
    ensures r[..|PrimaryKeyword(topic, keywords)|] == Title(PrimaryKeyword(topic, keywords))
    ensures r[|PrimaryKeyword(topic, keywords)|..] == TitleSuffix
  {
    Title(PrimaryKeyword(topic, keywords)) + TitleSuffix
  }

  /** The title falls in the 50-60 character band checked by the QA agent
      exactly when the primary keyword has 17 to 27 characters. */
  lemma MetaTitleBand(topic: string, keywords: seq<string>)
    ensures 50 <= |CreateMetaTitle(topic, keywords)| <= 60
        <==> 17 <= |PrimaryKeyword(topic, keywords)| <= 27
  {
  }

  const DescriptionLead: string := "... Learn more about "
  const DescriptionTail: string := " with expert insights and practical tips."

  /** At most the first 120 characters of the preview, then the fixed
      call to action naming the topic. */
  function CreateMetaDescription(topic: string, preview: string): (r: string)
    ensures |r| == Min(120, |preview|) + |topic| + 62
    ensures r[..Min(120, |preview|)] == preview[..Min(120, |preview|)]
    ensures r[Min(120, |preview|)..] == DescriptionLead + topic + DescriptionTail
  {
    var p := if |preview| > 120 then preview[..120] else preview;
    var tail := DescriptionLead + topic + DescriptionTail;
    assert |DescriptionLead| == 21 && |DescriptionTail| == 41;
    var r := p + tail;
    assert r[..|p|] == p && r[|p|..] == tail;
    r
  }

  // ---------------------------------------------------------------------
  // Keyword density

  /** Case-insensitive, non-overlapping substring count: the keyword is not
      matched as a whole word. */
  function KeywordCount(content: string, keyword: string): nat {
    Count(Lower(content), Lower(keyword))
  }

  /** `count / word_count * 100`, or 0 for text without tokens. */
  function Density(count: nat, wordCount: nat): (r: Ratio)
    ensures r.den > 0
    ensures wordCount > 0 ==> r.num * wordCount == 100 * count * r.den
    ensures wordCount == 0 ==> r.num == 0
  {
    if wordCount > 0 then
      assert (100 * count) * wordCount == 100 * count * wordCount;
      Ratio(100 * count, wordCount)
    else Ratio(0, 1)
  }

  function KeywordStatOf(content: string, keyword: string): KeywordStat {
    var c := KeywordCount(content, keyword);
    KeywordStat(c, Density(c, WordCount(content)))
  }

  /** The keyword-density dictionary: one entry per distinct keyword, each
      holding that keyword's statistics (`DensityKeysOrder` gives the order). */
  function AnalyzeKeywordDensity(content: string, keywords: seq<string>): (r: seq<(string, KeywordStat)>)
    ensures Distinct(Keys(r))
    ensures forall k :: k in Keys(r) <==> k in keywords
    ensures forall k :: k in keywords ==> Get(r, k) == Some(KeywordStatOf(content, k))
    decreases |keywords|
  {
    if keywords == [] then []
    else
      var init := keywords[..|keywords| - 1];
      var k := keywords[|keywords| - 1];
      assert forall x :: x in keywords <==> x in init || x == k;
      var prev := AnalyzeKeywordDensity(content, init);
      var r := Put(prev, k, KeywordStatOf(content, k));
      assert forall x :: x in Keys(r) <==> x in Keys(prev) || x == k;
      r
  }

  /** The dictionary's keys come in the order in which the keywords first
      occur, as a Python dict keeps its insertion order. */
  lemma {:induction false} DensityKeysOrder(content: string, keywords: seq<string>)
    ensures FirstOccurrenceOrder(Keys(AnalyzeKeywordDensity(content, keywords)), keywords)
    decreases |keywords|
  {
    if keywords != [] {
      var init := keywords[..|keywords| - 1];
      var k := keywords[|keywords| - 1];
      assert keywords == init + [k];
      var prev := AnalyzeKeywordDensity(content, init);
      DensityKeysOrder(content, init);
      FirstOccurrenceSnoc(Keys(prev), init, k);
      assert Keys(AnalyzeKeywordDensity(content, keywords))
          == if k in Keys(prev) then Keys(prev) else Keys(prev) + [k];
    }
  }

  /** The count ignores case on both sides, and it is positive exactly when
      the lower-cased keyword occurs anywhere in the lower-cased text. */
  lemma KeywordCountCaseInsensitive(content: string, keyword: string)
    ensures KeywordCount(content, keyword) == KeywordCount(Lower(content), Lower(keyword))
    ensures |keyword| > 0 ==>
      (KeywordCount(content, keyword) > 0 <==> Contains(Lower(content), Lower(keyword)))
  {
    LowerIdempotent(content);
    LowerIdempotent(keyword);
    if |keyword| > 0 {
      CountPositive(Lower(content), Lower(keyword));
    }
  }

  /** Matching is by substring: "art" is counted inside "Artificial". */
  lemma KeywordMatchesInsideWords()
    ensures KeywordCount("Artificial intelligence", "art") > 0
  {
    var low := Lower("Artificial intelligence");
    assert low[0..3] == "art";
    assert MatchAt(low, Lower("art"), 0);
    CountPositive(low, Lower("art"));
  }

  // ---------------------------------------------------------------------
  // Header suggestions

  const HeaderPlan: seq<string> :=
    ["H1: Main title", "H2: Introduction", "H2: Main Topic 1", "H3: Subtopic 1.1", "H3: Subtopic 1.2"]

  /** `len(content.split('\n\n'))`, never 0. */
  function ParagraphCount(content: string): (n: nat)
    ensures n >= 1
  {
    |Split(content, "\n\n")|
  }

  /** The suggestions for a paragraph count: always a prefix of the fixed
      plan, with 0, 1, 2 or 5 entries at the thresholds >1, >3 and >5. */
  function HeadersFor(paragraphs: nat): (r: seq<string>)
    ensures |r| <= 5 && r == HeaderPlan[..|r|]
    ensures |r| == (if paragraphs > 5 then 5 else if paragraphs > 3 then 2
                    else if paragraphs > 1 then 1 else 0)
  {
    (if paragraphs > 1 then ["H1: Main title"] else [])
    + (if paragraphs > 3 then ["H2: Introduction"] else [])
    + (if paragraphs > 5 then ["H2: Main Topic 1", "H3: Subtopic 1.1", "H3: Subtopic 1.2"] else [])
  }

  function SuggestHeaders(content: string): seq<string> {
    HeadersFor(ParagraphCount(content))
  }

  /** More paragraphs never yield fewer suggestions: the shorter list is a
      prefix of the longer one. */
  lemma HeadersMonotone(a: string, b: string)
    requires ParagraphCount(a) <= ParagraphCount(b)
    ensures |SuggestHeaders(a)| <= |SuggestHeaders(b)|
    ensures SuggestHeaders(a) == SuggestHeaders(b)[..|SuggestHeaders(a)|]
  {
  }

  /** Headers are suggested exactly when the text contains a blank line
      ("\n\n"), since the paragraph count is one more than the number of
      blank-line separators. */
  lemma HeadersIffBlankLine(content: string)
    ensures ParagraphCount(content) == Count(content, "\n\n") + 1
    ensures SuggestHeaders(content) != [] <==> Contains(content, "\n\n")
  {
    SplitCount(content, "\n\n");
    CountPositive(content, "\n\n");
  }
}

=== FILE: text.dfy ===
/** The Python `str` operations the pipeline's heuristics are built from:
    whitespace splitting, splitting on a separator, non-overlapping counting,
    substring tests, stripping, joining and ASCII case mapping. */
module Text {

  /** The characters Python's `str.isspace()` accepts, which are the ones
      `str.split()` and `str.strip()` treat as whitespace. */
  predicate IsSpace(c: char) {
    var n := c as int;
    n == 32 || 9 <= n <= 13 || 28 <= n <= 31 || n == 0x85 || n == 0xA0
    || n == 0x1680 || 0x2000 <= n <= 0x200A || n == 0x2028 || n == 0x2029
    || n == 0x202F || n == 0x205F || n == 0x3000
  }

  predicate IsUpper(c: char) { 'A' <= c <= 'Z' }

  predicate IsLowerCase(c: char) { 'a' <= c <= 'z' }

  predicate IsLetter(c: char) { IsUpper(c) || IsLowerCase(c) }

  predicate IsDigit(c: char) { '0' <= c <= '9' }

  predicate IsAlnum(c: char) { IsLetter(c) || IsDigit(c) }

  function LowerChar(c: char): char {
    if IsUpper(c) then (c as int + 32) as char else c
  }

  function UpperChar(c: char): char {
    if IsLowerCase(c) then (c as int - 32) as char else c
  }

  /** `str.lower()` on the ASCII letters. */
  function Lower(s: string): (r: string)
    ensures |r| == |s|
    ensures forall i :: 0 <= i < |s| ==> r[i] == LowerChar(s[i])
  {
    seq(|s|, i requires 0 <= i < |s| => LowerChar(s[i]))
  }

  /** `str.title()` on the ASCII letters: a letter is upper-cased when the
      character before it is not a letter and lower-cased otherwise. */
  function Title(s: string): (r: string)
    ensures |r| == |s|
  {
    seq(|s|, i requires 0 <= i < |s| =>
      if i > 0 && IsLetter(s[i - 1]) then LowerChar(s[i]) else UpperChar(s[i]))
  }

  lemma LowerConcat(a: string, b: string)
    ensures Lower(a + b) == Lower(a) + Lower(b)
  {
  }

  /** Text without capitals lower-cases to itself. */
  lemma PlainLower(s: string)
    requires forall k :: 0 <= k < |s| ==> !IsUpper(s[k])
    ensures Lower(s) == s
  {
  }

  lemma LowerIdempotent(s: string)
    ensures Lower(Lower(s)) == Lower(s)
  {
  }

  // ---------------------------------------------------------------------
  // Substrings

  /** `sub` occurs in `s` starting at index `i`. */
  predicate MatchAt(s: string, sub: string, i: int) {
    0 <= i && i + |sub| <= |s| && s[i..i + |sub|] == sub
  }

  /** Python's `sub in s`. */
  predicate Contains(s: string, sub: string) {
    exists i | 0 <= i <= |s| - |sub| :: MatchAt(s, sub, i)
  }

  lemma MatchChars(s: string, sub: string, i: int)
    requires MatchAt(s, sub, i)
    ensures forall j :: 0 <= j < |sub| ==> s[i + j] == sub[j]
  {
    forall j | 0 <= j < |sub|
      ensures s[i + j] == sub[j]
    {
      assert s[i..i + |sub|][j] == sub[j];
    }
  }

  lemma MatchCharAt(s: string, sub: string, i: int, j: int)
    requires MatchAt(s, sub, i) && 0 <= j < |sub|
    ensures s[i + j] == sub[j]
  {
    assert s[i..i + |sub|][j] == sub[j];
  }

  /** A text lacking one of the characters of `sub` does not contain it. */
  lemma MissingChar(s: string, sub: string, j: int)
    requires 0 <= j < |sub| && sub[j] !in s
    ensures !Contains(s, sub)
  {
    if i :| 0 <= i <= |s| - |sub| && MatchAt(s, sub, i) {
      MatchCharAt(s, sub, i, j);
      assert false;
    }
  }

  lemma ContainsMiddle(a: string, sub: string, b: string)
    ensures Contains(a + sub + b, sub)
  {
    assert (a + sub + b)[|a|..|a| + |sub|] == sub;
    assert MatchAt(a + sub + b, sub, |a|);
  }

  lemma ContainsSelf(w: string)
    ensures Contains(w, w)
  {
    assert w[0..|w|] == w;
    assert MatchAt(w, w, 0);
  }

  /** A substring survives text added on either side. */
  lemma ContainsExtend(a: string, b: string, w: string)
    requires Contains(a, w)
    ensures Contains(a + b, w) && Contains(b + a, w)
  {
    var i :| 0 <= i <= |a| - |w| && MatchAt(a, w, i);
    assert (a + b)[i..i + |w|] == a[i..i + |w|];
    assert MatchAt(a + b, w, i);
    assert (b + a)[|b| + i..|b| + i + |w|] == a[i..i + |w|];
    assert MatchAt(b + a, w, |b| + i);
  }

  /** A character that `w` does not contain splits any text into two halves
      that must each be searched separately: no occurrence of `w` can
      straddle it. */
  lemma ContainsBarrier(a: string, c: char, b: string, w: string)
    requires c !in w
    ensures Contains(a + [c] + b, w) <==> Contains(a, w) || Contains(b, w)
  {
    var s := a + [c] + b;
    if Contains(s, w) {
      var i :| 0 <= i <= |s| - |w| && MatchAt(s, w, i);
      if i + |w| <= |a| {
        assert s[i..i + |w|] == a[i..i + |w|];
        assert MatchAt(a, w, i);
      } else if i > |a| {
        assert s[|a| + 1..] == b;
        assert s[i..i + |w|] == s[|a| + 1..][i - |a| - 1..i - |a| - 1 + |w|];
        assert s[i..i + |w|] == b[i - |a| - 1..i - |a| - 1 + |w|];
        assert MatchAt(b, w, i - |a| - 1);
      } else {
        MatchCharAt(s, w, i, |a| - i);
        assert false;
      }
    }
    if Contains(a, w) {
      ContainsExtend(a, [c] + b, w);
      assert a + ([c] + b) == s;
    }
    if Contains(b, w) {
      ContainsExtend(b, a + [c], w);
      assert (a + [c]) + b == s;
    }
  }

  // ---------------------------------------------------------------------
  // Counting and splitting on a separator

  /** Python's `s.count(sub)`: non-overlapping occurrences scanned from the
      left; the empty string occurs `len(s) + 1` times. */
  function Count(s: string, sub: string): nat
    decreases |s|
  {
    if |sub| == 0 then |s| + 1
    else if |s| < |sub| then 0
    else if s[..|sub|] == sub then 1 + Count(s[|sub|..], sub)
    else Count(s[1..], sub)
  }

  /** Counting finds something exactly when the substring occurs. */
  lemma {:induction false} CountPositive(s: string, sub: string)
    requires |sub| > 0
    ensures Count(s, sub) > 0 <==> Contains(s, sub)
    decreases |s|
  {
    if |s| < |sub| {
    } else if s[..|sub|] == sub {
      assert MatchAt(s, sub, 0);
    } else {
      CountPositive(s[1..], sub);
      if Contains(s[1..], sub) {
        var i :| 0 <= i <= |s[1..]| - |sub| && MatchAt(s[1..], sub, i);
        assert s[i + 1..i + 1 + |sub|] == s[1..][i..i + |sub|];
        assert MatchAt(s, sub, i + 1);
      }
      if Contains(s, sub) {
        var i :| 0 <= i <= |s| - |sub| && MatchAt(s, sub, i);
        assert i != 0;
        assert s[1..][i - 1..i - 1 + |sub|] == s[i..i + |sub|];
        assert MatchAt(s[1..], sub, i - 1);
      }
    }
  }

  /** Python's `s.split(sep)` for a non-empty separator: cut at every
      non-overlapping occurrence found from the left, keeping empty pieces,
      so there is always at least one piece. */
  function Split(s: string, sep: string): (r: seq<string>)
    requires |sep| > 0
    ensures |r| >= 1
    decreases |s|
  {
    if |s| < |sep| then [s]
    else if s[..|sep|] == sep then [[]] + Split(s[|sep|..], sep)
    else
      var rest := Split(s[1..], sep);
      [[s[0]] + rest[0]] + rest[1..]
  }

  /** Python's `sep.join(parts)`. */
  function Join(parts: seq<string>, sep: string): string
    decreases |parts|
  {
    if |parts| == 0 then []
    else if |parts| == 1 then parts[0]
    else parts[0] + sep + Join(parts[1..], sep)
  }

  /** Splitting yields one piece more than there are separators. */
  lemma {:induction false} SplitCount(s: string, sep: string)
    requires |sep| > 0
    ensures |Split(s, sep)| == Count(s, sep) + 1
    decreases |s|
  {
    if |s| < |sep| {
    } else if s[..|sep|] == sep {
      SplitCount(s[|sep|..], sep);
    } else {
      SplitCount(s[1..], sep);
    }
  }

  lemma JoinConsChar(c: char, x: string, t: seq<string>, sep: string)
    ensures Join([[c] + x] + t, sep) == [c] + Join([x] + t, sep)
  {
    if |t| > 0 {
      assert ([[c] + x] + t)[1..] == t;
      assert ([x] + t)[1..] == t;
    }
  }

  /** Joining the pieces with the separator gives back the original text. */
  lemma {:induction false} SplitJoin(s: string, sep: string)
    requires |sep| > 0
    ensures Join(Split(s, sep), sep) == s
    decreases |s|
  {
    if |s| < |sep| {
    } else if s[..|sep|] == sep {
      var rest := Split(s[|sep|..], sep);
      SplitJoin(s[|sep|..], sep);
      assert ([[]] + rest)[1..] == rest;
      assert s == s[..|sep|] + s[|sep|..];
    } else {
      var rest := Split(s[1..], sep);
      SplitJoin(s[1..], sep);
      JoinConsChar(s[0], rest[0], rest[1..], sep);
      assert [rest[0]] + rest[1..] == rest;
      assert s == [s[0]] + s[1..];
    }
  }

  // ---------------------------------------------------------------------
  // Whitespace splitting and stripping

  /** The length of the run of non-whitespace characters that starts `s`. */
  function RunLength(s: string): (n: nat)
    ensures n <= |s|
    ensures forall i :: 0 <= i < n ==> !IsSpace(s[i])
    ensures n < |s| ==> IsSpace(s[n])
    decreases |s|
  {
    if s == [] || IsSpace(s[0]) then 0 else 1 + RunLength(s[1..])
  }

  /** Python's `s.split()` with no argument: the maximal runs of
      non-whitespace characters, so never an empty token. */
  function Words(s: string): (r: seq<string>)
    ensures forall k :: 0 <= k < |r| ==> |r[k]| > 0
    ensures forall k, i :: 0 <= k < |r| && 0 <= i < |r[k]| ==> !IsSpace(r[k][i])
    decreases |s|
  {
    if s == [] then []
    else if IsSpace(s[0]) then Words(s[1..])
    else
      var n := RunLength(s);
      [s[..n]] + Words(s[n..])
  }

  /** A run of non-whitespace stops at the first whitespace character, so
      what follows that character does not matter. */
  lemma {:induction false} RunLengthBeforeSpace(a: string, c: char, b: string)
    requires IsSpace(c)
    ensures RunLength(a + [c] + b) == RunLength(a)
    decreases |a|
  {
    if a == [] {
      assert (a + [c] + b)[0] == c;
    } else if !IsSpace(a[0]) {
      assert (a + [c] + b)[0] == a[0];
      assert (a + [c] + b)[1..] == a[1..] + [c] + b;
      RunLengthBeforeSpace(a[1..], c, b);
    } else {
      assert (a + [c] + b)[0] == a[0];
    }
  }

  /** `split()` on text with a whitespace character in it: the tokens before
      it, then the tokens after it. */
  lemma {:induction false} WordsAtSpace(a: string, c: char, b: string)
    requires IsSpace(c)
    ensures Words(a + [c] + b) == Words(a) + Words(b)
    decreases |a|
  {
    var s := a + [c] + b;
    if a == [] {
      assert s[0] == c && s[1..] == b;
    } else if IsSpace(a[0]) {
      assert s[0] == a[0] && s[1..] == a[1..] + [c] + b;
      WordsAtSpace(a[1..], c, b);
    } else {
      assert s[0] == a[0];
      var n := RunLength(a);
      RunLengthBeforeSpace(a, c, b);
      assert n >= 1;
      assert s[..n] == a[..n];
      assert s[n..] == a[n..] + [c] + b;
      WordsAtSpace(a[n..], c, b);
      assert Words(s) == [a[..n]] + (Words(a[n..]) + Words(b));
    }
  }

  /** A non-empty piece without whitespace is a single token. */
  lemma WordsOfToken(w: string)
    requires w != [] && forall i :: 0 <= i < |w| ==> !IsSpace(w[i])
    ensures Words(w) == [w]
  {
    assert RunLength(w) == |w|;
    assert w[..|w|] == w && w[|w|..] == [];
  }

  predicate AllSpace(s: string) {
    forall i :: 0 <= i < |s| ==> IsSpace(s[i])
  }

  /** Text has no tokens exactly when it is all whitespace. */
  lemma {:induction false} WordsEmptyIff(s: string)
    ensures Words(s) == [] <==> AllSpace(s)
    decreases |s|
  {
    if s == [] {
    } else if IsSpace(s[0]) {
      WordsEmptyIff(s[1..]);
      if AllSpace(s[1..]) {
        forall i | 0 <= i < |s|
          ensures IsSpace(s[i])
        {
          if i > 0 { assert s[i] == s[1..][i - 1]; }
        }
      }
    } else {
    }
  }

  lemma {:induction false} RunLengthLower(s: string)
    ensures RunLength(Lower(s)) == RunLength(s)
    decreases |s|
  {
    if s != [] {
      assert Lower(s)[1..] == Lower(s[1..]);
      RunLengthLower(s[1..]);
    }
  }

  /** Lower-casing never changes the number of whitespace tokens. */
  lemma {:induction false} WordsLowerLength(s: string)
    ensures |Words(Lower(s))| == |Words(s)|
    decreases |s|
  {
    if s == [] {
    } else if IsSpace(s[0]) {
      assert Lower(s)[1..] == Lower(s[1..]);
      WordsLowerLength(s[1..]);
    } else {
      var n := RunLength(s);
      RunLengthLower(s);
      assert Lower(s)[n..] == Lower(s[n..]);
      WordsLowerLength(s[n..]);
    }
  }

  /** Python's `s.lstrip()`. */
  function LStrip(s: string): (r: string)
    ensures |r| <= |s| && r == s[|s| - |r|..]
    ensures AllSpace(s[..|s| - |r|])
    ensures r == [] || !IsSpace(r[0])
    decreases |s|
  {
    if s != [] && IsSpace(s[0]) then LStrip(s[1..]) else s
  }

  /** Python's `s.rstrip()`. */
  function RStrip(s: string): (r: string)
    ensures |r| <= |s| && r == s[..|r|]
    ensures AllSpace(s[|r|..])
    ensures r == [] || !IsSpace(r[|r| - 1])
    decreases |s|
  {
    if s != [] && IsSpace(s[|s| - 1]) then
      var r := RStrip(s[..|s| - 1]);
      forall k | |r| <= k < |s|
        ensures IsSpace(s[k])
      {
        if k < |s| - 1 {
          assert s[k] == s[..|s| - 1][|r|..][k - |r|];
        }
      }
      assert s[..|s| - 1][..|r|] == s[..|r|];
      r
    else s
  }

  /** Python's `s.strip()`. */
  function Strip(s: string): string {
    RStrip(LStrip(s))
  }

  /** The characters of a slice are characters of the whole. */
  lemma SliceChars(a: string, b: string, off: nat)
    requires off + |a| <= |b| && a == b[off..off + |a|]
    ensures forall c :: c in a ==> c in b
  {
    forall c | c in a
      ensures c in b
    {
      var k :| 0 <= k < |a| && a[k] == c;
      assert b[off + k] == c;
    }
  }

  /** Stripping keeps a contiguous piece, so every character it keeps is
      one of the text's. */
  lemma StripChars(s: string)
    ensures forall k :: 0 <= k < |Strip(s)| ==> Strip(s)[k] in s
  {
    LStripChars(s);
    RStripChars(LStrip(s));
  }

  lemma LStripChars(s: string)
    ensures forall c :: c in LStrip(s) ==> c in s
  {
    var l := LStrip(s);
    assert s[|s| - |l|..] == s[|s| - |l|..|s| - |l| + |l|];
    SliceChars(l, s, |s| - |l|);
  }

  lemma RStripChars(s: string)
    ensures forall c :: c in RStrip(s) ==> c in s
  {
    SliceChars(RStrip(s), s, 0);
  }

  lemma AllSpaceConcat(a: string, b: string)
    ensures AllSpace(a + b) <==> AllSpace(a) && AllSpace(b)
  {
    if AllSpace(a + b) {
      assert forall i :: 0 <= i < |a| ==> a[i] == (a + b)[i];
      assert forall i :: 0 <= i < |b| ==> b[i] == (a + b)[|a| + i];
    }
  }

  lemma {:induction false} LStripAllSpace(s: string)
    requires AllSpace(s)
    ensures LStrip(s) == []
    decreases |s|
  {
    if s != [] {
      assert forall i :: 0 <= i < |s| - 1 ==> s[1..][i] == s[i + 1];
      LStripAllSpace(s[1..]);
    }
  }

  lemma StrippedEmptyAllSpace(s: string)
    requires Strip(s) == []
    ensures AllSpace(s)
  {
    var l := LStrip(s);
    var off := |s| - |l|;
    assert AllSpace(l[0..]);
    assert l[0..] == l;
    assert s == s[..off] + l;
    AllSpaceConcat(s[..off], l);
  }

  /** Stripping removes everything exactly when the text is all
      whitespace, which is also when it has no tokens. */
  lemma StripEmptyIff(s: string)
    ensures Strip(s) == [] <==> AllSpace(s)
    ensures Strip(s) == [] <==> Words(s) == []
  {
    if AllSpace(s) {
      LStripAllSpace(s);
    }
    if Strip(s) == [] {
      StrippedEmptyAllSpace(s);
    }
    WordsEmptyIff(s);
  }

  // ---------------------------------------------------------------------
  // Character filters and numbers

  /** Python's `s.replace(a, b)` for single characters. */
  function ReplaceChar(s: string, a: char, b: char): (r: string)
    ensures |r| == |s|
    ensures forall i :: 0 <= i < |s| ==> r[i] == (if s[i] == a then b else s[i])
  {
    seq(|s|, i requires 0 <= i < |s| => if s[i] == a then b else s[i])
  }

  /** Replacing a character the text lacks changes nothing. */
  lemma ReplaceAbsent(s: string, a: char, b: char)
    requires a !in s
    ensures ReplaceChar(s, a, b) == s
  {
  }

  /** Python's `s.replace(c, '')`. */
  function RemoveChar(s: string, c: char): (r: string)
    ensures c !in r
    ensures |r| <= |s|
    decreases |s|
  {
    if s == [] then []
    else if s[0] == c then RemoveChar(s[1..], c)
    else [s[0]] + RemoveChar(s[1..], c)
  }

  function DigitChar(d: nat): char
    requires d < 10
  {
    ('0' as int + d) as char
  }

  /** Python's `str(n)` for a natural number. */
  function NatToString(n: nat): (r: string)
    ensures |r| >= 1
    ensures n < 10 ==> |r| == 1
    ensures forall i :: 0 <= i < |r| ==> IsDigit(r[i])
    decreases n
  {
    if n < 10 then [DigitChar(n)] else NatToString(n / 10) + [DigitChar(n % 10)]
  }

  /** Reads a string of decimal digits back as a number. */
  function ParseNat(s: string): nat
    requires forall i :: 0 <= i < |s| ==> IsDigit(s[i])
    decreases |s|
  {
    if s == [] then 0
    else
      assert IsDigit(s[|s| - 1]);
      ParseNat(s[..|s| - 1]) * 10 + (s[|s| - 1] as int - '0' as int)
  }

  /** Decimal rendering loses nothing: the digits read back as the number. */
  lemma {:induction false} ParseNatToString(n: nat)
    ensures ParseNat(NatToString(n)) == n
    decreases n
  {
    if n >= 10 {
      var s := NatToString(n);
      assert s[..|s| - 1] == NatToString(n / 10);
      ParseNatToString(n / 10);
    }
  }
}

=== FILE: writer_agent.dfy ===
/** The deterministic part of the writer agent (agents/writer_agent.py):
    the social-media spec table with its twitter fallback and the two
    prompt templates handed to the language model. */
module WriterAgent {
  import opened Optional
  import opened Text
  import opened Assoc

  /** One entry of the writer's own platform table. */
  datatype SocialSpec = SocialSpec(limit: nat, style: string)

  /** The writer's table, in the source's order. */
  function SocialSpecs(): seq<(string, SocialSpec)> {
    [ ("twitter", SocialSpec(280, "concise, hashtags")),
      ("linkedin", SocialSpec(1300, "professional, thought leadership")),
      ("facebook", SocialSpec(500, "engaging, conversational")),
      ("instagram", SocialSpec(2200, "visual, storytelling")) ]
  }

  const TwitterSpec: SocialSpec := SocialSpec(280, "concise, hashtags")

  /** `platform_specs.get(platform.lower(), platform_specs["twitter"])`. */
  function SpecFor(platform: string): (s: SocialSpec)
    ensures Lower(platform) in Keys(SocialSpecs()) ==> Get(SocialSpecs(), Lower(platform)) == Some(s)
    ensures Lower(platform) !in Keys(SocialSpecs()) ==> s == TwitterSpec
  {
    Get(SocialSpecs(), Lower(platform)).GetOr(TwitterSpec)
  }

  /** The lookup ignores case: two names that lower-case alike get the same
      spec, and a name gets the twitter spec exactly when it lower-cases to
      "twitter" or to no name in the table. */
  lemma SpecForCaseInsensitive(a: string, b: string)
    requires Lower(a) == Lower(b)
    ensures SpecFor(a) == SpecFor(b)
    ensures SpecFor(a) == TwitterSpec <==> Lower(a) == "twitter" || Lower(a) !in Keys(SocialSpecs())
  {
    if Lower(a) in Keys(SocialSpecs()) && Lower(a) != "twitter" {
      assert Get(SocialSpecs(), Lower(a)).value.limit != 280;
    }
  }

  /** Every spec is one of the four rows, so the limit is one of the four
      numbers. */
  lemma SpecForLimits(platform: string)
    ensures SpecFor(platform).limit in {280, 1300, 500, 2200}
  {
  }

  const Line: string := "\n        "

  /** The "Maximum N characters" requirement. */
  function MaximumLine(limit: nat): string {
    "Maximum " + NatToString(limit) + " characters"
  }

  /** The "Style: ..." requirement. */
  function StyleLine(style: string): string {
    "Style: " + style
  }

  /** `create_social_media_post`: the prompt names the platform as given
      and states the limit and style of the spec the lower-cased name
      selects. */
  function SocialMediaPrompt(research: string, platform: string, topic: string): (r: string)
    ensures Contains(r, MaximumLine(SpecFor(platform).limit))
    ensures Contains(r, StyleLine(SpecFor(platform).style))
    ensures Contains(r, "Create a " + platform + " post about " + topic)
  {
    var spec := SpecFor(platform);
    var opening := "Create a " + platform + " post about " + topic;
    var intro := " using this research: " + research + Line + Line + "Requirements:" + Line + "- ";
    var pre := Line + opening + intro;
    var maximum := MaximumLine(spec.limit);
    var dash := Line + "- ";
    var style := StyleLine(spec.style);
    var rest := Line + "- Include relevant hashtags" + Line + "- Engaging and shareable" + Line;
    var head := pre + maximum + dash;
    ContainsMiddle(head, style, rest);
    ContainsMiddle(pre, maximum, dash);
    ContainsExtend(head, style, maximum);
    ContainsExtend(head + style, rest, maximum);
    ContainsMiddle(Line, opening, intro);
    ContainsExtend(pre, maximum, opening);
    ContainsExtend(pre + maximum, dash, opening);
    ContainsExtend(head, style, opening);
    ContainsExtend(head + style, rest, opening);
    head + style + rest
  }

  /** The prompt's limit is the writer's own (LinkedIn 1300), not the
      platform agent's (LinkedIn 3000). */
  lemma LinkedInPromptLimit(research: string, topic: string)
    ensures Contains(SocialMediaPrompt(research, "LinkedIn", topic), MaximumLine(1300))
  {
    assert Lower("LinkedIn") == "linkedin";
  }

  /** The sentence of the blog prompt that names topic, audience and tone. */
  function BlogBrief(topic: string, audience: string, tone: string): string {
    "Write a comprehensive blog post about " + topic + " for " + audience + " with a " + tone + " tone."
  }

  const BlogStructure: string :=
    "Structure:" + Line + "1. Compelling headline" + Line + "2. Engaging introduction" + Line
    + "3. 3-5 main sections with subheadings" + Line + "4. Conclusion with key takeaways" + Line
    + "5. Call to action"

  /** `create_blog_post`, with the source's default audience and tone: the
      prompt carries the brief and the research data. */
  function BlogPostPrompt(research: string, topic: string,
                          audience: string := "general audience",
                          tone: string := "professional"): (r: string)
    ensures Contains(r, BlogBrief(topic, audience, tone))
    ensures Contains(r, "Use this research data: " + research)
  {
    var brief := BlogBrief(topic, audience, tone);
    var data := "Use this research data: " + research;
    var tail := Line + Line + BlogStructure + Line + Line
      + "Make it informative, engaging, and well-researched." + Line;
    var r := Line + brief + Line + Line + data + tail;
    ContainsSelf(brief);
    ContainsExtend(brief, Line, brief);
    ContainsExtend(Line + brief, Line, brief);
    ContainsExtend(Line + brief + Line, Line, brief);
    ContainsExtend(Line + brief + Line + Line, data, brief);
    ContainsExtend(Line + brief + Line + Line + data, tail, brief);
    ContainsSelf(data);
    ContainsExtend(data, Line + brief + Line + Line, data);
    ContainsExtend(Line + brief + Line + Line + data, tail, data);
    r
  }
}
